=== FILE: README.md ===
# Movie rating aggregator: a Dafny model of its core

The system answers "what do the ticket platforms say about this movie?". A FastAPI endpoint,
`/movie-ratings`, hands the movie name to a LangGraph agent. The agent alternates between a
tool-calling chat model and Serper web-search tools until the model answers without a tool
call. The endpoint then turns that free-form answer into a list of validated rating records:

- a refusal gets five made-up records;
- otherwise it tries a direct JSON decode, the first-`[`-to-last-`]` slice, three code-block
  patterns with a repair step, one more array regex with bare-key quoting, a heuristic
  reading of platform names and "rating" numbers, and finally five made-up records again.

A travel itinerary planner reuses the same agent graph with a different set of search tools.
A Streamlit front end keeps a search history, draws star strings and checks the endpoint's
reply. A utility module parses prices, clock times, date ranges and locations.

The model is written in Dafny as pure functions over immutable data. The modules are:

- `Wrappers`: `Option` and `Result`.
- `Text`: ASCII lower/upper, `in`, `find`, `strip`, `replace`, digit runs.
- `Decimal`: exact decimals, `round(x, 1)`, `int()`, `float(str)`, `int(str)`.
- `Json`: the values `json.loads` yields, Python's `dict.get`, `len`, iteration, truthiness,
  `str`/`repr`, and the exceptions the code can raise.
- `Normalize`: `validate_platform_data`.
- `Extract`: the refusal check and the text patterns.
- `Synthetic`: the random and heuristic record sets.
- `Handler`: the endpoint itself.
- `Retry`: the Serper retry loop and the multi-search result dicts.
- `Search`: query rewriting and the result filter.
- `Agent`: the LangGraph graph.
- `Utils`: `utils.py`.
- `App`: `app.py`.

External calls become parameters:

- `json.loads`;
- the line-225 array regex;
- the chat model and the tool node;
- the search back ends, indexed by attempt number;
- what `random.uniform` returns;
- today's date;
- the HTTP reply the front end receives.

Ratings leave the normaliser as integers in tenths (8.5 is 85).

Behaviour of the code worth knowing:

- A record without `movie_title` gets "Unknown Movie"; the queried name is not used.
- Only the heuristic path pads its set to all five platforms. A direct decode returns as many
  records as the reply had items (`Handler.DirectArrayKept`).
- A reply that is not JSON at all (JSONDecodeError) is answered from the first-`[`-to-last-`]`
  slice alone. Without a slice, or when the slice does not decode, the endpoint returns `None`
  (`Handler.UndecodableReplyUsesBracketOnly`). The code-block, array and heuristic fallbacks
  run when the decoded reply fails validation, and also when decoding the whole reply raises
  something other than JSONDecodeError.
- `json.loads` raises ValueError for an integer literal of more than 4300 digits, and
  RecursionError for nesting too deep for the interpreter stack (`Handler.Decoding`). Where
  this lands depends on the call site:
  - on the whole reply, both go to the fallback cascade, as any other exception does
    (`Handler.OverlongNumberUsesHeuristic`);
  - on the bracket slice, ValueError is caught and gives `None`, while RecursionError escapes
    to the error envelope;
  - on a code-block candidate, raw or repaired, both escape to the error envelope, because
    only JSONDecodeError is caught there;
  - on the array-regex match, both are caught, and the heuristic takes over.
- `extract_price` removes commas before it searches for the number, so "$1,299.50" is 1299.5
  (`Utils.ThousandsWithCents`).
- The relaxed filter pass checks the deny list against the link only.
- The Serper retry loop retries after an exception as well as after an empty result.
- The error envelope "Could not parse ratings data or create synthetic data" is unreachable:
  validating the random set always succeeds (`Handler.LastResort`). The error envelopes that
  do occur come from exceptions that escape validation, or from the agent.
- A query that already contains "site:" gets the generic booking suffix, and in
  `multi_search` the exclusions too (`Search.RewriteFallsBack`).
- In the heuristic set, each platform the reply does not mention copies the first mentioned
  platform's rating plus a variation of at most half a point (`Synthetic.HeuristicFillNear`).
- A `movie_rating` that is an integer beyond the double range makes `float()` raise
  OverflowError. `validate_platform_data` catches only ValueError and TypeError, so the whole
  list fails with "int too large to convert to float" (`Normalize.HugeRatingRaises`).
  `extract_price` raises the same error for such an integer.

## Model

| member | source | states |
|---|---|---|
| Normalize.NormalizeItem | backend/main.py:24-65 | one element is accepted exactly when its rating's `float()` does not overflow (an int beyond the double range) and neither percentage's `int()` overflows (an infinite float); the rating's OverflowError comes first, neither is caught; platform and title are passed through or default to "Unknown Platform" / "Unknown Movie"; a string genre is kept, a missing one is "Drama, Action"; a rating `float()` rejects becomes 8.0; an unreadable positive share becomes 80, a readable one is clamped into 0..100; the record meets the schema invariants |
| Normalize.FromValues | backend/main.py:29-65 | once the six values are fetched: the rating's OverflowError is raised first, then an infinite percentage's; otherwise the rating is the clamped, rounded `float()`, the genre is `str()` of the value, 0 <= positive <= 100 and negative is always 100 - positive |
| Normalize.ToFloat | backend/main.py:31 | `float()` of a value: an int beyond the double range raises OverflowError; a string `float()` cannot read, `None`, a list or a dict raise an error that is caught; a float is kept; an int in range becomes that number; a readable string its value |
| Normalize.ToInt | backend/main.py:39-50 | `int()` of a value: exactly an infinite float overflows; an int is kept; a finite float is truncated toward zero; a string converts exactly when `int(str)` reads it; a bool or int is never rejected |
| Normalize.FloatThenInt | backend/main.py:31-48 | for a non-string value `float()` reads as a finite number, `int()` gives that number truncated |
| Normalize.ClampRating | backend/main.py:32 | `max(1.0, min(10.0, x))` lands in [1.0, 10.0] for every float; NaN and +inf give 10.0, -inf gives 1.0; a value strictly inside is kept; at or above 10.0 gives 10.0, at or below 1.0 gives 1.0 |
| Normalize.RatingOf | backend/main.py:29-61 | the rating raises exactly when `float()` overflows, with "int too large to convert to float"; otherwise it lies in [1.0, 10.0]; a value `float()` rejects gives 8.0; a readable one is clamped and rounded |
| Normalize.HugeRatingRaises | backend/main.py:29-34 | an int rating beyond the double range makes the element raise OverflowError |
| Normalize.RatingInRange | backend/main.py:29-61 | a finite rating already in [1.0, 10.0] is only rounded to one decimal, never moved by the clamp |
| Normalize.RatingOutOfRange | backend/main.py:29-34 | finite ratings below 1.0 become 1.0 and above 10.0 become 10.0 |
| Normalize.ValidateItem | backend/main.py:24-27 | a non-dict element raises AttributeError on `.get`; a dict raises only the rating's OverflowError or, failing that, a percentage's; otherwise it gives the record of its fields |
| Normalize.ValidateItems | backend/main.py:12-69 | the list is validated exactly when no element is rejected; the error is the first rejected element's; on success there is one record per element, in order, each the normalisation of that element |
| Normalize.ValidatedNormalized | backend/main.py:12-69 | every record of a successful validation satisfies the schema invariants |
| Normalize.NormalizeIsFromValues | backend/main.py:26-50 | the normaliser reads the six keys with the defaults "Unknown Platform", "Unknown Movie", 8.0, "Drama, Action", 80 and 20 |
| Normalize.NormalizeRow | backend/main.py:58-65 | a record dict with a finite rating, a string genre and a consistent percentage pair normalises to the same fields with the rating clamped and rounded |
| Normalize.NormalizeFixpoint | backend/main.py:12-69 | the dict emitted for a validated record normalises back to that record |
| Normalize.ValidateAll | backend/main.py:22-69 | items that each validate to the matching record validate, as a list, to exactly those records |
| Normalize.ValidateRendered | backend/main.py:58-69 | rendering validated records as dicts and validating them again gives back the same records |
| Normalize.ValidateIdempotent | backend/main.py:12-69 | validating the output of a successful validation changes nothing |
| Decimal.NearestMultiple | backend/main.py:61 | the result is a nearest multiple, within half a step of the value, and a tie goes to the even multiple |
| Decimal.RoundTenths | backend/main.py:61 | `round(x, 1)` gives a nearest tenth, within half a tenth of the exact value, and an exact tie goes to the even tenth |
| Decimal.ParseFloat | backend/main.py:31 | `float(str)` reads "inf"/"infinity" and "nan" in any case, with a sign; a finite result is within the double range and comes from a readable decimal |
| Decimal.ParseFloatOfDigits | backend/main.py:31 | a digit string reads as its value, or as infinity from the largest double on |
| Decimal.ParseInt | backend/main.py:41 | `int(str)` accepts exactly an optionally signed run of at most 4300 digits, surrounded by whitespace, and gives its value with the sign |
| Decimal.ParseIntOfDigits | backend/main.py:41 | a digit string of at most 4300 digits reads as its value; a longer one is refused |
| Decimal.TruncateSpec | app.py:177 | `int(x)` drops the fraction toward zero and keeps the sign |
| Extract.ApologyAppend | backend/main.py:98-104 | a reply flagged as a refusal stays flagged whatever text follows it |
| Extract.IsApology | backend/main.py:98-104 | a reply is a refusal exactly when its lowered text contains one of the ten phrases |
| Extract.BracketSlice | backend/main.py:154-159 | a slice exists exactly when there is a '[' before the last ']'; it opens with '[', closes with ']' and is no longer than the reply |
| Extract.BracketSliceOfWrapped | backend/main.py:154-159 | an array wrapped in prose that has no brackets of its own is recovered exactly |
| Extract.FencedFrom | backend/main.py:178 | a match of the first code-block pattern lies between an opening fence (with or without "json") and a closing newline-fence |
| Extract.BackticksFrom | backend/main.py:179 | a match of the second pattern lies between two triple-backtick fences |
| Extract.ArrayFrom | backend/main.py:180 | a match of the third pattern starts with '[' and ends with ']', at or after the search start |
| Extract.PatternMatch | backend/main.py:177-186 | the text a pattern extracts is non-empty and no longer than the reply |
| Extract.FencedRoundTrip | backend/main.py:178-186 | a body without backticks fenced as a JSON code block is extracted unchanged by the first pattern |
| Extract.BackticksRoundTrip | backend/main.py:179-186 | a body without backticks between bare triple backticks is extracted unchanged by the second pattern |
| Extract.Repair | backend/main.py:199-208 | the repaired candidate opens with '[', closes with ']', has no single quote, and is at most two characters longer |
| Extract.RepairIdempotent | backend/main.py:199-208 | repairing twice is repairing once |
| Extract.RepairFixed | backend/main.py:199-208 | a bracketed candidate without single quotes is left as it is |
| Extract.KeyAt | backend/main.py:231 | a property-name match is a run of word characters, optional whitespace and a colon |
| Extract.QuoteBareKeys | backend/main.py:231 | the substitution only inserts double quotes: every character of the result is a quote or a character of the input |
| Extract.QuoteBareKeysColons | backend/main.py:231 | quoting bare property names neither adds nor removes a colon |
| Extract.QuoteBareKeysNoColon | backend/main.py:231 | text without a colon is left unchanged by the substitution |
| Synthetic.RandomRatingBounds | backend/main.py:112-119 | with a base drawn from [7.5, 9.0] and variations from [-0.5, 0.5], every random rating lies in [7.0, 9.5] |
| Synthetic.ClampedWithin | backend/main.py:119 | clamping and rounding keep a value inside any tenth-aligned sub-range of [1.0, 10.0] that holds it |
| Synthetic.ClampedExact | backend/main.py:119 | a rating that already has one decimal and is in range is unchanged |
| Synthetic.RandomRowIs | backend/main.py:116-131 | a random rating of at most 10.0 is its own positive share, and the negative share is the rest |
| Synthetic.RandomSetShape | backend/main.py:109-134 | the random set always validates, to five records in platform order with the requested name as title, the default genre, positive share equal to the rating and the pair summing to 100 |
| Synthetic.Keep | backend/main.py:253-254 | a platform is kept exactly when its lowered name does (or does not) occur in the lowered reply |
| Synthetic.KeepPartition | backend/main.py:253-288 | the mentioned and unmentioned platforms together are the platform list |
| Synthetic.Missing | backend/main.py:287-288 | a platform is missing exactly when it is listed and not among the existing ones |
| Synthetic.MissingOfKept | backend/main.py:280-288 | filling in the platforms missing from the mentioned list gives the unmentioned ones |
| Synthetic.EveryPlatformOnce | backend/main.py:250-301 | the heuristic set names every platform exactly once (as a multiset) |
| Synthetic.CapturedRating | backend/main.py:256 | a captured rating is a non-negative number, and only for a platform the reply mentions |
| Synthetic.HeuristicRating | backend/main.py:255-265 | 8.5 without a capture; a captured value of at most 5 is doubled; a larger one is kept |
| Synthetic.HeuristicEntries | backend/main.py:250-301 | no entry when no platform is mentioned; otherwise five, in the order mentioned-then-unmentioned, each mentioned one carrying its heuristic rating, the unmentioned ones filled from the first mentioned one's rating |
| Synthetic.FilledEntries | backend/main.py:286-301 | one entry per missing platform, in order, each with a rating in [1.0, 10.0] rounded to one decimal |
| Synthetic.FilledNearTemplate | backend/main.py:286-297 | a fill rating is the template's plus a variation in [-0.5, 0.5], clamped: within half a point of the template when that stays in range, 10.0 from a template of 10.5 up, 1.0 from 0.5 down |
| Synthetic.HeuristicFillNear | backend/main.py:286-304 | each unmentioned platform's record is within half a point of the first mentioned platform's heuristic rating, or pinned to 10.0 or 1.0 beyond the range |
| Synthetic.EntriesValidate | backend/main.py:304 | the heuristic dicts always validate, to the records with clamped ratings and 80/20 shares |
| Synthetic.MentionedRatings | backend/main.py:253-304 | each mentioned platform's record carries its captured rating, doubled if needed, then clamped and rounded |
| Synthetic.HeuristicData | backend/main.py:246-310 | a set exists exactly when the reply mentions a platform; it has five records in heuristic order with the requested title, default genre, 80/20 shares and ratings in [1.0, 10.0], each mentioned platform with its own heuristic rating |
| Handler.Accept | backend/main.py:144-145 | `len()` failing raises its TypeError; a successful validation keeps the element count; a list is validated element by element |
| Handler.Outcome | backend/main.py:356-364 | a validation either succeeds or becomes the error envelope; never `None` |
| Handler.RandomResponse | backend/main.py:106-138 | a refusal's answer is always the success envelope of the five random records |
| Handler.BracketStage | backend/main.py:150-169 | `None` exactly when there is no bracket slice, or the slice is not JSON, or decoding it raises ValueError; a RecursionError becomes the error envelope; otherwise the validation of the decoded slice |
| Handler.ArrayStage | backend/main.py:221-244 | an answer only on success, exactly when the regex matches, the quote-fixed match decodes and validates; its records are that validation; a decoding that raises is caught like a failed one |
| Handler.LastResort | backend/main.py:312-355 | the last resort is always the success envelope of the five random records |
| Handler.Cascade | backend/main.py:170-355 | the cascade always answers with an envelope; a deciding code block answers first; failing that, an array-regex answer; failing that, the heuristic set when a platform is named; with no code block, no array and no platform named it is the random set |
| Handler.GetMovieRatings | backend/main.py:71-364 | an agent exception gives its error envelope; a refusal gets the random set; `None` exactly for a reply that is not JSON and whose bracket slice fails; a reply that decodes and validates is returned as validated; a reply that decodes but fails validation goes to the cascade, as does one whose decoding raises ValueError or RecursionError |
| Handler.Envelope | backend/main.py:340-364 | `None` becomes null; a success has "status" "success" and the rendered records as "data" and no "message"; an error has "status" "error", its message and empty "data" |
| Handler.CodeBlocks | backend/main.py:173-219 | the first pattern whose text decodes or raises (raw, else repaired) decides the answer: the validation of the value, or the error envelope of the exception; `None` exactly when no pattern from the given one on decides either way |
| Handler.RefusalGetsRandomSet | backend/main.py:98-138 | a refusal always gets a success with five valid records, one per platform in order, titled with the requested name |
| Handler.DirectArrayKept | backend/main.py:140-149 | a reply that decodes to a list of valid items is returned item for item, with no padding |
| Handler.OverlongNumberUsesHeuristic | backend/main.py:140-310 | a reply with no code fence that names a platform and whose decoding raises ValueError, with its array match raising too, gets the five-platform heuristic set |
| Handler.UndecodableReplyUsesBracketOnly | backend/main.py:150-169 | a reply that does not decode is answered by the bracket slice alone, and with `None` when it has no slice |
| Handler.HeuristicCoversAllPlatforms | backend/main.py:246-308 | when the heuristic runs and the reply names a platform, the answer covers all five platforms exactly once |
| Handler.OutcomeNormalized | backend/main.py:356-364 | the envelope of a validation carries only schema-valid records |
| Handler.AcceptNormalized | backend/main.py:140-149 | a successful decode-and-validate yields schema-valid records |
| Handler.CodeBlocksNormalized | backend/main.py:173-219 | the code-block stage answers only with schema-valid records |
| Handler.BracketNormalized | backend/main.py:150-169 | the bracket stage answers only with schema-valid records |
| Handler.ArrayNormalized | backend/main.py:221-244 | the array-regex stage answers only with schema-valid records |
| Handler.RandomNormalized | backend/main.py:109-138 | the random set and the last resort carry only schema-valid records |
| Handler.HeuristicNormalized | backend/main.py:246-310 | the heuristic set carries only schema-valid records |
| Handler.CascadeNormalized | backend/main.py:170-355 | every answer of the cascade carries only schema-valid records |
| Handler.ParsedNormalized | backend/main.py:140-355 | every answer to a reply that is not a refusal carries only schema-valid records |
| Handler.ResponsesNormalized | backend/main.py:82-364 | every record the endpoint returns, on any path, has a rating in [1.0, 10.0], shares in 0..100 summing to 100 |
| Search.FirstSite | backend/movie/planner.py:31-40 | the first platform token, in the order the `elif` chain tests them, that the lowered query contains |
| Search.RewriteQuery | backend/movie/planner.py:75-88 | the rewritten query always extends the original query |
| Search.RewriteChoosesFirstToken | backend/movie/planner.py:31-40 | without "site:", the first token in priority order that occurs picks the domain restriction |
| Search.RewriteFallsBack | backend/movie/planner.py:85-88 | with "site:" present or no platform token, the booking keywords (and, for the multi-search, the exclusions) are appended |
| Search.LoweredField | backend/movie/planner.py:160-162 | a missing key reads as ""; a non-string value makes `.lower()` fail |
| Search.TextsOf | backend/movie/planner.py:159-162 | a non-dict hit raises on `.get`; a dict hit gives its lowered link, title and snippet |
| Search.MentionsAny | backend/movie/planner.py:165-168 | true exactly when some token occurs in the link, title or snippet |
| Search.Select | backend/movie/planner.py:157-171 | the kept hits are exactly the input hits passing the test |
| Search.SelectSubseq | backend/movie/planner.py:157-171 | the kept hits keep their input order |
| Search.Filter | backend/movie/planner.py:135-203 | a non-dict or a dict without "organic" passes unchanged; otherwise "organic" is replaced by the strict pass, or by the relaxed pass when the strict one kept fewer than two of a non-empty list; a hit that cannot be read raises |
| Search.FilterKeepsSubsequence | backend/movie/planner.py:157-200 | the filtered hits are an order-preserving subsequence of the input, all passing the pass that was chosen |
| Search.FilterIdempotent | backend/movie/planner.py:135-203 | filtering an already filtered result changes nothing |
| Search.FilteredMovieSearch | backend/movie/planner.py:206-210 | one request for 15 results on the query rewritten without exclusions; a response is filtered; a failed request gives the error dict unfiltered |
| Search.FilteredMultiSearch | backend/movie/planner.py:212-221 | the "serper" entry of the multi-search on the rewritten query, filtered |
| Search.ErrorDictUnfiltered | backend/movie/planner.py:137-138 | an error dict has no "organic" and passes the filter untouched |
| Retry.Meaningful | backend/movie/planner.py:115 | true exactly when the body is a dict with a non-empty "organic"; a falsy body is not meaningful; a truthy non-dict can raise from `in` or `len` |
| Retry.Judge | backend/movie/planner.py:111-130 | an attempt is kept exactly when it responded with hits; a failed request is a retryable exception |
| Retry.Policy | backend/movie/planner.py:97-130 | one to three attempts; no attempt before the last made one found hits; a kept body is the result, otherwise all attempts ran and the last one's error dict is left |
| Retry.SerperWithRetry | backend/movie/planner.py:92-132 | the loop makes one to three attempts, stops at the first with hits, sleeps between attempts, and leaves the error of the last attempt when none has hits |
| Retry.StopsAtFirstHit | backend/movie/planner.py:97-118 | the first attempt with hits is kept, after that many attempts |
| Retry.ExhaustedError | backend/movie/planner.py:119-130 | without hits all three attempts run; the error names the last attempt's exception, or "No meaningful results" |
| Retry.SerperShape | backend/movie/planner.py:114-130 | the "serper" entry is a body with hits or one of the two error dicts |
| Retry.SingleSearch | backend/movie/planner.py:59-64 | one request: its body, or `{"error": message}` |
| Retry.MovieMultiSearch | backend/movie/planner.py:92-132 | the movie multi-search returns only a "serper" entry, for 15 results |
| Retry.TravelMultiSearch | backend/itinerary/planner.py:82-136 | Serper with retry for 10 results, then Tavily, then DuckDuckGo wrapped as `{"results": ...}`; each failure becomes an error dict |
| Retry.TravelKeysAlways | backend/itinerary/planner.py:122-136 | whatever the back ends do, the travel result has exactly the keys serper, tavily and duckduckgo |
| Agent.CallModel | backend/movie/planner.py:227-235 | the agent node adds one AI message |
| Agent.ShouldContinue | backend/movie/planner.py:237-239 | on to the tools exactly when the last message has tool calls, otherwise END |
| Agent.RunTools | backend/movie/planner.py:223-225 | one tool result per call, in call order, answering that call's id |
| Agent.Run | backend/movie/planner.py:237-248 | a reply without tool calls ends the run with it appended; without fuel only such a reply finishes; a finished run grows the state and ends with an AI message asking for no tool |
| Agent.RunExtendsState | backend/movie/planner.py:237-248 | a finished run only appends AI messages and tool results to the state, ending with an AI message that asks for no tool |
| Agent.RunFollowsEdges | backend/itinerary/planner.py:287-298 | a finished run is where the compiled graph reaches END: k rounds of an agent step and a tools step, then a last agent step |
| Agent.EndIsFinal | backend/movie/planner.py:241-248 | once at END the graph stays there |
| Agent.AlwaysCallingNeverEnds | backend/movie/planner.py:237-248 | a model that always asks for a tool never finishes, whatever the bound, because the graph has no iteration cap of its own |
| Agent.ModelSeesPromptAndState | backend/movie/planner.py:227-235 | each AI message is the model's reply to the system prompt followed by the state before it; the prompt is sent every time but never stored |
| Utils.RemoveChars | utils.py:57-58 | none of the removed symbols remain, and nothing new appears |
| Utils.CleanPrice | utils.py:55-61 | the cleaned price has no currency sign, comma or space, and only characters of the input |
| Utils.ExtractPrice | utils.py:44-72 | falsy input gives 0.0; an int beyond the double range raises OverflowError, exactly then; other numbers convert unchanged; the "no price" words give 0.0; a string with a digit gives a non-negative finite number or infinity |
| Utils.DigitlessPrice | utils.py:63-72 | a price string without digits gives 0.0, an infinity or NaN |
| Utils.PriceOfDigits | utils.py:63-66 | a plain digit string is read as its value, or as infinity beyond the double range |
| Utils.PriceWithCurrency | utils.py:56-66 | a currency sign in front of the digits is dropped |
| Utils.PriceDropsMinus | utils.py:51-66 | a leading minus is ignored, so "-150" is read as 150.0 |
| Decimal.NumberAtFraction | utils.py:64-66 | the number found at the start of digits, a point and more digits is one decimal: all the digits as its digits, as many places as the fraction has |
| Utils.PriceWithFraction | utils.py:54-66 | a currency sign, digits, a point and digits read as the exact decimal with as many places as the fraction has digits, or infinity beyond the double range |
| Utils.PriceIgnoresComma | utils.py:51-69 | inserting a comma anywhere in a price string never changes the price |
| Utils.NullWordPrice | utils.py:51-69 | a "no price" word, in any case, that still reaches the cleaning fails `float()` and gives 0.0 |
| Utils.ThousandsWithCents | utils.py:44-72 | "$1,299.50" is 1299.5 |
| Utils.ClockSearch | utils.py:105-109 | the leftmost clock-like match in the text |
| Utils.ReadField | utils.py:115-127 | a `strptime` field reads one or two digits, 0-23 hours, 0-59 minutes, 0-61 seconds, 1-12 for the 12-hour clock |
| Utils.Hour12To24 | utils.py:101 | a 12-hour clock hour with AM/PM maps to 0-23, PM exactly at 12 or later |
| Utils.ParseFormat | utils.py:115-127 | a parsed time is a second of the day |
| Utils.TimeOfDay | utils.py:104-127 | a parsed time is a second of the day |
| Utils.DurationSeconds | utils.py:129-136 | the duration is less than a day and leads from departure to arrival, wrapping past midnight |
| Utils.DurationEstimate | utils.py:99-149 | an unparsable departure or arrival gives "Duration information not available" |
| Utils.SameTimeZero | utils.py:129-144 | equal times give "0m" |
| Utils.FormatParts | utils.py:136-144 | hours and minutes both shown, hours only, or minutes only, as the counts require |
| Utils.EstimateMeaning | utils.py:129-144 | the estimate formats a duration under a day that leads from departure to arrival |
| Utils.OvernightDuration | utils.py:130-136 | an arrival clock time earlier than the departure is taken as the next day |
| Utils.ClockRoundTrip | utils.py:101-127 | "HH:MM" is read back as its time |
| Utils.AfternoonRoundTrip | utils.py:101-127 | "HH:MM PM" with a 1-11 hour is read as that hour plus 12 |
| Utils.IsValidDateRange | utils.py:247-255 | valid exactly when the trip has one to 31 calendar days, every one of them between today and a year from today |
| Utils.ValidRangeShape | utils.py:247-255 | valid exactly when the start is between today and a year from today and the end is between the start and the earlier of 30 days after it and a year from today |
| Utils.ValidRangeShrinks | utils.py:247-255 | a sub-range of a valid range is valid |
| Utils.AllLocationChars | utils.py:270-273 | true exactly when every character is a letter, digit, whitespace, hyphen, apostrophe, comma or period |
| Utils.IsValidLocation | utils.py:267-275 | valid exactly when the stripped name has two or more characters and every character is allowed |
| Utils.ValidLocationIff | utils.py:267-275 | valid exactly when two distinct positions hold non-blank characters and every character is allowed |
| App.UpdateHistory | app.py:226-235 | only a submitted, non-empty, new name changes the history; it is appended and the oldest entry dropped beyond five; no duplicate appears |
| App.ReplayInvariant | app.py:226-235 | after any sequence of searches the history holds at most five distinct, non-empty names, each of them searched for |
| App.LatestListed | app.py:226-235 | the latest submitted non-empty name is in the history |
| App.Stars | app.py:176-179 | `int(rating)` full stars (none when negative), one more for a fraction of a half or more when an empty one is left, then `5 - int(rating)` empty ones (none above 5) |
| App.StarsWithinFive | app.py:176-179 | for a rating from 0 to 5, five symbols: the whole part in full stars, one more at a half or above when there is room, then empty stars |
| App.StarsOverflow | app.py:176-179 | as written, a rating above 5 draws only full stars, more than five of them |
| App.EightPointSixExample | app.py:176-179 | as written, the rating 8.6 draws eight full stars |
| App.FiveStars | app.py:176-186 | the corrected bar: the star count is clamped to 0..5, so the string always has five symbols |
| App.FiveStarsAgrees | app.py:176-179 | on ratings from 0 to 5 the corrected bar is the original one |
| App.RecordBar | app.py:176-186 | every validated record's rating draws a five-symbol bar under the corrected drawing |
| App.FetchOutcome | app.py:45-109 | ratings exactly for status 200 with a dict body holding "status" and "data", and then the "data" value; an HTTP error exactly for another status; "Invalid response structure" exactly for status 200 when the `"status" in data` test finds nothing, or it finds the key and the `"data" in data` test finds nothing |
| App.DictMissingKey | app.py:50-70 | for a dict body with status 200, the structure error means one of the two keys is missing |
| App.FetchMovieRatings | app.py:50-70 | a value exactly on the ratings branch, otherwise `None` |
| App.ReadsEnvelope | app.py:56-58 | the front end reads a success envelope as its rendered records and an error envelope as an empty list; the endpoint's `None` makes the key check raise |
| App.ErrorLooksEmpty | app.py:265-272 | an error envelope reads as an empty list, which the page treats like no reply at all: the "No ratings found" error |

## Findings

| source | as written | input that shows it | evidently intended | confidence | as-written member | corrected member |
|---|---|---|---|---|---|---|
| app.py:177-179 | the star string is `int(rating)` full stars plus `5 - int(rating)` empty ones, with no cap; the backend's ratings run from 1.0 to 10.0 | a validated rating of 8.6 draws eight full stars next to the label "8.6/5.0" | a bar of exactly five symbols | not executed | App.StarsOverflow | App.FiveStars |

`App.EightPointSixExample` shows the input concretely. `App.FiveStarsAgrees` shows that the
corrected bar equals the original on ratings from 0 to 5. `App.RecordBar` states the corrected
bar for every record the backend can send.

## Left out

- Network and model I/O are not modelled. This covers the HTTP requests, Groq, Serper, Tavily,
  DuckDuckGo, FastAPI and Streamlit rendering. Each appears as a parameter (an oracle) or is
  not modelled at all.
- `json.loads` is an oracle. The model does not implement a JSON parser.
- The line-225 regex (`[ {…} (, {…})* ]`) is an oracle, because of its nested lazy repetition.
  The three code-block patterns, the bare-key substitution and the heuristic rating capture
  are modelled concretely.
- `Agent.Run` takes a fuel bound on the number of visits to the tools node. LangGraph's own
  `recursion_limit` (25 supersteps by default, then GraphRecursionError) is framework
  behaviour. `Agent.AlwaysCallingNeverEnds` shows that the graph itself sets no bound.
- ToolNode's handling of unknown tools and tool exceptions is folded into the tool oracle's
  output text. `add_messages` merging by message id is left out: every message is appended.
- Binary floating point is not modelled. Decimals are exact, and `round(x, 1)` rounds half to
  even on the exact value rather than on the nearest double.
- Synthetic.PositiveFromRating: computes `rating / 10 * 100` exactly. With binary doubles,
  some ratings land just below a whole number and `int()` drops one point: 8.7 gives
  86.99999999999999, so 86 rather than 87. This is left out with the rest of binary floating
  point.
- Python's exponent notation in `str(float)` for very large or small values is not modelled.
- Decimal.ParseFloat: exponents, digit-group underscores and non-ASCII digits in numeric
  strings are not read. Ratings and prices written that way fall into the failure branch.
  Finite values between the largest double and the overflow bound are kept exact rather than
  rounded to the largest double.
- Decimal.ParseInt: digit-group underscores and non-ASCII digits are not read.
- Synthetic.CapturedRating: keeps a captured number too large for a double as an exact
  decimal, where `float()` reads infinity. Both clamp to 10.0.
- `json.loads` raises ValueError on an integer literal of more than 4300 digits, modelled as
  `Handler.Decoding.TooManyDigits`. So no decoded int has more than 4300 digits, and `str()`
  of such an int is not modelled.
- Unicode case mapping and the Unicode classes of `\d` and `\w` are reduced to ASCII.
  Whitespace (`\s`, `str.strip()`) uses Python's full `isspace` set.
- App.FetchOutcome: the message of a 200 reply whose body is not JSON is abbreviated to "Expecting value". The decoder's full message adds the line, column and character position, and says "Extra data" for a body with trailing text; the model keeps no body text to compute it from.
- Python's `repr` escaping of quotes and control characters inside `str()` of containers is
  not modelled.
- The randomness of `random.uniform` is a parameter. `Synthetic.ValidDraws` states the ranges
  it can return. The heuristic fill reuses the same variation sequence.
- `datetime.now()` is a parameter. Dates are day numbers, so `is_valid_date_range` compares
  integers.
- `strptime` locale names for AM/PM are not modelled: only "AM" and "PM", in either case.
- `new_display_flights.py`, `fetch_itinerary_data`, `format_price` and the `show_*` helpers are
  presentation or I/O and are not part of this model. The same goes for `config.py`, the
  schemas, the prompts and the test scripts.
- App.Stars: star strings for a rating that is not a finite number (a string, `None`, NaN) are
  not modelled. Those inputs make `int()` or `%` raise in the front end.
- Logging, `print` and the API log kept in the Streamlit session state have no effect on
  results and are left out.
- Agent.RunFollowsEdges: states the number of rounds as an existential out-parameter `k`, not
  as a count function.

=== FILE: agent.dfy ===
/** The LangGraph agent both planners compile: a state of messages, an "agent" node that asks
    the chat model (with the system prompt in front) for the next message, a "tools" node that
    runs the tool calls that message asks for, and the edges START → agent, tools → agent and
    agent → tools or END. The chat model and the tools are oracles. */
module Agent {
  import opened Wrappers

  /** One tool call an AI message asks for. */
  datatype ToolCall = ToolCall(id: string, name: string, args: string)

  datatype Message =
    | System(content: string)
    | Human(content: string)
    | Ai(content: string, calls: seq<ToolCall>)
    | ToolResult(callId: string, content: string)

  /** What the tool-bound chat model answers to a list of messages. */
  datatype Reply = Reply(content: string, calls: seq<ToolCall>)

  /** The compiled graph's ingredients: the chat model, the tool node's output for one call
      (its own error text included), and the system prompt. */
  datatype Graph = Graph(model: seq<Message> -> Reply, tools: ToolCall -> string, prompt: string)

  /** `call_model`: the model sees the system prompt and then the whole state; only its reply
      is added to the state. */
  function CallModel(g: Graph, state: seq<Message>): (m: Message)
    ensures m.Ai?
  {
    var reply := g.model([System(g.prompt)] + state);
    Ai(reply.content, reply.calls)
  }

  /** Where the conditional edge out of the agent node leads. */
  datatype Node = AgentNode | ToolsNode | End

  /** `should_continue`: on to the tools while the agent's message carries tool calls. */
  function ShouldContinue(last: Message): (n: Node)
    requires last.Ai?
    ensures n == ToolsNode <==> |last.calls| > 0
    ensures n != AgentNode
  {
    if |last.calls| > 0 then ToolsNode else End
  }

  /** The tool node's messages: one result per call, in the order of the calls. */
  function RunTools(g: Graph, calls: seq<ToolCall>): (r: seq<Message>)
    ensures |r| == |calls|
    ensures forall i :: 0 <= i < |r| ==> r[i] == ToolResult(calls[i].id, g.tools(calls[i]))
  {
    if |calls| == 0 then [] else [ToolResult(calls[0].id, g.tools(calls[0]))] + RunTools(g, calls[1..])
  }

  /** The graph run from the agent node, with at most `fuel` visits to the tools node: the
      final state, or None when the fuel runs out first. The source itself sets no bound. */
  function Run(g: Graph, state: seq<Message>, fuel: nat): (r: Option<seq<Message>>)
    ensures |CallModel(g, state).calls| == 0 ==> r == Some(state + [CallModel(g, state)])
    ensures fuel == 0 ==> (r.Some? <==> |CallModel(g, state).calls| == 0)
    ensures r.Some? ==> |state| < |r.value| && r.value[|r.value| - 1].Ai? && |r.value[|r.value| - 1].calls| == 0
    decreases fuel
  {
    var reply := CallModel(g, state);
    if ShouldContinue(reply) == End then Some(state + [reply])
    else if fuel == 0 then None
    else Run(g, state + [reply] + RunTools(g, reply.calls), fuel - 1)
  }

  /** A finished run only appends to the state: AI messages and tool results, ending with an
      AI message that asks for no tool. */
  lemma {:induction false} RunExtendsState(g: Graph, state: seq<Message>, fuel: nat)
    requires Run(g, state, fuel).Some?
    ensures var r := Run(g, state, fuel).value;
      |state| < |r| && r[..|state|] == state &&
      r[|r| - 1].Ai? && |r[|r| - 1].calls| == 0 &&
      forall i :: |state| <= i < |r| ==> r[i].Ai? || r[i].ToolResult?
    decreases fuel
  {
    var reply := CallModel(g, state);
    if |reply.calls| > 0 {
      var mid := [reply] + RunTools(g, reply.calls);
      assert state + mid == state + [reply] + RunTools(g, reply.calls);
      RunWithCalls(g, state, fuel);
      RunExtendsState(g, state + mid, fuel - 1);
      ExtendedTwice(state, mid, Run(g, state, fuel).value);
    } else {
      RunWithoutCalls(g, state, fuel);
    }
  }

  /** A state extended by AI messages and tool results, then extended again the same way. */
  lemma ExtendedTwice(state: seq<Message>, mid: seq<Message>, r: seq<Message>)
    requires forall i :: 0 <= i < |mid| ==> mid[i].Ai? || mid[i].ToolResult?
    requires |state + mid| < |r| && r[..|state + mid|] == state + mid
    requires forall i :: |state + mid| <= i < |r| ==> r[i].Ai? || r[i].ToolResult?
    ensures |state| < |r| && r[..|state|] == state
    ensures forall i :: |state| <= i < |r| ==> r[i].Ai? || r[i].ToolResult?
  {
    assert r[..|state|] == (state + mid)[..|state|];
    forall i | |state| <= i < |state + mid| ensures r[i].Ai? || r[i].ToolResult? {
      assert r[i] == (state + mid)[i] == mid[i - |state|];
    }
  }

  /** `graph.invoke({"messages": [question]})`: START leads to the agent node. */
  function Invoke(g: Graph, question: string, fuel: nat): Option<seq<Message>> {
    Run(g, [Human(question)], fuel)
  }

  /** A position in the compiled graph: the node about to run and the state so far. */
  datatype Config = Config(node: Node, state: seq<Message>)

  /** One superstep of the graph along its edges. The tools node only ever follows an agent
      message, so the empty-call fallback there is never taken. */
  function Step(g: Graph, c: Config): Config {
    match c.node
    case AgentNode =>
      var reply := CallModel(g, c.state);
      Config(ShouldContinue(reply), c.state + [reply])
    case ToolsNode =>
      var calls := if |c.state| > 0 && c.state[|c.state| - 1].Ai? then c.state[|c.state| - 1].calls else [];
      Config(AgentNode, c.state + RunTools(g, calls))
    case End => c
  }

  /** n supersteps. */
  function Steps(g: Graph, c: Config, n: nat): Config
    decreases n
  {
    if n == 0 then c else Steps(g, Step(g, c), n - 1)
  }

  /** The fuel-bounded run is the graph walked edge by edge: a finished run is exactly where
      the graph reaches END, after k rounds of an agent step and a tools step, plus the last
      agent step. */
  lemma {:induction false} RunFollowsEdges(g: Graph, state: seq<Message>, fuel: nat) returns (k: nat)
    requires Run(g, state, fuel).Some?
    ensures Steps(g, Config(AgentNode, state), 2 * k + 1) == Config(End, Run(g, state, fuel).value)
    decreases fuel
  {
    var reply := CallModel(g, state);
    if |reply.calls| > 0 {
      RunWithCalls(g, state, fuel);
      var k' := RunFollowsEdges(g, state + [reply] + RunTools(g, reply.calls), fuel - 1);
      EdgesOfRound(g, state, fuel, k');
      k := k' + 1;
    } else {
      RunWithoutCalls(g, state, fuel);
      k := 0;
    }
  }

  /** The inductive step: when the walk from after the first round reaches END where the rest
      of the run ends, the walk from the start does too, two supersteps later. */
  lemma EdgesOfRound(g: Graph, state: seq<Message>, fuel: nat, k: nat)
    requires |CallModel(g, state).calls| > 0 && fuel > 0
    requires var reply := CallModel(g, state);
      var after := state + [reply] + RunTools(g, reply.calls);
      Run(g, after, fuel - 1).Some? &&
      Steps(g, Config(AgentNode, after), 2 * k + 1) == Config(End, Run(g, after, fuel - 1).value)
    ensures Run(g, state, fuel).Some?
    ensures Steps(g, Config(AgentNode, state), 2 * (k + 1) + 1) == Config(End, Run(g, state, fuel).value)
  {
    var reply := CallModel(g, state);
    var after := state + [reply] + RunTools(g, reply.calls);
    RunWithCalls(g, state, fuel);
    AgentThenTools(g, state);
    TwoStepsThen(g, Config(AgentNode, state), Config(AgentNode, after), 2 * k + 1,
      2 * (k + 1) + 1, Run(g, after, fuel - 1).value, Run(g, state, fuel).value);
  }

  /** Two supersteps that lead to c2, then n more from there to END. */
  lemma TwoStepsThen(g: Graph, c0: Config, c2: Config, n: nat, m: nat, final: seq<Message>, same: seq<Message>)
    requires Step(g, Step(g, c0)) == c2
    requires Steps(g, c2, n) == Config(End, final)
    requires m == n + 2 && same == final
    ensures Steps(g, c0, m) == Config(End, same)
  {
    assert Steps(g, c0, n + 2) == Steps(g, Step(g, c0), n + 1);
  }

  /** One round of the run: a reply with tool calls costs one unit of fuel and continues from
      the state with the reply and the tool results. */
  lemma RunWithCalls(g: Graph, state: seq<Message>, fuel: nat)
    requires |CallModel(g, state).calls| > 0
    ensures var reply := CallModel(g, state);
      var after := state + [reply] + RunTools(g, reply.calls);
      Run(g, state, fuel) == (if fuel == 0 then None else Run(g, after, fuel - 1))
  {
  }

  /** A reply without tool calls ends the run there, and the graph at END one superstep
      later. */
  lemma RunWithoutCalls(g: Graph, state: seq<Message>, fuel: nat)
    requires |CallModel(g, state).calls| == 0
    ensures Run(g, state, fuel) == Some(state + [CallModel(g, state)])
    ensures Steps(g, Config(AgentNode, state), 1) == Config(End, state + [CallModel(g, state)])
  {
    assert Steps(g, Config(AgentNode, state), 1) == Step(g, Config(AgentNode, state));
  }

  /** A reply with tool calls leads through the tools node and back to the agent, with the
      reply and the tool results added to the state. */
  lemma AgentThenTools(g: Graph, state: seq<Message>)
    requires |CallModel(g, state).calls| > 0
    ensures var reply := CallModel(g, state);
      Step(g, Step(g, Config(AgentNode, state))) ==
        Config(AgentNode, state + [reply] + RunTools(g, reply.calls))
  {
    var reply := CallModel(g, state);
    var next := state + [reply];
    assert Step(g, Config(AgentNode, state)) == Config(ToolsNode, next);
    assert next[|next| - 1] == reply;
  }

  /** END is final: once there, further steps change nothing. */
  lemma {:induction false} EndIsFinal(g: Graph, state: seq<Message>, n: nat)
    ensures Steps(g, Config(End, state), n) == Config(End, state)
    decreases n
  {
    if n > 0 {
      EndIsFinal(g, state, n - 1);
    }
  }

  /** A model that always asks for a tool never lets the run finish, whatever the fuel: the
      graph itself has no iteration cap. */
  lemma {:induction false} AlwaysCallingNeverEnds(g: Graph, state: seq<Message>, fuel: nat)
    requires forall h :: |g.model(h).calls| > 0
    ensures Run(g, state, fuel).None?
    decreases fuel
  {
    var reply := CallModel(g, state);
    assert |g.model([System(g.prompt)] + state).calls| > 0;
    if fuel > 0 {
      AlwaysCallingNeverEnds(g, state + [reply] + RunTools(g, reply.calls), fuel - 1);
    }
  }

  /** Every AI message the run adds is the model's reply to the system prompt followed by the
      state up to that message, so the prompt is sent on every call but never stored. */
  lemma {:induction false} ModelSeesPromptAndState(g: Graph, state: seq<Message>, fuel: nat)
    requires Run(g, state, fuel).Some?
    ensures var r := Run(g, state, fuel).value;
      forall i :: |state| <= i < |r| && r[i].Ai? ==> r[i] == CallModel(g, r[..i])
    decreases fuel
  {
    var r := Run(g, state, fuel).value;
    var reply := CallModel(g, state);
    var next := state + [reply];
    RunExtendsState(g, state, fuel);
    if |reply.calls| > 0 {
      var tools := RunTools(g, reply.calls);
      var after := next + tools;
      RunWithCalls(g, state, fuel);
      ModelSeesPromptAndState(g, after, fuel - 1);
      RunExtendsState(g, after, fuel - 1);
      assert r[..|after|] == after;
      forall i | |state| <= i < |r|
        ensures r[i].Ai? ==> r[i] == CallModel(g, r[..i])
      {
        if i == |state| {
          assert r[i] == after[i] == reply;
        } else if i < |after| {
          assert r[i] == after[i] == tools[i - |next|];
        }
      }
    } else {
      RunWithoutCalls(g, state, fuel);
    }
  }
}

=== FILE: app.dfy ===
/** The Streamlit front end's logic: the recent-searches list kept in the session, the star
    string drawn for each rating card, and how a reply of the `/movie-ratings` endpoint is
    turned into the list the cards are drawn from. */
module App {
  import opened Wrappers
  import opened Text
  import opened Decimal
  import opened Json
  import opened Normalize
  import opened Handler

  // Search history

  /** How many recent searches the sidebar keeps. */
  const HistoryLimit: nat := 5

  predicate Distinct(h: seq<string>) {
    forall i, j :: 0 <= i < j < |h| ==> h[i] != h[j]
  }

  /** One run of the search form: was the button pressed, and what the text box held. */
  datatype Search = Search(submitted: bool, name: string)

  /** The history update after the form: a pressed button with a non-empty, new name
      appends it, and the oldest entry goes once there are more than five. */
  function UpdateHistory(history: seq<string>, s: Search): (r: seq<string>)
    ensures !s.submitted || s.name == "" || s.name in history ==> r == history
    ensures s.submitted && s.name != "" ==> s.name in r
    ensures s.submitted && s.name != "" && s.name !in history ==>
      r[|r| - 1] == s.name &&
      |r| == (if |history| < HistoryLimit then |history| + 1 else |history|) &&
      r[..|r| - 1] == history[|history| + 1 - |r|..]
    ensures forall x :: x in r ==> x in history || x == s.name
    ensures |history| <= HistoryLimit ==> |r| <= HistoryLimit
    ensures Distinct(history) ==> Distinct(r)
  {
    if !s.submitted || s.name == "" || s.name in history then history
    else
      var appended := history + [s.name];
      var r := if |appended| > HistoryLimit then appended[1..] else appended;
      assert r[..|r| - 1] == history[|history| + 1 - |r|..];
      assert r[|r| - 1] == s.name;
      assert forall x :: x in r ==> x in appended;
      r
  }

  /** The history after a sequence of form runs in one session, starting empty. */
  function Replay(searches: seq<Search>): seq<string>
    decreases |searches|
  {
    if |searches| == 0 then []
    else UpdateHistory(Replay(searches[..|searches| - 1]), searches[|searches| - 1])
  }

  /** A name that was searched for at some point. */
  predicate Searched(searches: seq<Search>, x: string) {
    exists i :: 0 <= i < |searches| && searches[i].submitted && searches[i].name == x
  }

  /** Whatever is searched, the sidebar shows at most five distinct names, each of them one
      that was searched for, and never the empty name. */
  lemma {:induction false} ReplayInvariant(searches: seq<Search>)
    ensures var h := Replay(searches);
      |h| <= HistoryLimit && Distinct(h) &&
      forall x :: x in h ==> x != "" && Searched(searches, x)
    decreases |searches|
  {
    if |searches| > 0 {
      var prefix := searches[..|searches| - 1];
      var last := searches[|searches| - 1];
      ReplayInvariant(prefix);
      var h0 := Replay(prefix);
      var h := UpdateHistory(h0, last);
      assert h == Replay(searches);
      forall x | x in h
        ensures x != "" && Searched(searches, x)
      {
        SearchedGrows(searches, x, h0, h);
      }
    }
  }

  /** A name in the history after the last search was either there before or is that
      search's. */
  lemma SearchedGrows(searches: seq<Search>, x: string, h0: seq<string>, h: seq<string>)
    requires |searches| > 0
    requires forall y :: y in h0 ==> y != "" && Searched(searches[..|searches| - 1], y)
    requires h == UpdateHistory(h0, searches[|searches| - 1])
    requires x in h
    ensures x != "" && Searched(searches, x)
  {
    var prefix := searches[..|searches| - 1];
    var last := searches[|searches| - 1];
    if x in h0 {
      var i :| 0 <= i < |prefix| && prefix[i].submitted && prefix[i].name == x;
      assert searches[i] == prefix[i];
    } else {
      assert x == last.name && last.submitted && last.name != "";
    }
  }

  /** The latest search is always listed. */
  lemma LatestListed(searches: seq<Search>)
    requires |searches| > 0
    requires searches[|searches| - 1].submitted && searches[|searches| - 1].name != ""
    ensures searches[|searches| - 1].name in Replay(searches)
  {
  }

  // Star strings

  const Full: char := '★'
  const Empty: char := '☆'

  /** At least half-way to the next whole number: `x % 1 >= 0.5`, with Python's floor
      modulo, which Dafny's `%` matches for a positive divisor. */
  predicate HalfUp(d: Dec) {
    2 * (d.m % Pow10(d.e)) >= Pow10(d.e)
  }

  /** The star string as written: `int(rating)` full stars, `5 - int(rating)` empty ones, and
      the first empty star filled when the fraction is at least a half. */
  function Stars(d: Dec): (r: string)
    ensures var n := Truncate(d);
      var full := if n > 0 then n else 0;
      var total := full + if n < 5 then 5 - n else 0;
      StarBar(r, if HalfUp(d) && full < total then full + 1 else full, total)
  {
    var n := Truncate(d);
    var base := Repeat(Full, n) + Repeat(Empty, 5 - n);
    BaseBar(d);
    if HalfUp(d) then
      var full := if n > 0 then n else 0;
      FillFirst(base, full, full + if n < 5 then 5 - n else 0);
      ReplaceFirst(base, Empty, Full)
    else base
  }

  /** Full stars then empty ones, `full` of the first and `total` in all. */
  predicate StarBar(s: string, full: nat, total: nat) {
    |s| == total && full <= total &&
    (forall i :: 0 <= i < full ==> s[i] == Full) &&
    (forall i :: full <= i < total ==> s[i] == Empty)
  }

  lemma FindFirstEmpty(s: string, full: nat, total: nat)
    requires StarBar(s, full, total) && full < total
    ensures Find(s, Empty) == Some(full)
  {
    assert s[full] == Empty;
    assert Find(s, Empty).Some?;
    var k := Find(s, Empty).value;
    assert k <= full;
    assert s[k] == Empty;
    assert k >= full;
  }

  lemma NoEmpty(s: string, total: nat)
    requires StarBar(s, total, total)
    ensures Find(s, Empty).None?
  {
    assert forall j :: 0 <= j < |s| ==> s[j] == Full;
    FindAbsent(s, Empty);
  }

  /** The base string is a bar of `int(rating)` full stars (none when negative) followed by
      `5 - int(rating)` empty ones (none above 5). */
  lemma BaseBar(d: Dec)
    ensures var n := Truncate(d);
      var full := if n > 0 then n else 0;
      StarBar(Repeat(Full, n) + Repeat(Empty, 5 - n), full, full + if n < 5 then 5 - n else 0)
  {
    var n := Truncate(d);
    var a := Repeat(Full, n);
    var b := Repeat(Empty, 5 - n);
    assert forall i :: 0 <= i < |a| ==> (a + b)[i] == a[i];
    assert forall i :: |a| <= i < |a| + |b| ==> (a + b)[i] == b[i - |a|];
  }

  /** Filling the first empty star of a bar makes one more full star, if there is an empty
      one. */
  lemma FillFirst(base: string, full: nat, total: nat)
    requires StarBar(base, full, total)
    ensures StarBar(ReplaceFirst(base, Empty, Full), if full < total then full + 1 else full, total)
  {
    var r := ReplaceFirst(base, Empty, Full);
    if full < total {
      FindFirstEmpty(base, full, total);
      assert r == base[..full] + [Full] + base[full + 1..];
      assert forall i :: 0 <= i < full ==> r[i] == base[i];
      assert forall i :: full + 1 <= i < total ==> r[i] == base[i];
    } else {
      NoEmpty(base, total);
    }
  }

  /** For a rating from 0 up to 5 the string has five symbols: `int(rating)` full stars, one
      more for a fraction of a half or more when there is room, then empty stars. */
  lemma StarsWithinFive(d: Dec)
    requires 0 <= Truncate(d) <= 5
    ensures var n := Truncate(d);
      StarBar(Stars(d), if HalfUp(d) && n < 5 then n + 1 else n, 5)
  {
    var n := Truncate(d);
    var base := Repeat(Full, n) + Repeat(Empty, 5 - n);
    BaseBar(d);
    if HalfUp(d) {
      FillFirst(base, n, 5);
    }
  }

  /** As written, a rating above 5 draws more than five symbols: `int(rating)` full stars and
      no empty one, since `"☆" * (5 - n)` is empty for n > 5. */
  lemma StarsOverflow(d: Dec)
    requires Truncate(d) > 5
    ensures Stars(d) == Repeat(Full, Truncate(d))
    ensures |Stars(d)| > 5
  {
    var n := Truncate(d);
    BaseBar(d);
    var base := Repeat(Full, n) + Repeat(Empty, 5 - n);
    assert base == Repeat(Full, n);
    if HalfUp(d) {
      NoEmpty(base, n);
    }
  }

  /** A rating of 8.6, as the backend sends it, draws eight full stars. */
  lemma EightPointSixExample()
    ensures Stars(Dec(86, 1)) == Repeat(Full, 8)
  {
    assert Truncate(Dec(86, 1)) == 8;
    StarsOverflow(Dec(86, 1));
  }

  /** The five-symbol bar a `/5.0` label calls for: the star count is clamped to 0..5 before
      drawing, so the string always has five symbols. */
  function FiveStars(d: Dec): (r: string)
    ensures var n := Truncate(d);
      var c := if n < 0 then 0 else if n > 5 then 5 else n;
      StarBar(r, if HalfUp(d) && c < 5 then c + 1 else c, 5)
  {
    var n := Truncate(d);
    var c := if n < 0 then 0 else if n > 5 then 5 else n;
    var base := Repeat(Full, c) + Repeat(Empty, 5 - c);
    BarOf(c);
    if HalfUp(d) then FillFirst(base, c, 5); ReplaceFirst(base, Empty, Full) else base
  }

  lemma BarOf(c: nat)
    requires c <= 5
    ensures StarBar(Repeat(Full, c) + Repeat(Empty, 5 - c), c, 5)
  {
    var a := Repeat(Full, c);
    var b := Repeat(Empty, 5 - c);
    assert forall i :: 0 <= i < |a| ==> (a + b)[i] == a[i];
    assert forall i :: |a| <= i < |a| + |b| ==> (a + b)[i] == b[i - |a|];
  }

  /** On the ratings the string was drawn for, from 0 up to 5, the clamped bar is the
      original one. */
  lemma FiveStarsAgrees(d: Dec)
    requires 0 <= Truncate(d) <= 5
    ensures FiveStars(d) == Stars(d)
  {
    StarsWithinFive(d);
    var n := Truncate(d);
    var full := if HalfUp(d) && n < 5 then n + 1 else n;
    StarBarUnique(FiveStars(d), Stars(d), full, 5);
  }

  lemma StarBarUnique(a: string, b: string, full: nat, total: nat)
    requires StarBar(a, full, total) && StarBar(b, full, total)
    ensures a == b
  {
    forall i | 0 <= i < total
      ensures a[i] == b[i]
    {
      if i < full {
        assert a[i] == Full && b[i] == Full;
      } else {
        assert a[i] == Empty && b[i] == Empty;
      }
    }
  }

  /** Every validated record's rating (1.0 to 10.0) draws a five-symbol bar under the
      clamped drawing, full up to the whole part and half-up rounding to the next star. */
  lemma RecordBar(r: Rec)
    requires Normalized(r)
    ensures var n := r.rating / 10;
      var c := if n > 5 then 5 else n;
      StarBar(FiveStars(Dec(r.rating, 1)), if r.rating % 10 >= 5 && c < 5 then c + 1 else c, 5)
  {
    var d := Dec(r.rating, 1);
    assert Pow10(1) == 10;
    assert Truncate(d) == r.rating / 10;
  }

  // The endpoint reply

  /** What `requests.post` gives: a status code and the body `response.json()` decodes (None
      when it is not JSON), or one of the two request failures handled by name. */
  datatype HttpReply = Answered(status: int, body: Option<JVal>) | TimedOut | ConnectionFailed

  /** The branch `fetch_movie_ratings` ends in. */
  datatype Fetch =
    | Ratings(data: JVal)       // `data["data"]`
    | BadStructure              // "Invalid response structure"
    | HttpError(status: int)    // a status other than 200
    | Timeout
    | NoConnection
    | Crashed(message: string)  // any other exception, caught last

  /** `key in data` for a decoded JSON body. */
  function KeyIn(key: string, data: JVal): Result<bool, Exc> {
    match data
    case JObj(fields) => Ok(HasKey(fields, key))
    case JArr(items) => Ok(JStr(key) in items)
    case JStr(s) => Ok(Contains(s, key))
    case _ => Err(NotContainer(TypeName(data)))
  }

  /** `data["data"]` after both keys were found. */
  function Index(data: JVal): Result<JVal, Exc> {
    match data
    case JObj(fields) => if HasKey(fields, "data") then Ok(Lookup(fields, "data").value) else Err(Foreign("'data'"))
    case JArr(_) => Err(ListIndexedByStr)
    case JStr(_) => Err(StrIndexedByStr)
    case _ => Err(NotContainer(TypeName(data)))
  }

  /** The message `response.json()` raises on a body that is not JSON, abbreviated: the
      decoder's message also names the line, column and character position, and a body with
      trailing text gets "Extra data" instead. */
  const DecodeFailure := "Expecting value"

  function FetchOutcome(reply: HttpReply): (r: Fetch)
    ensures r.Ratings? <==>
      reply.Answered? && reply.status == 200 && reply.body.Some? && reply.body.value.JObj? &&
      HasKey(reply.body.value.fields, "status") && HasKey(reply.body.value.fields, "data")
    ensures r.Ratings? ==> Lookup(reply.body.value.fields, "data") == Some(r.data)
    ensures r.HttpError? <==> reply.Answered? && reply.status != 200
    ensures r.BadStructure? <==>
      reply.Answered? && reply.status == 200 && reply.body.Some? &&
      (KeyIn("status", reply.body.value) == Ok(false) ||
       (KeyIn("status", reply.body.value) == Ok(true) && KeyIn("data", reply.body.value) == Ok(false)))
  {
    match reply
    case TimedOut => Timeout
    case ConnectionFailed => NoConnection
    case Answered(status, body) =>
      if status != 200 then HttpError(status)
      else
        match body
        case None => Crashed(DecodeFailure)
        case Some(data) =>
          match KeyIn("status", data)
          case Err(e) => Crashed(Message(e))
          case Ok(hasStatus) =>
            if !hasStatus then BadStructure
            else
              match KeyIn("data", data)
              case Err(e) => Crashed(Message(e))
              case Ok(hasData) =>
                if !hasData then BadStructure
                else
                  match Index(data)
                  case Ok(v) => Ratings(v)
                  case Err(e) => Crashed(Message(e))
  }

  /** For a dict body with status 200, "Invalid response structure" means a key is missing. */
  lemma DictMissingKey(fields: seq<Field>)
    ensures FetchOutcome(Answered(200, Some(JObj(fields)))).BadStructure? <==>
      !HasKey(fields, "status") || !HasKey(fields, "data")
  {
  }

  /** `fetch_movie_ratings`: the ratings list, or None on every other branch. */
  function FetchMovieRatings(reply: HttpReply): (r: Option<JVal>)
    ensures r.Some? <==> FetchOutcome(reply).Ratings?
    ensures r.Some? ==> r.value == FetchOutcome(reply).data
  {
    match FetchOutcome(reply)
    case Ratings(v) => Some(v)
    case _ => None
  }

  /** The endpoint's envelopes as the front end reads them: a success hands over the rendered
      records, an error envelope an empty list (its message and status go unread), and the
      `None` body of a run that fell through is a crash on `in`. */
  lemma ReadsEnvelope(r: Response)
    ensures r.Success? ==> FetchMovieRatings(Answered(200, Some(Envelope(r)))) == Some(JArr(Render(r.data)))
    ensures r.Failure? ==> FetchMovieRatings(Answered(200, Some(Envelope(r)))) == Some(JArr([]))
    ensures r.NoBody? ==> FetchOutcome(Answered(200, Some(Envelope(r)))) == Crashed(Message(NotContainer("NoneType")))
  {
    match r
    case Success(data) =>
      var f := Envelope(r).fields;
      assert f[0].key == "status" && f[1].key == "data";
      assert HasKey(f, "status") && HasKey(f, "data");
    case Failure(m) =>
      var f := Envelope(r).fields;
      assert f[0].key == "status" && f[2].key == "data";
      assert HasKey(f, "status") && HasKey(f, "data");
      assert Lookup(f, "data") == Some(JArr([]));
    case NoBody =>
  }

  /** `main()` shows its "No ratings found" error whenever what `fetch_movie_ratings` returned
      is falsy: None, or an empty list. */
  predicate ShowsNoRatingsError(fetched: Option<JVal>) {
    fetched.None? || !Truthy(fetched.value)
  }

  /** An error envelope reaches the user as the same "No ratings found" error that every
      failed fetch produces: its data is the empty list, which is falsy. */
  lemma ErrorLooksEmpty(m: string, other: HttpReply)
    ensures var r := FetchMovieRatings(Answered(200, Some(Envelope(Failure(m)))));
      r == Some(JArr([])) && ShowsNoRatingsError(r)
    ensures !FetchOutcome(other).Ratings? ==> ShowsNoRatingsError(FetchMovieRatings(other))
  {
    ReadsEnvelope(Failure(m));
  }
}

=== FILE: decimal.dfy ===
/** Exact decimal numbers standing in for Python floats, with the conversions the
    normaliser performs: `float(str)`, `int(str)`, `int(float)`, `round(x, 1)` and `str(x)`. */
module Decimal {
  import opened Wrappers
  import opened Text

  function Pow10(e: nat): (p: nat)
    ensures p >= 1
  {
    if e == 0 then 1 else 10 * Pow10(e - 1)
  }

  lemma {:induction false} Pow10Add(a: nat, b: nat)
    ensures Pow10(a + b) == Pow10(a) * Pow10(b)
  {
    if a > 0 {
      Pow10Add(a - 1, b);
      assert Pow10(a + b) == 10 * Pow10(a - 1 + b);
    }
  }

  lemma MulLeq(a: int, b: int, c: nat)
    requires a <= b
    ensures a * c <= b * c
  {}

  /** The exact value `m / 10^e`. */
  datatype Dec = Dec(m: int, e: nat)

  /** A Python float: finite (modelled exactly), an infinity, or NaN. */
  datatype PyFloat = Finite(d: Dec) | Inf(negative: bool) | NaN

  /** Comparisons of a decimal against a whole number `t` of tenths. */
  predicate AtLeastTenths(d: Dec, t: int) { 10 * d.m >= t * Pow10(d.e) }
  predicate AtMostTenths(d: Dec, t: int) { 10 * d.m <= t * Pow10(d.e) }
  predicate BelowTenths(d: Dec, t: int) { 10 * d.m < t * Pow10(d.e) }
  predicate AboveTenths(d: Dec, t: int) { 10 * d.m > t * Pow10(d.e) }

  function Abs(x: int): nat { if x < 0 then -x else x }

  /** Euclidean division facts, stated once so that proofs need not rediscover them. */
  lemma DivMod(m: int, p: int)
    requires p > 0
    ensures m == (m / p) * p + m % p
    ensures 0 <= m % p < p
  {}

  lemma DivNonneg(m: int, p: int)
    requires m >= 0 && p > 0
    ensures m / p >= 0
  {
    DivMod(m, p);
    if m / p < 0 { MulLeq(m / p, -1, p); }
  }

  lemma MulSucc(q: int, p: int)
    ensures (q + 1) * p == q * p + p
  {}

  lemma MulTen(t: int, p: int)
    ensures t * (10 * p) == 10 * (t * p)
  {}

  /** `round(x, 1)` expressed in tenths: a nearest tenth, within half a tenth of the exact
      value, an exact tie going to the even tenth. */
  function RoundTenths(d: Dec): (t: int)
    ensures d.e == 0 ==> t == 10 * d.m
    ensures d.e > 0 ==> 2 * Abs(t * Pow10(d.e - 1) - d.m) <= Pow10(d.e - 1)
    ensures d.e > 0 && 2 * Abs(t * Pow10(d.e - 1) - d.m) == Pow10(d.e - 1) ==> t % 2 == 0
  {
    if d.e == 0 then 10 * d.m else NearestMultiple(d.m, Pow10(d.e - 1))
  }

  /** The multiple of `p` nearest to `m`, counted in `p`s, a tie going to the even one. */
  function NearestMultiple(m: int, p: nat): (t: int)
    requires p > 0
    ensures 2 * Abs(t * p - m) <= p
    ensures 2 * Abs(t * p - m) == p ==> t % 2 == 0
  {
    var q := m / p;
    var r := m % p;
    DivMod(m, p);
    if 2 * r > p then
      MulSucc(q, p);
      assert (q + 1) * p - m == p - r;
      q + 1
    else if 2 * r < p || q % 2 == 0 then
      assert q * p - m == -r;
      q
    else
      MulSucc(q, p);
      assert (q + 1) * p - m == p - r;
      q + 1
  }

  lemma MulCancel(a: int, b: int, p: nat)
    requires p > 0 && a * p > b * p
    ensures a > b
  {
    if a <= b { MulLeq(a, b, p); }
  }

  /** A rounded value lies within any tenth-aligned interval that holds the exact value. */
  lemma RoundWithin(d: Dec, lo: int, hi: int)
    requires AtLeastTenths(d, lo) && AtMostTenths(d, hi)
    ensures lo <= RoundTenths(d) <= hi
  {
    var t := RoundTenths(d);
    if d.e > 0 {
      var p := Pow10(d.e - 1);
      assert Pow10(d.e) == 10 * p;
      MulTen(lo, p);
      MulTen(hi, p);
      assert lo * p <= d.m <= hi * p;
      MulSucc(lo - 1, p);
      MulSucc(hi, p);
      assert t * p > (lo - 1) * p;
      MulCancel(t, lo - 1, p);
      assert (hi + 1) * p > t * p;
      MulCancel(hi + 1, t, p);
    }
  }

  /** A value that already has one decimal place rounds to itself. */
  lemma RoundExact(t: int)
    ensures RoundTenths(Dec(t, 1)) == t
  {
    assert Pow10(0) == 1;
  }

  /** Sum of two decimals, aligned on the finer exponent. */
  function Add(a: Dec, b: Dec): (r: Dec)
    ensures r.e == if a.e >= b.e then a.e else b.e
  {
    var e := if a.e >= b.e then a.e else b.e;
    Dec(a.m * Pow10(e - a.e) + b.m * Pow10(e - b.e), e)
  }

  /** Interval arithmetic for adding a decimal offset to a whole number of tenths. */
  lemma AddTenthsWithin(b: int, o: Dec, lo: int, hi: int)
    requires AtLeastTenths(o, lo) && AtMostTenths(o, hi)
    ensures AtLeastTenths(Add(Dec(b, 1), o), b + lo) && AtMostTenths(Add(Dec(b, 1), o), b + hi)
  {
    if o.e == 0 {
      assert Pow10(0) == 1 && Pow10(1) == 10;
    } else {
      var p := Pow10(o.e - 1);
      assert Pow10(o.e) == 10 * p;
      assert Add(Dec(b, 1), o).m == b * p + o.m;
      MulTen(lo, p);
      MulTen(hi, p);
      MulTen(b + lo, p);
      MulTen(b + hi, p);
      assert (b + lo) * p == b * p + lo * p;
      assert (b + hi) * p == b * p + hi * p;
    }
  }

  /** Scaling a tenths bound to a finer exponent. */
  lemma ScaleTenths(d: Dec, t: int, k: nat)
    ensures AtLeastTenths(d, t) ==> 10 * (d.m * Pow10(k)) >= t * Pow10(d.e + k)
    ensures AtMostTenths(d, t) ==> 10 * (d.m * Pow10(k)) <= t * Pow10(d.e + k)
  {
    Pow10Add(d.e, k);
    assert t * Pow10(d.e + k) == (t * Pow10(d.e)) * Pow10(k);
    assert 10 * (d.m * Pow10(k)) == (10 * d.m) * Pow10(k);
    if AtLeastTenths(d, t) { MulLeq(t * Pow10(d.e), 10 * d.m, Pow10(k)); }
    if AtMostTenths(d, t) { MulLeq(10 * d.m, t * Pow10(d.e), Pow10(k)); }
  }

  /** Lower bounds in tenths add up under `Add`. */
  lemma AddAtLeast(a: Dec, b: Dec, la: int, lb: int)
    requires AtLeastTenths(a, la) && AtLeastTenths(b, lb)
    ensures AtLeastTenths(Add(a, b), la + lb)
  {
    var e := if a.e >= b.e then a.e else b.e;
    ScaleTenths(a, la, e - a.e);
    ScaleTenths(b, lb, e - b.e);
    assert a.e + (e - a.e) == e && b.e + (e - b.e) == e;
    assert 10 * Add(a, b).m == 10 * (a.m * Pow10(e - a.e)) + 10 * (b.m * Pow10(e - b.e));
    assert (la + lb) * Pow10(e) == la * Pow10(e) + lb * Pow10(e);
  }

  /** Upper bounds in tenths add up under `Add`. */
  lemma AddAtMost(a: Dec, b: Dec, ha: int, hb: int)
    requires AtMostTenths(a, ha) && AtMostTenths(b, hb)
    ensures AtMostTenths(Add(a, b), ha + hb)
  {
    var e := if a.e >= b.e then a.e else b.e;
    ScaleTenths(a, ha, e - a.e);
    ScaleTenths(b, hb, e - b.e);
    assert a.e + (e - a.e) == e && b.e + (e - b.e) == e;
    assert 10 * Add(a, b).m == 10 * (a.m * Pow10(e - a.e)) + 10 * (b.m * Pow10(e - b.e));
    assert (ha + hb) * Pow10(e) == ha * Pow10(e) + hb * Pow10(e);
  }

  /** Python's `int(x)` on a finite float: truncation toward zero. */
  function Truncate(d: Dec): int {
    var q := Abs(d.m) / Pow10(d.e);
    if d.m >= 0 then q else -q
  }

  /** `Truncate` drops the fraction and keeps the sign. */
  lemma TruncateSpec(d: Dec)
    ensures Abs(Truncate(d)) * Pow10(d.e) <= Abs(d.m)
    ensures Abs(d.m) < (Abs(Truncate(d)) + 1) * Pow10(d.e)
    ensures (Truncate(d) > 0 ==> d.m > 0) && (Truncate(d) < 0 ==> d.m < 0)
  {
    var P := Pow10(d.e);
    var a := Abs(d.m);
    DivMod(a, P);
    DivNonneg(a, P);
    MulSucc(a / P, P);
    assert Abs(Truncate(d)) == a / P;
  }

  /** Sign handling shared by `float(str)` and `int(str)`: (negative?, unsigned body). */
  function SplitSign(t: string): (bool, string) {
    if |t| > 0 && (t[0] == '-' || t[0] == '+') then (t[0] == '-', t[1..]) else (false, t)
  }

  /** An unsigned decimal literal: digits with at most one '.', at least one digit. */
  function UnsignedDecimal(body: string): (r: Option<Dec>)
    ensures r.Some? ==> r.value.m >= 0
  {
    match Find(body, '.')
    case None =>
      if |body| > 0 && AllDigits(body) then Some(Dec(DigitsValue(body), 0)) else None
    case Some(k) =>
      var ip := body[..k];
      var fp := body[k + 1..];
      if AllDigits(ip) && AllDigits(fp) && |ip| + |fp| > 0
      then Some(Dec(DigitsValue(ip) * Pow10(|fp|) + DigitsValue(fp), |fp|))
      else None
  }

  /** The number `\d+(\.\d+)?` matches at a digit: its digit run, and a fraction only when
      a '.' is followed by a digit. */
  function NumberAt(s: string, k: nat): (r: Dec)
    requires k < |s| && IsDigit(s[k])
    ensures r.m >= 0
  {
    var n := DigitRun(s, k);
    var f := if k + n + 1 < |s| && s[k + n] == '.' && IsDigit(s[k + n + 1])
             then DigitRun(s, k + n + 1) else 0;
    var digits := s[k..k + n] + (if f > 0 then s[k + n + 1..k + n + 1 + f] else "");
    assert AllDigits(digits);
    Dec(DigitsValue(digits), f)
  }

  /** A whole digit string reads as its own value. */
  lemma NumberAtDigits(s: string)
    requires |s| > 0 && AllDigits(s)
    ensures NumberAt(s, 0) == Dec(DigitsValue(s), 0)
  {
    DigitRunAll(s, 0);
    assert s[0..|s|] + "" == s;
  }

  /** Digits, a point and more digits read as one decimal with as many places as the
      fraction has digits. */
  lemma NumberAtFraction(a: string, b: string)
    requires |a| > 0 && AllDigits(a) && |b| > 0 && AllDigits(b)
    ensures NumberAt(a + "." + b, 0) == Dec(DigitsValue(a + b), |b|)
  {
    var t := a + "." + b;
    FractionLayout(a, b);
    var digits := t[0..|a|] + t[|a| + 1..|a| + 1 + |b|];
    assert digits == a + b;
    assert NumberAt(t, 0) == Dec(DigitsValue(digits), |b|) by {
      NumberAtParts(t, 0, |a|, |b|);
    }
  }

  /** Where the parts of `a.b` lie, and the digit runs they make. */
  lemma FractionLayout(a: string, b: string)
    requires |a| > 0 && AllDigits(a) && |b| > 0 && AllDigits(b)
    ensures var t := a + "." + b;
      |t| == |a| + 1 + |b| && IsDigit(t[0]) && t[|a|] == '.' && IsDigit(t[|a| + 1])
      && DigitRun(t, 0) == |a| && DigitRun(t, |a| + 1) == |b|
      && t[0..|a|] == a && t[|a| + 1..|a| + 1 + |b|] == b
  {
    var t := a + "." + b;
    assert t == a + ("." + b) && t == (a + ".") + b;
    RunBeforePoint(a, "." + b);
    RunAfterPoint(a + ".", b);
    assert t[0] == a[0] && t[|a| + 1] == b[0];
  }

  /** The digits in front of a non-digit are the whole run. */
  lemma RunBeforePoint(a: string, rest: string)
    requires AllDigits(a) && |rest| > 0 && !IsDigit(rest[0])
    ensures DigitRun(a + rest, 0) == |a|
  {
    var t := a + rest;
    assert forall j :: 0 <= j < |a| ==> t[j] == a[j];
    assert t[|a|] == rest[0];
    DigitRunStops(t, 0, |a|);
  }

  /** Digits up to the end are the whole run. */
  lemma RunAfterPoint(pre: string, b: string)
    requires AllDigits(b)
    ensures DigitRun(pre + b, |pre|) == |b|
  {
    var t := pre + b;
    assert forall j :: |pre| <= j < |t| ==> t[j] == b[j - |pre|];
    DigitRunAll(t, |pre|);
  }

  /** The number at `k` when a point and a digit follow its `n` digits, with `f` fraction
      digits. */
  lemma NumberAtParts(s: string, k: nat, n: nat, f: nat)
    requires k < |s| && IsDigit(s[k])
    requires DigitRun(s, k) == n && k + n + 1 < |s| && s[k + n] == '.' && IsDigit(s[k + n + 1])
    requires DigitRun(s, k + n + 1) == f
    ensures f > 0 && k + n + 1 + f <= |s|
    ensures AllDigits(s[k..k + n] + s[k + n + 1..k + n + 1 + f])
    ensures NumberAt(s, k) == Dec(DigitsValue(s[k..k + n] + s[k + n + 1..k + n + 1 + f]), f)
  {
  }

  /** 2^1024 - 2^970, halfway between the largest double and 2^1024: the least magnitude that
      rounds to infinity. */
  const DoubleOverflow: nat := 179769313486231580793728971405303415079934132710037826936173778980444968292764750946649017977587207096330286416692887910946555547851940402630657488671505820681908902000708383676273854845817711531764475730270069855571366959622842914819860834936475292719074168444365510704342711559699508093042880177904174497792

  /** A value beyond the double range: `float()` of such an int raises OverflowError, and
      `float()` of such a literal gives an infinity. */
  predicate Overflows(d: Dec) {
    Abs(d.m) >= DoubleOverflow * Pow10(d.e)
  }

  /** `float()` of an exact decimal literal; within range the value is kept exactly. */
  function ToDouble(d: Dec): PyFloat {
    if Overflows(d) then Inf(d.m < 0) else Finite(d)
  }

  /** Python's `float(s)` for a string; `None` is the ValueError. Surrounding whitespace and
      one sign are allowed, "inf", "infinity" and "nan" in any case are read, and a magnitude
      beyond the double range gives an infinity of its sign. */
  function ParseFloat(s: string): (r: Option<PyFloat>)
    ensures var (neg, body) := SplitSign(Strip(s));
      (Lower(body) == "inf" || Lower(body) == "infinity" ==> r == Some(Inf(neg)))
      && (Lower(body) == "nan" ==> r == Some(NaN))
    ensures r.Some? && r.value.Finite? ==> !Overflows(r.value.d)
    ensures r.Some? && r.value.Finite? ==> UnsignedDecimal(SplitSign(Strip(s)).1).Some?
  {
    var (neg, body) := SplitSign(Strip(s));
    var lb := Lower(body);
    if lb == "inf" || lb == "infinity" then Some(Inf(neg))
    else if lb == "nan" then Some(NaN)
    else match UnsignedDecimal(body)
      case None => None
      case Some(d) => Some(ToDouble(if neg then Dec(-d.m, d.e) else d))
  }

  /** The most digits `int()` reads from a string since Python 3.11; a longer literal raises
      ValueError. */
  const MaxStrDigits: nat := 4300

  /** Python's `int(s)` for a string; `None` is the ValueError. A literal with a '.' is
      refused, as is one of more than `MaxStrDigits` digits. */
  function ParseInt(s: string): (r: Option<int>)
    ensures var body := SplitSign(Strip(s)).1;
      r.Some? <==> 0 < |body| <= MaxStrDigits && AllDigits(body)
    ensures r.Some? ==> Abs(r.value) == DigitsValue(SplitSign(Strip(s)).1)
    ensures r.Some? && r.value < 0 ==> SplitSign(Strip(s)).0
  {
    var (neg, body) := SplitSign(Strip(s));
    if 0 < |body| <= MaxStrDigits && AllDigits(body)
    then Some(if neg then -(DigitsValue(body) as int) else DigitsValue(body))
    else None
  }

  /** A digit string needs no stripping and carries no sign. */
  lemma DigitsUnsigned(s: string)
    requires |s| > 0 && AllDigits(s)
    ensures SplitSign(Strip(s)) == (false, s)
  {
    assert IsDigit(s[0]) && IsDigit(s[|s| - 1]);
    StripNoop(s);
  }

  /** `float(str(n))` reads back n, or infinity past the double range. */
  lemma ParseFloatOfDigits(n: nat)
    ensures ParseFloat(NatToString(n)) == Some(if n < DoubleOverflow then Finite(Dec(n, 0)) else Inf(false))
  {
    var s := NatToString(n);
    DigitsUnsigned(s);
    assert IsDigit(Lower(s)[0]);
    FindAbsent(s, '.');
    assert Pow10(0) == 1;
  }

  /** `int(str(n))` reads back n when it has at most `MaxStrDigits` digits, and `int("-" +
      str(n))` reads back -n. */
  lemma ParseIntOfDigits(n: nat)
    ensures ParseInt(NatToString(n)) == if |NatToString(n)| <= MaxStrDigits then Some(n) else None
    ensures ParseInt("-" + NatToString(n)) == if |NatToString(n)| <= MaxStrDigits then Some(-(n as int)) else None
  {
    var s := NatToString(n);
    DigitsUnsigned(s);
    MinusUnsigned(s);
    ParseIntSplit(s, false, s);
    ParseIntSplit("-" + s, true, s);
  }

  /** `int()` of a string whose sign and digits are known. */
  lemma ParseIntSplit(t: string, neg: bool, s: string)
    requires SplitSign(Strip(t)) == (neg, s) && |s| > 0 && AllDigits(s)
    ensures ParseInt(t) == if |s| <= MaxStrDigits then Some(if neg then -(DigitsValue(s) as int) else DigitsValue(s)) else None
  {
  }

  /** A minus sign in front of digits is the only sign, and nothing is stripped. */
  lemma MinusUnsigned(s: string)
    requires |s| > 0 && AllDigits(s)
    ensures SplitSign(Strip("-" + s)) == (true, s)
  {
    var t := "-" + s;
    assert !IsSpace(t[0]) && t[|t| - 1] == s[|s| - 1] && IsDigit(s[|s| - 1]);
    StripNoop(t);
    assert t[1..] == s;
  }

  function NatDiv(a: nat, b: nat): nat
    requires b > 0
  {
    DivNonneg(a, b);
    a / b
  }

  function NatMod(a: nat, b: nat): nat
    requires b > 0
  {
    a % b
  }

  /** Drop trailing zero digits of the fraction without changing the value. */
  function Normal(d: Dec): Dec
    decreases d.e
  {
    if d.e > 0 && d.m % 10 == 0 then Normal(Dec(d.m / 10, d.e - 1)) else d
  }

  function PadLeft(s: string, width: nat): (r: string)
    ensures |r| >= |s|
    decreases width
  {
    if |s| >= width then s else PadLeft("0" + s, width - 1)
  }

  /** Python's `str(x)` for a float, without its exponent notation for very large or small
      magnitudes: an integral value keeps a trailing ".0". */
  function FloatRepr(f: PyFloat): string {
    match f
    case Inf(neg) => if neg then "-inf" else "inf"
    case NaN => "nan"
    case Finite(d) =>
      var n := Normal(d);
      var sign := if n.m < 0 then "-" else "";
      var a := Abs(n.m);
      if n.e == 0 then sign + NatToString(a) + ".0"
      else sign + NatToString(NatDiv(a, Pow10(n.e))) + "." + PadLeft(NatToString(NatMod(a, Pow10(n.e))), n.e)
  }
}

=== FILE: extract.dfy ===
/** The text surgery `get_movie_ratings` applies to the agent's reply before giving up on it:
    refusal detection, the first-'[' to last-']' slice, the three code-block patterns, the
    clean-up of a candidate and the quoting of bare property names. */
module Extract {
  import opened Wrappers
  import opened Text

  /** The phrases that mark a reply as a refusal, compared with the lowered reply. */
  const ApologyPhrases: seq<string> := [
    "sorry", "unable", "couldn't", "could not", "can't", "cannot",
    "don't have", "do not have", "no information", "not available"
  ]

  /** `any(phrase in content.lower() for phrase in apology_phrases)`. */
  function IsApology(content: string): (b: bool)
    ensures b <==> exists k :: 0 <= k < |ApologyPhrases| && Contains(Lower(content), ApologyPhrases[k])
  {
    AnyPhrase(Lower(content), ApologyPhrases)
  }

  lemma ContainsAppend(a: string, b: string, needle: string)
    requires Contains(a, needle)
    ensures Contains(a + b, needle)
  {
    var i := IndexFrom(a, needle, 0).value;
    assert (a + b)[i..i + |needle|] == a[i..i + |needle|];
    assert OccursAt(a + b, i, needle);
    ContainsIff(a + b, needle);
  }

  /** A refusal stays a refusal whatever text follows it. */
  lemma ApologyAppend(a: string, b: string)
    requires IsApology(a)
    ensures IsApology(a + b)
  {
    PhraseAppend(a, b, ApologyPhrases);
  }

  lemma PhraseAppend(a: string, b: string, phrases: seq<string>)
    requires AnyPhrase(Lower(a), phrases)
    ensures AnyPhrase(Lower(a + b), phrases)
  {
    var k :| 0 <= k < |phrases| && Contains(Lower(a), phrases[k]);
    assert Lower(a + b) == Lower(a) + Lower(b);
    ContainsAppend(Lower(a), Lower(b), phrases[k]);
  }

  /** `content[content.find('['):content.rfind(']') + 1]` when both exist in that order. */
  function BracketSlice(content: string): (r: Option<string>)
    ensures r.Some? ==> |r.value| >= 2 && r.value[0] == '[' && r.value[|r.value| - 1] == ']'
    ensures r.Some? ==> |r.value| <= |content|
    ensures r.None? <==> (Find(content, '[').None? || RFind(content, ']').None?
                          || Find(content, '[').value >= RFind(content, ']').value)
  {
    match (Find(content, '['), RFind(content, ']'))
    case (Some(i), Some(j)) => if i < j then Some(content[i..j + 1]) else None
    case _ => None
  }

  /** The slice of text wrapped in prose with no brackets of its own is exactly the
      bracketed part. */
  lemma BracketSliceOfWrapped(pre: string, mid: string, post: string)
    requires '[' !in pre && ']' !in post
    ensures BracketSlice(pre + "[" + mid + "]" + post) == Some("[" + mid + "]")
  {
    var s := pre + "[" + mid + "]" + post;
    var j := |pre| + 1 + |mid|;
    assert s[|pre|] == '[';
    assert forall k :: 0 <= k < |pre| ==> s[k] == pre[k];
    assert Find(s, '[') == Some(|pre|);
    assert s[j] == ']';
    assert forall k :: j < k < |s| ==> s[k] == post[k - j - 1];
    assert RFind(s, ']') == Some(j);
    assert s[|pre|..j + 1] == "[" + mid + "]";
  }

  /** Where the group of the fence opened at `i` starts: after "```json\n" or "```\n". */
  function FenceOpen(s: string, i: nat): (g: Option<nat>)
    ensures g.Some? ==> g.value == i + 8 || g.value == i + 4
    ensures g.Some? ==> g.value <= |s|
  {
    if OccursAt(s, i, "```json\n") then Some(i + 8)
    else if OccursAt(s, i, "```\n") then Some(i + 4)
    else None
  }

  /** Group 1 of `` ```(?:json)?\n(.+?)\n``` `` (DOTALL), searched from `i` on. */
  function FencedFrom(s: string, i: nat): (r: Option<Span>)
    ensures r.Some? ==> i + 4 <= r.value.start < r.value.end <= |s|
    ensures r.Some? ==> OccursAt(s, r.value.end, "\n```")
    ensures r.Some? ==> OccursAt(s, r.value.start - 8, "```json\n") || OccursAt(s, r.value.start - 4, "```\n")
    decreases |s| - i
  {
    if i >= |s| then None
    else match FenceOpen(s, i)
      case Some(g) =>
        (match IndexFrom(s, "\n```", g + 1)
         case Some(e) => Some(Span(g, e))
         case None => FencedFrom(s, i + 1))
      case None => FencedFrom(s, i + 1)
  }

  /** Group 1 of `` ```(.+?)``` `` (DOTALL), searched from `i` on. */
  function BackticksFrom(s: string, i: nat): (r: Option<Span>)
    ensures r.Some? ==> i + 3 <= r.value.start < r.value.end <= |s|
    ensures r.Some? ==> OccursAt(s, r.value.start - 3, "```") && OccursAt(s, r.value.end, "```")
    decreases |s| - i
  {
    if i >= |s| then None
    else if OccursAt(s, i, "```") then
      match IndexFrom(s, "```", i + 4)
      case Some(e) => Some(Span(i + 3, e))
      case None => BackticksFrom(s, i + 1)
    else BackticksFrom(s, i + 1)
  }

  /** Number of whitespace characters starting at `from`. */
  function SpacesFrom(s: string, from: nat): (n: nat)
    ensures from + n <= |s| || n == 0
    ensures forall k :: from <= k < from + n ==> IsSpace(s[k])
    ensures from + n < |s| ==> !IsSpace(s[from + n])
    decreases |s| - from
  {
    if from >= |s| || !IsSpace(s[from]) then 0 else 1 + SpacesFrom(s, from + 1)
  }

  /** A '}' at `c` followed by optional whitespace and a ']'. */
  predicate ClosesArray(s: string, c: nat) {
    c < |s| && s[c] == '}' && c + 1 + SpacesFrom(s, c + 1) < |s| && s[c + 1 + SpacesFrom(s, c + 1)] == ']'
  }

  /** The smallest `c >= from` that closes the array: the lazy `.+?}` of the third pattern. */
  function FirstClose(s: string, from: nat): (r: Option<nat>)
    ensures r.Some? ==> from <= r.value && ClosesArray(s, r.value)
    ensures r.Some? ==> forall c :: from <= c < r.value ==> !ClosesArray(s, c)
    ensures r.None? ==> forall c :: from <= c ==> !ClosesArray(s, c)
    decreases |s| - from
  {
    if from >= |s| then None
    else if ClosesArray(s, from) then Some(from)
    else FirstClose(s, from + 1)
  }

  /** The match of `\[\s*{.+?}\s*\]` (DOTALL) that starts at `i`, if there is one. */
  function ArrayAt(s: string, i: nat): (r: Option<Span>)
    requires i < |s|
    ensures r.Some? ==> r.value.start == i && i + 4 <= r.value.end <= |s|
    ensures r.Some? ==> s[i] == '[' && s[r.value.end - 1] == ']'
  {
    if s[i] != '[' then None
    else
      var b := i + 1 + SpacesFrom(s, i + 1);
      if b < |s| && s[b] == '{' then
        match FirstClose(s, b + 2)
        case Some(c) =>
          var e := c + 1 + SpacesFrom(s, c + 1);
          assert e < |s| && s[e] == ']';
          Some(Span(i, e + 1))
        case None => None
      else None
  }

  /** The whole match of `\[\s*{.+?}\s*\]` (DOTALL), searched from `i` on. */
  function ArrayFrom(s: string, i: nat): (r: Option<Span>)
    ensures r.Some? ==> i <= r.value.start && r.value.start + 4 <= r.value.end <= |s|
    ensures r.Some? ==> s[r.value.start] == '[' && s[r.value.end - 1] == ']'
    decreases |s| - i
  {
    if i >= |s| then None
    else if ArrayAt(s, i).Some? then ArrayAt(s, i)
    else ArrayFrom(s, i + 1)
  }

  /** The three candidate patterns, in the order they are tried, each giving the text it
      extracts (group 1, or the whole match for the last). */
  function PatternMatch(k: nat, content: string): (r: Option<string>)
    requires k < 3
    ensures r.Some? ==> 1 <= |r.value| <= |content|
  {
    var m := if k == 0 then FencedFrom(content, 0)
             else if k == 1 then BackticksFrom(content, 0)
             else ArrayFrom(content, 0);
    match m
    case Some(sp) => Some(content[sp.start..sp.end])
    case None => None
  }

  /** A body fenced as a JSON code block, with no backtick of its own, is what the first
      pattern extracts. */
  lemma FencedRoundTrip(x: string)
    requires |x| >= 1 && '`' !in x
    ensures PatternMatch(0, "```json\n" + x + "\n```") == Some(x)
  {
    var s := "```json\n" + x + "\n```";
    var e := 8 + |x|;
    assert s[..8] == "```json\n";
    assert FenceOpen(s, 0) == Some(8);
    assert s[e..e + 4] == "\n```";
    forall j | 9 <= j < e ensures !OccursAt(s, j, "\n```") {
      if j + 1 < e {
        assert s[j + 1] == x[j - 7];
        assert x[j - 7] in x;
      } else {
        assert s[j + 1] == '\n';
      }
      NotOccursAt(s, j, "\n```", 1);
    }
    IndexFromIs(s, "\n```", 9, e);
    assert FencedFrom(s, 0) == Some(Span(8, e));
    assert s[8..e] == x;
  }

  /** Likewise for a body between bare triple backticks and the second pattern. */
  lemma BackticksRoundTrip(x: string)
    requires |x| >= 1 && '`' !in x
    ensures PatternMatch(1, "```" + x + "```") == Some(x)
  {
    var s := "```" + x + "```";
    var e := 3 + |x|;
    assert s[..3] == "```";
    assert s[e..e + 3] == "```";
    forall j | 4 <= j < e ensures !OccursAt(s, j, "```") {
      assert s[j] == x[j - 3];
      assert x[j - 3] in x;
      NotOccursAt(s, j, "```", 0);
    }
    IndexFromIs(s, "```", 4, e);
    assert BackticksFrom(s, 0) == Some(Span(3, e));
    assert s[3..e] == x;
  }

  /** A list literal without single quotes: what the repair always produces. */
  predicate Repaired(r: string) {
    |r| >= 2 && r[0] == '[' && r[|r| - 1] == ']' && '\'' !in r
  }

  /** The clean-up of a candidate that failed to decode: strip it, make sure it opens with '['
      and closes with ']', and turn single quotes into double quotes. */
  function Repair(js: string): (r: string)
    ensures Repaired(r)
    ensures |r| <= |js| + 2
  {
    var t := Strip(js);
    var t1 := if |t| > 0 && t[0] == '[' then t else "[" + t;
    var t2 := if t1[|t1| - 1] == ']' then t1 else t1 + "]";
    ReplaceChar(t2, '\'', '"')
  }

  /** Repairing twice is repairing once. */
  lemma {:induction false} RepairIdempotent(js: string)
    ensures Repair(Repair(js)) == Repair(js)
  {
    RepairFixed(Repair(js));
  }

  /** A bracketed string without single quotes is already repaired. */
  lemma {:induction false} RepairFixed(r: string)
    requires Repaired(r)
    ensures Repair(r) == r
  {
    StripNoop(r);
    var q := ReplaceChar(r, '\'', '"');
    assert forall i :: 0 <= i < |r| ==> q[i] == r[i];
    assert q == r;
  }

  /** Length of the run of word characters at the start of `s`. */
  function WordRun(s: string): (n: nat)
    ensures n <= |s|
    ensures forall k :: 0 <= k < n ==> IsWordChar(s[k])
    ensures n < |s| ==> !IsWordChar(s[n])
  {
    if |s| == 0 || !IsWordChar(s[0]) then 0 else 1 + WordRun(s[1..])
  }

  /** The match of `(\w+)\s*:` at the start of `s`, if any: the name's length and where the
      colon ends. */
  function KeyAt(s: string): (r: Option<(nat, nat)>)
    ensures r.Some? ==> 0 < r.value.0 < r.value.1 <= |s| && s[r.value.1 - 1] == ':'
    ensures r.Some? ==> forall k :: 0 <= k < r.value.0 ==> IsWordChar(s[k])
    ensures r.Some? ==> forall k :: r.value.0 <= k < r.value.1 - 1 ==> IsSpace(s[k])
  {
    var n := WordRun(s);
    var w := LeadingSpaces(s[n..]);
    if n > 0 && n + w < |s| && s[n + w] == ':' then Some((n, n + w + 1)) else None
  }

  /** `re.sub(r'(\w+)\s*:', r'"\1":', s)`: wrap every property-like name in double quotes. */
  function QuoteBareKeys(s: string): (r: string)
    ensures forall c :: c in r ==> c == '"' || c in s
    decreases |s|
  {
    if |s| == 0 then ""
    else match KeyAt(s)
      case Some((n, end)) => "\"" + s[..n] + "\":" + QuoteBareKeys(s[end..])
      case None => [s[0]] + QuoteBareKeys(s[1..])
  }

  lemma KeyColons(s: string, n: nat, end: nat)
    requires 0 < n < end <= |s| && s[end - 1] == ':'
    requires forall k :: 0 <= k < n ==> IsWordChar(s[k])
    requires forall k :: n <= k < end - 1 ==> IsSpace(s[k])
    ensures CountChar(s[..end], ':') == 1
  {
    var a := s[..end - 1];
    assert s[..end] == a + [':'];
    CountCharConcat(a, [':'], ':');
    CountCharAbsent(a, ':');
  }

  lemma QuotedColons(word: string)
    requires forall k :: 0 <= k < |word| ==> IsWordChar(word[k])
    ensures CountChar("\"" + word + "\":", ':') == 1
  {
    var q, qc := "\"", "\":";
    assert CountChar(q, ':') == 0;
    assert CountChar(qc, ':') == 1;
    CountCharConcat(q + word, qc, ':');
    CountCharConcat(q, word, ':');
    CountCharAbsent(word, ':');
  }

  /** Quoting names moves no colon: the result has exactly as many as the input. */
  lemma {:induction false} QuoteBareKeysColons(s: string)
    ensures CountChar(QuoteBareKeys(s), ':') == CountChar(s, ':')
    decreases |s|
  {
    if |s| > 0 {
      match KeyAt(s)
      case Some((n, end)) =>
        QuoteBareKeysColons(s[end..]);
        KeyStepColons(s, n, end, QuoteBareKeys(s[end..]));
      case None =>
        QuoteBareKeysColons(s[1..]);
        CharStepColons(s, QuoteBareKeys(s[1..]));
    }
  }

  /** A quoted key keeps the colon count of the key it replaces. */
  lemma KeyStepColons(s: string, n: nat, end: nat, q: string)
    requires KeyAt(s) == Some((n, end))
    requires CountChar(q, ':') == CountChar(s[end..], ':')
    ensures CountChar("\"" + s[..n] + "\":" + q, ':') == CountChar(s, ':')
  {
    var rest := s[end..];
    var head := "\"" + s[..n] + "\":";
    assert s == s[..end] + rest;
    CountCharConcat(s[..end], rest, ':');
    KeyColons(s, n, end);
    QuotedColons(s[..n]);
    CountCharConcat(head, q, ':');
  }

  /** A character copied through keeps the colon count. */
  lemma CharStepColons(s: string, q: string)
    requires |s| > 0 && CountChar(q, ':') == CountChar(s[1..], ':')
    ensures CountChar([s[0]] + q, ':') == CountChar(s, ':')
  {
    assert s == [s[0]] + s[1..];
    CountCharConcat([s[0]], s[1..], ':');
    CountCharConcat([s[0]], q, ':');
  }


  /** Text without a colon has no property name to quote. */
  lemma {:induction false} QuoteBareKeysNoColon(s: string)
    requires ':' !in s
    ensures QuoteBareKeys(s) == s
  {
    if |s| > 0 {
      assert ':' !in s[1..];
      QuoteBareKeysNoColon(s[1..]);
    }
  }
}

=== FILE: handler.dfy ===
/** `get_movie_ratings`, the `/movie-ratings` endpoint: the agent's final reply is turned into
    validated records through a cascade of fallbacks. `json.loads` and the search with the
    last array regex are parameters, as is everything `random` returns. */
module Handler {
  import opened Wrappers
  import opened Text
  import opened Decimal
  import opened Json
  import opened Normalize
  import opened Synthetic
  import opened Extract

  /** The outcome of invoking the agent: the final message's content, or the exception text. */
  datatype AgentReply = Replied(content: string) | AgentRaised(message: string)

  /** What the endpoint returns: a success envelope with records, an error envelope with a
      message and no records, or Python's `None` when every branch falls off the end. */
  datatype Response = Success(data: seq<Rec>) | Failure(message: string) | NoBody

  /** What one `json.loads` call does: a value, a JSONDecodeError, the ValueError an int
      literal of more than 4300 digits raises, or the RecursionError of nesting deeper than
      the interpreter's limit. Only the last two carry the text `str(e)` the code may show. */
  datatype Decoding =
    | Decoded(v: JVal)
    | NotJson
    | TooManyDigits(message: string)
    | TooDeep(message: string)

  /** Whether the decoding raised something other than a JSONDecodeError. */
  predicate Raises(d: Decoding) {
    d.TooManyDigits? || d.TooDeep?
  }

  /** The library calls the model takes as given: `json.loads` and `re.search` with the
      line-225 array pattern (the whole match, if any). */
  datatype Oracles = Oracles(parse: string -> Decoding, arrayMatch: string -> Option<string>)

  /** `len(ratings)` (for the progress message) followed by `validate_platform_data(ratings)`. */
  function Accept(v: JVal): (r: Result<seq<Rec>, Exc>)
    ensures Len(v).Err? ==> r == Err(Len(v).error)
    ensures r.Ok? ==> Len(v).Ok? && |r.value| == Len(v).value
    ensures v.JArr? ==> r == ValidateItems(v.items)
  {
    match Len(v)
    case Err(e) => Err(e)
    case Ok(_) => ValidateItems(Iterate(v).value)
  }

  /** A success, or the error envelope the outer `except` builds from the exception. */
  function Outcome(r: Result<seq<Rec>, Exc>): (o: Response)
    ensures o != NoBody
  {
    match r
    case Ok(recs) => Success(recs)
    case Err(e) => Failure(Message(e))
  }

  /** The refusal branch and the last resort: the random set, validated. */
  function RandomResponse(name: string, draws: Draws): (r: Response)
    ensures r == Success(RandomRecs(name, draws))
  {
    RandomSetShape(name, draws);
    Outcome(ValidateItems(RandomRows(name, draws)))
  }

  /** After a JSONDecodeError on the whole reply: decode the first-'[' to last-']' slice. A
      JSONDecodeError or other ValueError there is caught and the function returns None; a
      RecursionError, or an error while validating, escapes to the outer handler. */
  function BracketStage(content: string, parse: string -> Decoding): (r: Response)
    ensures r == NoBody <==>
      BracketSlice(content).None?
      || parse(BracketSlice(content).value).NotJson?
      || parse(BracketSlice(content).value).TooManyDigits?
    ensures BracketSlice(content).Some? && parse(BracketSlice(content).value).Decoded? ==>
      r == Outcome(Accept(parse(BracketSlice(content).value).v))
    ensures BracketSlice(content).Some? && parse(BracketSlice(content).value).TooDeep? ==>
      r == Failure(parse(BracketSlice(content).value).message)
    ensures BracketSlice(content).Some? && parse(BracketSlice(content).value) == Decoded(JArr([])) ==>
      r == Success([])
  {
    match BracketSlice(content)
    case None => NoBody
    case Some(js) =>
      match parse(js)
      case Decoded(v) => Outcome(Accept(v))
      case NotJson => NoBody
      case TooManyDigits(_) => NoBody
      case TooDeep(m) => Failure(m)
  }

  /** Inside a code-block attempt only a JSONDecodeError is caught: a value is validated (an
      error there escapes), and any other decoding exception escapes to the error envelope. */
  function Settle(d: Decoding): (r: Response)
    requires !d.NotJson?
    ensures r != NoBody
    ensures d.Decoded? ==> r == Outcome(Accept(d.v))
    ensures Raises(d) ==> r == Failure(d.message)
  {
    match d
    case Decoded(v) => Outcome(Accept(v))
    case TooManyDigits(m) => Failure(m)
    case TooDeep(m) => Failure(m)
  }

  /** Whether the `j`-th code-block pattern matches and decoding its text, as it is or after
      the repair, does anything but raise a JSONDecodeError: then that pattern decides the
      answer. */
  predicate Decides(content: string, parse: string -> Decoding, j: nat)
    requires j < 3
  {
    PatternMatch(j, content).Some?
    && (!parse(PatternMatch(j, content).value).NotJson?
        || !parse(Repair(PatternMatch(j, content).value)).NotJson?)
  }

  /** The answer the `j`-th pattern decides: from the raw text's decoding, else from the
      repaired text's. */
  function Answer(content: string, parse: string -> Decoding, j: nat): Response
    requires j < 3 && Decides(content, parse, j)
  {
    var js := PatternMatch(j, content).value;
    if !parse(js).NotJson? then Settle(parse(js)) else Settle(parse(Repair(js)))
  }

  /** The code-block patterns from the `k`-th on: decode the extracted text, else its repaired
      form. The first pattern whose decoding is not a JSONDecodeError decides the answer;
      None means every matching pattern's text fails to decode both ways. */
  function CodeBlocks(content: string, parse: string -> Decoding, k: nat): (r: Option<Response>)
    requires k <= 3
    ensures r.None? <==> forall j :: k <= j < 3 ==> !Decides(content, parse, j)
    ensures k < 3 && Decides(content, parse, k) ==> r == Some(Answer(content, parse, k))
    ensures r.Some? ==>
      exists j :: (k <= j < 3 && Decides(content, parse, j)
                   && (forall i :: k <= i < j ==> !Decides(content, parse, i))
                   && r.value == Answer(content, parse, j))
    ensures r.Some? ==> r.value != NoBody
    decreases 3 - k
  {
    if k == 3 then None
    else if Decides(content, parse, k) then Some(Answer(content, parse, k))
    else CodeBlocks(content, parse, k + 1)
  }

  /** The text the last array regex's match is decoded from: quote-fixed, bare names quoted. */
  function ArrayText(m: string): string {
    QuoteBareKeys(ReplaceChar(m, '\'', '"'))
  }

  /** The last array regex: quote-fix the match, quote bare names, decode and validate. Every
      failure here, a decoding exception of any kind included, is caught and the cascade goes
      on. */
  function ArrayStage(content: string, o: Oracles): (r: Option<Response>)
    ensures r.Some? ==> r.value.Success?
    ensures r.Some? <==>
      o.arrayMatch(content).Some?
      && o.parse(ArrayText(o.arrayMatch(content).value)).Decoded?
      && Accept(o.parse(ArrayText(o.arrayMatch(content).value)).v).Ok?
    ensures r.Some? ==>
      r.value.data == Accept(o.parse(ArrayText(o.arrayMatch(content).value)).v).value
  {
    match o.arrayMatch(content)
    case None => None
    case Some(m) =>
      match o.parse(ArrayText(m))
      case Decoded(v) =>
        (match Accept(v)
         case Ok(recs) => Some(Success(recs))
         case Err(_) => None)
      case _ => None
  }

  /** The last resort; its error envelope is only reached if validating the random set failed. */
  function LastResort(name: string, draws: Draws): (r: Response)
    ensures r == Success(RandomRecs(name, draws))
  {
    RandomSetShape(name, draws);
    match ValidateItems(RandomRows(name, draws))
    case Ok(recs) => Success(recs)
    case Err(_) => Failure("Could not parse ratings data or create synthetic data")
  }

  /** The fallbacks of the `except Exception` branch: run when decoding the whole reply raised
      something other than a JSONDecodeError, or when the decoded reply could not be
      validated. */
  function Cascade(content: string, name: string, o: Oracles, draws: Draws): (r: Response)
    ensures r != NoBody
    ensures Contains(content, "```") && CodeBlocks(content, o.parse, 0).Some? ==>
      r == CodeBlocks(content, o.parse, 0).value
    ensures (!Contains(content, "```") || CodeBlocks(content, o.parse, 0).None?)
            && ArrayStage(content, o).Some? ==>
      r == ArrayStage(content, o).value
    ensures (!Contains(content, "```") || CodeBlocks(content, o.parse, 0).None?)
            && ArrayStage(content, o).None? && HeuristicData(content, name, draws).Some? ==>
      r == Success(HeuristicData(content, name, draws).value)
    ensures (!Contains(content, "```") || CodeBlocks(content, o.parse, 0).None?)
            && ArrayStage(content, o).None? && |Mentioned(content)| == 0 ==>
      r == Success(RandomRecs(name, draws))
  {
    var blocks := if Contains(content, "```") then CodeBlocks(content, o.parse, 0) else None;
    if blocks.Some? then blocks.value
    else
      match ArrayStage(content, o)
      case Some(r) => r
      case None =>
        match HeuristicData(content, name, draws)
        case Some(recs) => Success(recs)
        case None => LastResort(name, draws)
  }

  /** The whole endpoint. */
  function GetMovieRatings(name: string, reply: AgentReply, o: Oracles, draws: Draws): (r: Response)
    ensures reply.AgentRaised? ==> r == Failure(reply.message)
    ensures reply.Replied? && IsApology(reply.content) ==> r == Success(RandomRecs(name, draws))
    ensures r == NoBody <==>
      reply.Replied? && !IsApology(reply.content) && o.parse(reply.content).NotJson?
      && BracketStage(reply.content, o.parse) == NoBody
    ensures reply.Replied? && !IsApology(reply.content) && o.parse(reply.content).Decoded?
            && Accept(o.parse(reply.content).v).Ok? ==>
      r == Success(Accept(o.parse(reply.content).v).value)
    ensures reply.Replied? && !IsApology(reply.content) && o.parse(reply.content).Decoded?
            && Accept(o.parse(reply.content).v).Err? ==>
      r == Cascade(reply.content, name, o, draws)
    ensures reply.Replied? && !IsApology(reply.content) && Raises(o.parse(reply.content)) ==>
      r == Cascade(reply.content, name, o, draws)
  {
    match reply
    case AgentRaised(m) => Failure(m)
    case Replied(content) =>
      if IsApology(content) then RandomResponse(name, draws)
      else
        match o.parse(content)
        case NotJson => BracketStage(content, o.parse)
        case Decoded(v) =>
          (match Accept(v)
           case Ok(recs) => Success(recs)
           case Err(_) => Cascade(content, name, o, draws))
        case _ => Cascade(content, name, o, draws)
  }

  /** The JSON body FastAPI sends for a response. */
  function Envelope(r: Response): (j: JVal)
    ensures j == JNull <==> r == NoBody
    ensures r != NoBody ==> j.JObj? && Lookup(j.fields, "status") == Some(JStr(if r.Success? then "success" else "error"))
    ensures r != NoBody ==> j.JObj? && Lookup(j.fields, "data") == Some(JArr(if r.Success? then Render(r.data) else []))
    ensures r.Failure? ==> j.JObj? && Lookup(j.fields, "message") == Some(JStr(r.message))
    ensures r.Success? ==> j.JObj? && !HasKey(j.fields, "message")
  {
    match r
    case Success(data) => JObj([Field("status", JStr("success")), Field("data", JArr(Render(data)))])
    case Failure(m) =>
      var fs := [Field("status", JStr("error")), Field("message", JStr(m)), Field("data", JArr([]))];
      assert fs[1..][1..] == [Field("data", JArr([]))];
      assert Lookup(fs[1..][1..], "data") == Some(JArr([]));
      assert Lookup(fs[1..], "data") == Some(JArr([]));
      JObj(fs)
    case NoBody => JNull
  }

  predicate AllNormalized(recs: seq<Rec>) {
    forall i :: 0 <= i < |recs| ==> Normalized(recs[i])
  }

  predicate NormalizedResponse(r: Response) {
    r.Success? ==> AllNormalized(r.data)
  }

  /** The random set is what a refusal gets: five records, one per platform in canonical
      order, titled with the requested name, whatever the oracles say. */
  lemma RefusalGetsRandomSet(name: string, content: string, o: Oracles, draws: Draws)
    requires IsApology(content)
    ensures var r := GetMovieRatings(name, Replied(content), o, draws);
      r.Success? && |r.data| == 5
      && (forall k :: 0 <= k < 5 ==> r.data[k].platform == JStr(Platforms[k]) && r.data[k].title == JStr(name))
      && AllNormalized(r.data)
  {
    assert GetMovieRatings(name, Replied(content), o, draws) == RandomResponse(name, draws);
    RandomSetShape(name, draws);
    var recs := RandomRecs(name, draws);
    assert RandomResponse(name, draws) == Success(recs);
    forall k | 0 <= k < 5
      ensures recs[k].platform == JStr(Platforms[k]) && recs[k].title == JStr(name) && Normalized(recs[k])
    {
      assert recs[k] == RandomRec(name, draws, k) && RandomRecShape(name, draws, k);
    }
  }

  /** A reply that is itself a JSON array of valid items is validated item by item: no padding
      to five platforms, no reordering. */
  lemma DirectArrayKept(name: string, content: string, o: Oracles, draws: Draws, items: seq<JVal>)
    requires !IsApology(content) && o.parse(content) == Decoded(JArr(items))
    requires ValidateItems(items).Ok?
    ensures GetMovieRatings(name, Replied(content), o, draws) == Success(ValidateItems(items).value)
    ensures |ValidateItems(items).value| == |items|
  {
  }

  /** A reply that raises a JSONDecodeError never reaches the cascade: the answer depends on
      the bracket slice alone, not on the name, the array regex or the random draws. */
  lemma UndecodableReplyUsesBracketOnly(name: string, content: string, o: Oracles, draws: Draws)
    requires !IsApology(content) && o.parse(content).NotJson?
    ensures GetMovieRatings(name, Replied(content), o, draws) == BracketStage(content, o.parse)
    ensures BracketSlice(content).None? ==> GetMovieRatings(name, Replied(content), o, draws) == NoBody
  {
  }

  /** A reply holding an int literal of more than 4300 digits is not a JSONDecodeError: the
      `except Exception` branch takes it to the cascade. When the array regex's text raises
      the same way and the reply names a platform, the heuristic answers with five records. */
  lemma OverlongNumberUsesHeuristic(name: string, content: string, o: Oracles, draws: Draws)
    requires !IsApology(content) && !Contains(content, "```")
    requires o.parse(content).TooManyDigits?
    requires o.arrayMatch(content).Some? && o.parse(ArrayText(o.arrayMatch(content).value)).TooManyDigits?
    requires |Mentioned(content)| > 0
    ensures GetMovieRatings(name, Replied(content), o, draws) == Success(HeuristicData(content, name, draws).value)
    ensures |HeuristicData(content, name, draws).value| == 5
  {
  }

  /** When the cascade gets as far as the heuristic and the reply names a platform, the answer
      covers all five platforms: the mentioned ones first, each exactly once. */
  lemma HeuristicCoversAllPlatforms(content: string, name: string, o: Oracles, draws: Draws)
    requires !Contains(content, "```") && ArrayStage(content, o).None?
    requires |Mentioned(content)| > 0
    ensures var r := Cascade(content, name, o, draws);
      r.Success? && |r.data| == 5
      && (forall i :: 0 <= i < 5 ==> r.data[i].platform == JStr(HeuristicOrder(content)[i]))
      && multiset(HeuristicOrder(content)) == multiset(Platforms)
  {
    EveryPlatformOnce(content);
  }

  lemma OutcomeNormalized(r: Result<seq<Rec>, Exc>, items: seq<JVal>)
    requires r == ValidateItems(items)
    ensures NormalizedResponse(Outcome(r))
  {
    if r.Ok? {
      ValidatedNormalized(items);
    }
  }

  lemma AcceptNormalized(v: JVal)
    ensures Accept(v).Ok? ==> AllNormalized(Accept(v).value)
  {
    if Accept(v).Ok? {
      ValidatedNormalized(Iterate(v).value);
    }
  }

  lemma {:induction false} CodeBlocksNormalized(content: string, parse: string -> Decoding, k: nat)
    requires k <= 3
    ensures CodeBlocks(content, parse, k).Some? ==> NormalizedResponse(CodeBlocks(content, parse, k).value)
    decreases 3 - k
  {
    if k < 3 {
      CodeBlocksNormalized(content, parse, k + 1);
      match PatternMatch(k, content)
      case None =>
      case Some(js) =>
        if parse(js).Decoded? {
          AcceptNormalized(parse(js).v);
        }
        if parse(Repair(js)).Decoded? {
          AcceptNormalized(parse(Repair(js)).v);
        }
    }
  }

  lemma BracketNormalized(content: string, parse: string -> Decoding)
    ensures NormalizedResponse(BracketStage(content, parse))
  {
    if BracketSlice(content).Some? && parse(BracketSlice(content).value).Decoded? {
      AcceptNormalized(parse(BracketSlice(content).value).v);
    }
  }

  lemma ArrayNormalized(content: string, o: Oracles)
    ensures ArrayStage(content, o).Some? ==> NormalizedResponse(ArrayStage(content, o).value)
  {
    var m := o.arrayMatch(content);
    if m.Some? && o.parse(ArrayText(m.value)).Decoded? {
      AcceptNormalized(o.parse(ArrayText(m.value)).v);
    }
  }

  lemma RandomNormalized(name: string, draws: Draws)
    ensures NormalizedResponse(RandomResponse(name, draws))
    ensures NormalizedResponse(LastResort(name, draws))
  {
    OutcomeNormalized(ValidateItems(RandomRows(name, draws)), RandomRows(name, draws));
  }

  lemma HeuristicNormalized(content: string, name: string, draws: Draws)
    ensures HeuristicData(content, name, draws).Some? ==> AllNormalized(HeuristicData(content, name, draws).value)
  {
  }

  lemma {:induction false} CascadeNormalized(content: string, name: string, o: Oracles, draws: Draws)
    ensures NormalizedResponse(Cascade(content, name, o, draws))
  {
    var blocks := if Contains(content, "```") then CodeBlocks(content, o.parse, 0) else None;
    if blocks.Some? {
      CodeBlocksNormalized(content, o.parse, 0);
    } else if ArrayStage(content, o).Some? {
      ArrayNormalized(content, o);
    } else if HeuristicData(content, name, draws).Some? {
      HeuristicNormalized(content, name, draws);
    } else {
      RandomNormalized(name, draws);
    }
  }

  /** Every record the endpoint returns, on any path, satisfies the schema invariants: rating
      in [1.0, 10.0], percentages in [0, 100] summing to 100. */
  lemma {:induction false} ResponsesNormalized(name: string, reply: AgentReply, o: Oracles, draws: Draws)
    ensures NormalizedResponse(GetMovieRatings(name, reply, o, draws))
  {
    if reply.Replied? {
      ParsedNormalized(reply.content, name, o, draws);
    }
  }

  /** The reply the agent gave, past the refusal check. */
  lemma ParsedNormalized(content: string, name: string, o: Oracles, draws: Draws)
    ensures NormalizedResponse(GetMovieRatings(name, Replied(content), o, draws))
  {
    if IsApology(content) {
      RandomNormalized(name, draws);
    } else if o.parse(content).NotJson? {
      BracketNormalized(content, o.parse);
    } else if o.parse(content).Decoded? && Accept(o.parse(content).v).Ok? {
      AcceptNormalized(o.parse(content).v);
    } else {
      CascadeNormalized(content, name, o, draws);
    }
  }
}

=== FILE: json.dfy ===
/** The values `json.loads` produces, and the slice of Python's dynamic semantics the core
    applies to them: truthiness, `len`, iteration, `in`, `dict.get`, `str()`, and the text of
    the exceptions these raise. */
module Json {
  import opened Wrappers
  import opened Text
  import opened Decimal

  /** A JSON value as Python sees it after `json.loads`: `null`, `true`/`false`, an int, a
      float (json.loads also accepts NaN and Infinity), a string, a list or a dict. */
  datatype JVal =
    | JNull
    | JBool(b: bool)
    | JInt(i: int)
    | JFloat(f: PyFloat)
    | JStr(s: string)
    | JArr(items: seq<JVal>)
    | JObj(fields: seq<Field>)

  /** One entry of a dict, in insertion order. Keys are taken to be distinct, as json.loads
      builds them. */
  datatype Field = Field(key: string, val: JVal)

  /** `key in d`. */
  predicate HasKey(fields: seq<Field>, key: string) {
    exists i :: 0 <= i < |fields| && fields[i].key == key
  }

  /** `d.get(key)`: the value stored under the first entry with that key. */
  function Lookup(fields: seq<Field>, key: string): (r: Option<JVal>)
    ensures r.Some? <==> HasKey(fields, key)
    ensures r.Some? ==> exists i :: 0 <= i < |fields| && fields[i] == Field(key, r.value)
  {
    if |fields| == 0 then None
    else if fields[0].key == key then Some(fields[0].val)
    else
      var r := Lookup(fields[1..], key);
      assert forall i :: 0 < i < |fields| ==> fields[i] == fields[1..][i - 1];
      assert r.Some? ==> exists i :: 0 <= i < |fields[1..]| && fields[1..][i] == Field(key, r.value);
      r
  }

  /** `d.get(key, default)`. */
  function GetOr(fields: seq<Field>, key: string, default: JVal): JVal {
    match Lookup(fields, key)
    case Some(v) => v
    case None => default
  }

  /** `d[key] = v`: overwrite the entry in place, or append a new one. */
  function Store(fields: seq<Field>, key: string, v: JVal): (r: seq<Field>)
    ensures Lookup(r, key) == Some(v)
    ensures forall k :: k != key ==> Lookup(r, k) == Lookup(fields, k)
  {
    if |fields| == 0 then [Field(key, v)]
    else if fields[0].key == key then [Field(key, v)] + fields[1..]
    else [fields[0]] + Store(fields[1..], key, v)
  }

  /** Python's `type(v).__name__`. */
  function TypeName(v: JVal): string {
    match v
    case JNull => "NoneType"
    case JBool(_) => "bool"
    case JInt(_) => "int"
    case JFloat(_) => "float"
    case JStr(_) => "str"
    case JArr(_) => "list"
    case JObj(_) => "dict"
  }

  /** Python truthiness (`bool(v)`). */
  predicate Truthy(v: JVal) {
    match v
    case JNull => false
    case JBool(b) => b
    case JInt(i) => i != 0
    case JFloat(f) => !(f.Finite? && f.d.m == 0)
    case JStr(s) => |s| > 0
    case JArr(items) => |items| > 0
    case JObj(fields) => |fields| > 0
  }

  /** The exceptions the modelled code can raise, as far as their text matters. */
  datatype Exc =
    | NoLen(typeName: string)                 // len() of a value without a length
    | NoAttribute(typeName: string, attr: string)
    | NotIterable(typeName: string)           // `for x in v`
    | NotContainer(typeName: string)          // `k in v`
    | ListIndexedByStr                        // `lst['organic']`
    | StrIndexedByStr                         // `s['organic']`
    | FloatOverflow                           // int(float('inf'))
    | IntTooLarge                             // float(i) for an int beyond the double range
    | Foreign(message: string)                // raised by code outside the model

  /** `str(e)` for each exception. */
  function Message(e: Exc): string {
    match e
    case NoLen(t) => "object of type '" + t + "' has no len()"
    case NoAttribute(t, a) => "'" + t + "' object has no attribute '" + a + "'"
    case NotIterable(t) => "'" + t + "' object is not iterable"
    case NotContainer(t) => "argument of type '" + t + "' is not iterable"
    case ListIndexedByStr => "list indices must be integers or slices, not str"
    case StrIndexedByStr => "string indices must be integers, not 'str'"
    case FloatOverflow => "cannot convert float infinity to integer"
    case IntTooLarge => "int too large to convert to float"
    case Foreign(m) => m
  }

  /** `len(v)`. */
  function Len(v: JVal): Result<nat, Exc> {
    match v
    case JStr(s) => Ok(|s|)
    case JArr(items) => Ok(|items|)
    case JObj(fields) => Ok(|fields|)
    case _ => Err(NoLen(TypeName(v)))
  }

  function Keys(fields: seq<Field>): (r: seq<JVal>)
    ensures |r| == |fields|
    ensures forall i :: 0 <= i < |r| ==> r[i] == JStr(fields[i].key)
  {
    seq(|fields|, i requires 0 <= i < |fields| => JStr(fields[i].key))
  }

  function Chars(s: string): (r: seq<JVal>)
    ensures |r| == |s|
    ensures forall i :: 0 <= i < |r| ==> r[i] == JStr([s[i]])
  {
    seq(|s|, i requires 0 <= i < |s| => JStr([s[i]]))
  }

  /** The elements `for x in v` visits: list items, dict keys, or one-character strings. */
  function Iterate(v: JVal): (r: Result<seq<JVal>, Exc>)
    ensures r.Ok? <==> Len(v).Ok?
    ensures r.Ok? ==> |r.value| == Len(v).value
  {
    match v
    case JStr(s) => Ok(Chars(s))
    case JArr(items) => Ok(items)
    case JObj(fields) => Ok(Keys(fields))
    case _ => Err(NotIterable(TypeName(v)))
  }

  /** Python's `repr()` of a string, without its escaping of quotes and control characters. */
  function QuoteRepr(s: string): string {
    "'" + s + "'"
  }

  /** A termination measure for the mutual recursion of `PyRepr` through containers. */
  function Width(v: JVal): nat {
    match v
    case JArr(items) => |items| + 1
    case JObj(fields) => |fields| + 1
    case _ => 0
  }

  /** Python's `str(v)` (for containers, the `repr` of each element). */
  function PyStr(v: JVal): string
    decreases v, Width(v) + 1
  {
    match v
    case JStr(s) => s
    case _ => PyRepr(v)
  }

  /** Python's `repr(v)`. */
  function PyRepr(v: JVal): string
    decreases v, Width(v)
  {
    match v
    case JNull => "None"
    case JBool(b) => if b then "True" else "False"
    case JInt(i) => IntToString(i)
    case JFloat(f) => FloatRepr(f)
    case JStr(s) => QuoteRepr(s)
    case JArr(items) => "[" + ReprItems(v, items) + "]"
    case JObj(fields) => "{" + ReprFields(v, fields) + "}"
  }

  function ReprItems(ghost parent: JVal, items: seq<JVal>): string
    requires forall x :: x in items ==> x < parent
    decreases parent, |items|
  {
    if |items| == 0 then ""
    else if |items| == 1 then assert items[0] in items; PyRepr(items[0])
    else
      assert items[0] in items;
      assert forall x :: x in items[1..] ==> x in items;
      PyRepr(items[0]) + ", " + ReprItems(parent, items[1..])
  }

  function ReprFields(ghost parent: JVal, fields: seq<Field>): string
    requires forall f :: f in fields ==> f.val < parent
    decreases parent, |fields|
  {
    if |fields| == 0 then ""
    else
      var head := QuoteRepr(fields[0].key) + ": " + PyRepr(fields[0].val);
      assert forall f :: f in fields[1..] ==> f in fields;
      if |fields| == 1 then head else head + ", " + ReprFields(parent, fields[1..])
  }
}

=== FILE: normalize.dfy ===
/** `validate_platform_data`: the schema normaliser that gives every record field a default,
    coerces it with Python's `float()`, `int()` and `str()`, clamps it and forces the
    percentage pair to sum to 100. */
module Normalize {
  import opened Wrappers
  import opened Text
  import opened Decimal
  import opened Json

  const DefaultGenre: string := "Drama, Action"

  /** One validated record; `rating` is the movie rating in tenths (8.5 is 85). The platform and
      title are passed through as whatever JSON value the input held. */
  datatype Rec = Rec(platform: JVal, title: JVal, rating: int, genre: string, positive: int, negative: int)

  /** The field invariants every validated record satisfies. */
  predicate Normalized(r: Rec) {
    10 <= r.rating <= 100 && 0 <= r.positive <= 100 && r.negative == 100 - r.positive
  }

  /** The `.get` default of `movie_rating`, 8.0. */
  const DefaultRating: JVal := JFloat(Finite(Dec(80, 1)))

  /** Outcome of Python's `float(v)`: a value, a caught ValueError/TypeError, or the
      OverflowError of an int beyond the double range, which the normaliser does not catch. */
  datatype FloatConversion = AsFloat(f: PyFloat) | NotFloat | TooLarge

  function ToFloat(v: JVal): (r: FloatConversion)
    ensures r.TooLarge? <==> v.JInt? && Overflows(Dec(v.i, 0))
    ensures r.NotFloat? <==> (v.JStr? && ParseFloat(v.s).None?) || v.JNull? || v.JArr? || v.JObj?
    ensures v.JFloat? ==> r == AsFloat(v.f)
    ensures v.JInt? && !Overflows(Dec(v.i, 0)) ==> r == AsFloat(Finite(Dec(v.i, 0)))
    ensures v.JStr? && ParseFloat(v.s).Some? ==> r == AsFloat(ParseFloat(v.s).value)
  {
    match v
    case JBool(b) => AsFloat(Finite(Dec(if b then 1 else 0, 0)))
    case JInt(i) => if Overflows(Dec(i, 0)) then TooLarge else AsFloat(Finite(Dec(i, 0)))
    case JFloat(f) => AsFloat(f)
    case JStr(s) => (match ParseFloat(s) case Some(f) => AsFloat(f) case None => NotFloat)
    case _ => NotFloat
  }

  /** Outcome of Python's `int(v)`: a value, a caught ValueError/TypeError, or the
      OverflowError of `int(float('inf'))`, which the normaliser does not catch. */
  datatype IntConversion = Converted(i: int) | Rejected | Overflowed

  function ToInt(v: JVal): (r: IntConversion)
    ensures r.Overflowed? <==> v.JFloat? && v.f.Inf?
    ensures v.JInt? ==> r == Converted(v.i)
    ensures v.JFloat? && v.f.Finite? ==> r == Converted(Truncate(v.f.d))
    ensures v.JStr? ==> (r.Converted? <==> ParseInt(v.s).Some?)
    ensures r.Rejected? ==> !(v.JBool? || v.JInt?)
  {
    match v
    case JBool(b) => Converted(if b then 1 else 0)
    case JInt(i) => Converted(i)
    case JFloat(f) =>
      (match f
       case Finite(d) => Converted(Truncate(d))
       case Inf(_) => Overflowed
       case NaN => Rejected)
    case JStr(s) => (match ParseInt(s) case Some(i) => Converted(i) case None => Rejected)
    case _ => Rejected
  }

  /** `int(float(v))` is `int(v)` for every value `float()` takes to a finite number without
      reading a string: bools, ints within the double range and finite floats. */
  lemma FloatThenInt(v: JVal, d: Dec)
    requires ToFloat(v) == AsFloat(Finite(d)) && !v.JStr?
    ensures ToInt(v) == Converted(Truncate(d))
  {
    assert Pow10(0) == 1;
    if v.JBool? || v.JInt? {
      assert Abs(d.m) / 1 == Abs(d.m);
    }
  }

  /** `max(1.0, min(10.0, x))`, following how Python's `min` and `max` treat NaN: the result
      lies in [1.0, 10.0], NaN and +inf give 10.0, -inf gives 1.0, and a finite value is moved
      only when it is outside the range. */
  function ClampRating(f: PyFloat): (r: Dec)
    ensures AtLeastTenths(r, 10) && AtMostTenths(r, 100)
    ensures f.NaN? || f == Inf(false) ==> r == Dec(10, 0)
    ensures f == Inf(true) ==> r == Dec(1, 0)
    ensures f.Finite? && BelowTenths(f.d, 100) && AboveTenths(f.d, 10) ==> r == f.d
    ensures f.Finite? && !BelowTenths(f.d, 100) ==> r == Dec(10, 0)
    ensures f.Finite? && !AboveTenths(f.d, 10) ==> r == Dec(1, 0)
  {
    assert Pow10(0) == 1;
    match f
    case NaN => Dec(10, 0)
    case Inf(neg) => if neg then Dec(1, 0) else Dec(10, 0)
    case Finite(d) =>
      var y := if BelowTenths(d, 100) then d else Dec(10, 0);
      if AboveTenths(y, 10) then y else Dec(1, 0)
  }

  /** `max(lo, min(hi, i))` on ints. */
  function ClampInt(i: int, lo: int, hi: int): int
    requires lo <= hi
  {
    var y := if i < hi then i else hi;
    if y > lo then y else lo
  }

  /** The rating in tenths: `round(clamped, 1)`, always in [1.0, 10.0]; 8.0 when `float()`
      raises a caught error; the OverflowError when it meets an int beyond the double range. */
  function RatingOf(v: JVal): (r: Result<int, Exc>)
    ensures r.Err? <==> ToFloat(v).TooLarge?
    ensures r.Err? ==> r.error == IntTooLarge
    ensures r.Ok? ==> 10 <= r.value <= 100
    ensures ToFloat(v).NotFloat? ==> r == Ok(80)
    ensures ToFloat(v).AsFloat? ==> r == Ok(RoundTenths(ClampRating(ToFloat(v).f)))
  {
    match ToFloat(v)
    case AsFloat(f) =>
      RoundWithin(ClampRating(f), 10, 100);
      Ok(RoundTenths(ClampRating(f)))
    case NotFloat => Ok(80)
    case TooLarge => Err(IntTooLarge)
  }

  /** The rating a finite float normalises to. */
  function Clamped(x: Dec): int {
    RatingOf(JFloat(Finite(x))).value
  }

  /** A percentage field after `int()` and clamping into [0, 100], or `dflt` when `int()` fails. */
  function PercentOf(v: JVal, dflt: int): IntConversion {
    match ToInt(v)
    case Converted(i) => Converted(ClampInt(i, 0, 100))
    case Rejected => Converted(dflt)
    case Overflowed => Overflowed
  }

  /** Whether `float()` of the stored rating (or its default) raises OverflowError. */
  predicate RatingRaises(fields: seq<Field>) {
    ToFloat(GetOr(fields, "movie_rating", DefaultRating)).TooLarge?
  }

  /** The per-item body of `validate_platform_data`. Its uncaught failures are the
      OverflowError of `float()` on an int rating beyond the double range, raised first, and
      that of `int()` on an infinite percentage. */
  function NormalizeItem(fields: seq<Field>): (r: Result<Rec, Exc>)
    ensures r.Ok? <==> (!RatingRaises(fields)
                      && !ToInt(GetOr(fields, "positive_review_percentage", JInt(80))).Overflowed?
                      && !ToInt(GetOr(fields, "negative_review_percentage", JInt(20))).Overflowed?)
    ensures r.Err? ==> r.error == if RatingRaises(fields) then IntTooLarge else FloatOverflow
    ensures r.Ok? ==> Normalized(r.value)
    ensures r.Ok? && HasKey(fields, "platform") ==> Lookup(fields, "platform") == Some(r.value.platform)
    ensures r.Ok? && !HasKey(fields, "platform") ==> r.value.platform == JStr("Unknown Platform")
    ensures r.Ok? && HasKey(fields, "movie_title") ==> Lookup(fields, "movie_title") == Some(r.value.title)
    ensures r.Ok? && !HasKey(fields, "movie_title") ==> r.value.title == JStr("Unknown Movie")
    ensures r.Ok? && !HasKey(fields, "type_of_movie") ==> r.value.genre == DefaultGenre
    ensures r.Ok? ==> forall s :: Lookup(fields, "type_of_movie") == Some(JStr(s)) ==> r.value.genre == s
    ensures r.Ok? && (!HasKey(fields, "movie_rating") || ToFloat(Lookup(fields, "movie_rating").value).NotFloat?)
      ==> r.value.rating == 80
    ensures r.Ok? && (!HasKey(fields, "positive_review_percentage")
                      || ToInt(Lookup(fields, "positive_review_percentage").value).Rejected?)
      ==> r.value.positive == 80
    ensures r.Ok? ==> forall i :: (ToInt(GetOr(fields, "positive_review_percentage", JInt(80))) == Converted(i)
                                   ==> r.value.positive == ClampInt(i, 0, 100))
  {
    assert RatingOf(DefaultRating) == Ok(80) by { RoundExact(80); assert Pow10(1) == 10; }
    FromValues(
      GetOr(fields, "platform", JStr("Unknown Platform")),
      GetOr(fields, "movie_title", JStr("Unknown Movie")),
      GetOr(fields, "movie_rating", DefaultRating),
      GetOr(fields, "type_of_movie", JStr(DefaultGenre)),
      GetOr(fields, "positive_review_percentage", JInt(80)),
      GetOr(fields, "negative_review_percentage", JInt(20)))
  }

  /** The normaliser once the six values have been fetched with their defaults. The rating is
      converted first, so its OverflowError wins over a percentage's. */
  function FromValues(platform: JVal, title: JVal, rating: JVal, genre: JVal, positive: JVal, negative: JVal)
    : (r: Result<Rec, Exc>)
    ensures r.Ok? <==> RatingOf(rating).Ok? && !ToInt(positive).Overflowed? && !ToInt(negative).Overflowed?
    ensures r.Err? ==> r.error == if RatingOf(rating).Err? then IntTooLarge else FloatOverflow
    ensures r.Ok? ==> r.value.platform == platform && r.value.title == title
    ensures r.Ok? ==> RatingOf(rating) == Ok(r.value.rating) && r.value.genre == PyStr(genre)
    ensures r.Ok? ==> 0 <= r.value.positive <= 100 && r.value.negative == 100 - r.value.positive
    ensures r.Ok? && ToInt(positive).Rejected? ==> r.value.positive == 80
    ensures r.Ok? ==> forall i :: ToInt(positive) == Converted(i) ==> r.value.positive == ClampInt(i, 0, 100)
  {
    match RatingOf(rating)
    case Err(e) => Err(e)
    case Ok(tenths) =>
      match PercentOf(positive, 80)
      case Converted(pos) =>
        (match PercentOf(negative, 20)
         case Converted(negRaw) =>
           var neg := if pos + negRaw != 100 then 100 - pos else negRaw;
           Ok(Rec(platform, title, tenths, PyStr(genre), pos, neg))
         case _ => Err(FloatOverflow))
      case _ => Err(FloatOverflow)
  }

  /** A finite in-range rating is rounded, not moved: the result is the nearest tenth. */
  lemma RatingInRange(d: Dec)
    requires AtLeastTenths(d, 10) && AtMostTenths(d, 100)
    ensures RatingOf(JFloat(Finite(d))) == Ok(RoundTenths(d))
  {
    var c := ClampRating(Finite(d));
    assert RatingOf(JFloat(Finite(d))) == Ok(RoundTenths(c));
    if !BelowTenths(d, 100) {
      assert c == Dec(10, 0) && Pow10(0) == 1;
      RoundWithin(d, 100, 100);
      RoundWithin(c, 100, 100);
    } else if !AboveTenths(d, 10) {
      assert c == Dec(1, 0) && Pow10(0) == 1;
      RoundWithin(d, 10, 10);
      RoundWithin(c, 10, 10);
    }
  }

  /** Out-of-range finite ratings are clamped to 1.0 or 10.0. */
  lemma RatingOutOfRange(d: Dec)
    ensures BelowTenths(d, 10) ==> RatingOf(JFloat(Finite(d))) == Ok(10)
    ensures AboveTenths(d, 100) ==> RatingOf(JFloat(Finite(d))) == Ok(100)
  {
    assert Pow10(0) == 1;
    RoundWithin(Dec(1, 0), 10, 10);
    RoundWithin(Dec(10, 0), 100, 100);
  }

  /** An int rating beyond the double range makes the item raise OverflowError, whatever the
      other fields hold. */
  lemma HugeRatingRaises(fields: seq<Field>, i: int)
    requires Lookup(fields, "movie_rating") == Some(JInt(i)) && Abs(i) >= DoubleOverflow
    ensures NormalizeItem(fields) == Err(IntTooLarge)
  {
    assert Pow10(0) == 1;
  }

  /** Whether `validate_platform_data` gets past one element of its input. */
  predicate ItemAccepted(v: JVal) {
    v.JObj? && NormalizeItem(v.fields).Ok?
  }

  /** The exception an unaccepted element raises: AttributeError on `.get` for a non-dict,
      otherwise the OverflowError of `float()` on the rating or of `int()` on a percentage. */
  function ItemError(v: JVal): Exc {
    if !v.JObj? then NoAttribute(TypeName(v), "get")
    else if RatingRaises(v.fields) then IntTooLarge
    else FloatOverflow
  }

  /** Index of the first element the normaliser stops at, or `|items|` when there is none. */
  function FirstRejected(items: seq<JVal>): (k: nat)
    ensures k <= |items|
    ensures forall j :: 0 <= j < k ==> ItemAccepted(items[j])
    ensures k < |items| ==> !ItemAccepted(items[k])
  {
    if |items| == 0 then 0
    else if !ItemAccepted(items[0]) then 0
    else
      var k := FirstRejected(items[1..]);
      assert forall j :: 1 <= j < |items| ==> items[j] == items[1..][j - 1];
      k + 1
  }

  /** `validate_platform_data` on one element. */
  function ValidateItem(v: JVal): (r: Result<Rec, Exc>)
    ensures r.Ok? <==> ItemAccepted(v)
    ensures r.Err? ==> r.error == ItemError(v)
    ensures r.Ok? ==> v.JObj? && NormalizeItem(v.fields) == Ok(r.value)
  {
    if !v.JObj? then Err(NoAttribute(TypeName(v), "get"))
    else NormalizeItem(v.fields)
  }

  /** `validate_platform_data` over the items of its argument: one record per item, in order,
      or the exception of the first item it cannot handle. */
  function ValidateItems(items: seq<JVal>): (r: Result<seq<Rec>, Exc>)
    ensures r.Ok? <==> FirstRejected(items) == |items|
    ensures r.Err? ==> r.error == ItemError(items[FirstRejected(items)])
    ensures r.Ok? ==> |r.value| == |items|
    ensures r.Ok? ==> forall i :: 0 <= i < |items| ==> items[i].JObj? && NormalizeItem(items[i].fields) == Ok(r.value[i])
  {
    if |items| == 0 then Ok([])
    else
      match ValidateItem(items[0])
      case Err(e) => Err(e)
      case Ok(rec) =>
        var tail := ValidateItems(items[1..]);
        assert forall i :: 1 <= i < |items| ==> items[i] == items[1..][i - 1];
        match tail
        case Err(e) => Err(e)
        case Ok(recs) => Ok([rec] + recs)
  }

  /** Every record `validate_platform_data` returns satisfies the field invariants. */
  lemma ValidatedNormalized(items: seq<JVal>)
    requires ValidateItems(items).Ok?
    ensures forall i :: 0 <= i < |items| ==> Normalized(ValidateItems(items).value[i])
  {
  }

  /** A record dict with the six schema keys in the order the normaliser writes them. */
  function Row(platform: JVal, title: JVal, rating: JVal, genre: JVal, positive: JVal, negative: JVal): JVal {
    JObj([
      Field("platform", platform),
      Field("movie_title", title),
      Field("movie_rating", rating),
      Field("type_of_movie", genre),
      Field("positive_review_percentage", positive),
      Field("negative_review_percentage", negative)
    ])
  }

  /** The dict `validate_platform_data` emits for a record. */
  function ToJson(r: Rec): JVal {
    Row(r.platform, r.title, JFloat(Finite(Dec(r.rating, 1))), JStr(r.genre), JInt(r.positive), JInt(r.negative))
  }

  function Render(recs: seq<Rec>): (r: seq<JVal>)
    ensures |r| == |recs|
    ensures forall i :: 0 <= i < |recs| ==> r[i] == ToJson(recs[i])
  {
    seq(|recs|, i requires 0 <= i < |recs| => ToJson(recs[i]))
  }

  lemma LookupSkip(f: Field, rest: seq<Field>, key: string)
    requires f.key != key
    ensures Lookup([f] + rest, key) == Lookup(rest, key)
  {
    assert ([f] + rest)[1..] == rest;
  }

  /** The six keys of a row look up to its six values. */
  lemma RowLookups(platform: JVal, title: JVal, rating: JVal, genre: JVal, positive: JVal, negative: JVal)
    ensures var fs := Row(platform, title, rating, genre, positive, negative).fields;
      Lookup(fs, "platform") == Some(platform) && Lookup(fs, "movie_title") == Some(title)
      && Lookup(fs, "movie_rating") == Some(rating) && Lookup(fs, "type_of_movie") == Some(genre)
      && Lookup(fs, "positive_review_percentage") == Some(positive)
      && Lookup(fs, "negative_review_percentage") == Some(negative)
  {
    var fs := Row(platform, title, rating, genre, positive, negative).fields;
    var f4 := [fs[4]] + [fs[5]];
    var f3 := [fs[3]] + f4;
    var f2 := [fs[2]] + f3;
    var f1 := [fs[1]] + f2;
    assert fs == [fs[0]] + f1;
    LookupSkip(fs[0], f1, "movie_title");
    LookupSkip(fs[0], f1, "movie_rating");
    LookupSkip(fs[1], f2, "movie_rating");
    LookupSkip(fs[0], f1, "type_of_movie");
    LookupSkip(fs[1], f2, "type_of_movie");
    LookupSkip(fs[2], f3, "type_of_movie");
    LookupSkip(fs[0], f1, "positive_review_percentage");
    LookupSkip(fs[1], f2, "positive_review_percentage");
    LookupSkip(fs[2], f3, "positive_review_percentage");
    LookupSkip(fs[3], f4, "positive_review_percentage");
    LookupSkip(fs[0], f1, "negative_review_percentage");
    LookupSkip(fs[1], f2, "negative_review_percentage");
    LookupSkip(fs[2], f3, "negative_review_percentage");
    LookupSkip(fs[3], f4, "negative_review_percentage");
    LookupSkip(fs[4], [fs[5]], "negative_review_percentage");
  }

  /** A row with a finite rating, a string genre and a consistent percentage pair keeps
      everything but the rating, which is clamped and rounded. */
  lemma NormalizeRow(platform: JVal, title: JVal, d: Dec, genre: string, pos: int, neg: int)
    requires 0 <= pos <= 100 && neg == 100 - pos
    ensures NormalizeItem(Row(platform, title, JFloat(Finite(d)), JStr(genre), JInt(pos), JInt(neg)).fields)
         == Ok(Rec(platform, title, Clamped(d), genre, pos, neg))
  {
    var fs := Row(platform, title, JFloat(Finite(d)), JStr(genre), JInt(pos), JInt(neg)).fields;
    RowLookups(platform, title, JFloat(Finite(d)), JStr(genre), JInt(pos), JInt(neg));
    FromRowValues(platform, title, d, genre, pos, neg);
    NormalizeIsFromValues(fs);
  }

  lemma FromRowValues(platform: JVal, title: JVal, d: Dec, genre: string, pos: int, neg: int)
    requires 0 <= pos <= 100 && neg == 100 - pos
    ensures FromValues(platform, title, JFloat(Finite(d)), JStr(genre), JInt(pos), JInt(neg))
         == Ok(Rec(platform, title, Clamped(d), genre, pos, neg))
  {
    assert PercentOf(JInt(pos), 80) == Converted(pos);
    assert PercentOf(JInt(neg), 20) == Converted(neg);
  }

  /** The normaliser reads the six values with their defaults and hands them on. */
  lemma NormalizeIsFromValues(fs: seq<Field>)
    ensures NormalizeItem(fs) == FromValues(
      GetOr(fs, "platform", JStr("Unknown Platform")),
      GetOr(fs, "movie_title", JStr("Unknown Movie")),
      GetOr(fs, "movie_rating", DefaultRating),
      GetOr(fs, "type_of_movie", JStr(DefaultGenre)),
      GetOr(fs, "positive_review_percentage", JInt(80)),
      GetOr(fs, "negative_review_percentage", JInt(20)))
  {
  }

  /** A validated record is a fixed point of the normaliser. */
  lemma NormalizeFixpoint(r: Rec)
    requires Normalized(r)
    ensures NormalizeItem(ToJson(r).fields) == Ok(r)
  {
    NormalizeRow(r.platform, r.title, Dec(r.rating, 1), r.genre, r.positive, r.negative);
    assert Pow10(1) == 10;
    RatingInRange(Dec(r.rating, 1));
    RoundExact(r.rating);
  }

  /** Items that each normalise to the matching record validate to exactly those records. */
  lemma {:induction false} ValidateAll(items: seq<JVal>, recs: seq<Rec>)
    requires |items| == |recs|
    requires forall i :: 0 <= i < |items| ==> ValidateItem(items[i]) == Ok(recs[i])
    ensures ValidateItems(items) == Ok(recs)
  {
    if |items| > 0 {
      assert forall i :: 0 <= i < |items| - 1 ==> items[1..][i] == items[i + 1];
      ValidateAll(items[1..], recs[1..]);
      ValidateCons(items, recs[0], recs[1..]);
      assert [recs[0]] + recs[1..] == recs;
    }
  }

  /** One accepted item in front of an accepted list. */
  lemma ValidateCons(items: seq<JVal>, rec: Rec, recs: seq<Rec>)
    requires |items| > 0 && ValidateItem(items[0]) == Ok(rec) && ValidateItems(items[1..]) == Ok(recs)
    ensures ValidateItems(items) == Ok([rec] + recs)
  {
  }

  /** Rendering validated records and validating them again gives back the same records. */
  lemma ValidateRendered(recs: seq<Rec>)
    requires forall i :: 0 <= i < |recs| ==> Normalized(recs[i])
    ensures ValidateItems(Render(recs)) == Ok(recs)
  {
    forall i | 0 <= i < |recs| ensures NormalizeItem(Render(recs)[i].fields) == Ok(recs[i]) {
      NormalizeFixpoint(recs[i]);
    }
    ValidateAll(Render(recs), recs);
  }

  /** `validate_platform_data` is idempotent: validating its own output changes nothing. */
  lemma ValidateIdempotent(items: seq<JVal>)
    requires ValidateItems(items).Ok?
    ensures ValidateItems(Render(ValidateItems(items).value)) == ValidateItems(items)
  {
    ValidateRendered(ValidateItems(items).value);
  }
}

=== FILE: retry.dfy ===
/** The Serper retry policy that both planners' `multi_search` tools share, the single-shot
    search tools, and the result dicts the tools assemble. The search back ends are oracles:
    a `Network` answers the attempt-th request carrying a payload. */
module Retry {
  import opened Wrappers
  import opened Text
  import opened Json

  /** What one request gives: the body `response.json()` decoded, or the text of the
      exception the request or the decoding raised. */
  datatype Attempt = Responded(body: JVal) | Failed(message: string)

  /** The search back end: the outcome of the attempt-th request (counting from 0) that
      carries the given payload. */
  type Network = (JVal, nat) -> Attempt

  /** `max_retries`. */
  const MaxRetries: nat := 3

  const EmptyMessage := "No meaningful results found after multiple attempts"
  const FailedPrefix := "Failed after 3 attempts: "

  /** `{"error": message}`. */
  function ErrorDict(message: string): JVal {
    JObj([Field("error", JStr(message))])
  }

  /** The JSON body posted to Serper. */
  function Payload(query: string, num: int): JVal {
    JObj([Field("q", JStr(query)), Field("num", JInt(num))])
  }

  /** The list stored under `'organic'`, when the body is a dict that has one. */
  function Organic(v: JVal): Option<JVal> {
    if v.JObj? then Lookup(v.fields, "organic") else None
  }

  /** A body with a non-empty `'organic'` entry. */
  predicate HasHits(v: JVal) {
    Organic(v).Some? && Len(Organic(v).value).Ok? && Len(Organic(v).value).value > 0
  }

  /** `serper_result and 'organic' in serper_result and len(serper_result['organic']) > 0`:
      Ok(b) when the test evaluates to b, Err(e) for the TypeError `in`, indexing or `len`
      raise on a truthy body that is not a dict. */
  function Meaningful(v: JVal): (r: Result<bool, Exc>)
    ensures r == Ok(true) <==> HasHits(v)
    ensures !Truthy(v) ==> r == Ok(false)
    ensures v.JObj? ==> (r.Ok? <==> Organic(v).None? || Len(Organic(v).value).Ok?)
    ensures r.Err? && !v.JObj? ==> Truthy(v)
  {
    if !Truthy(v) then Ok(false)
    else
      match v
      case JObj(fields) =>
        (match Lookup(fields, "organic")
         case None => Ok(false)
         case Some(o) =>
           match Len(o)
           case Ok(n) => Ok(n > 0)
           case Err(e) => Err(e))
      case JArr(items) => if JStr("organic") in items then Err(ListIndexedByStr) else Ok(false)
      case JStr(s) => if Contains(s, "organic") then Err(StrIndexedByStr) else Ok(false)
      case _ => Err(NotContainer(TypeName(v)))
  }

  /** How one attempt ends the loop body: a meaningful body is kept, an empty one retries, and
      an exception (from the request or from the test itself) retries too. */
  datatype Verdict = Found(result: JVal) | Empty | Raised(message: string)

  function Judge(a: Attempt): (v: Verdict)
    ensures v.Found? <==> a.Responded? && HasHits(a.body)
    ensures v.Found? ==> v.result == a.body
    ensures a.Failed? ==> v == Raised(a.message)
  {
    match a
    case Failed(m) => Raised(m)
    case Responded(body) =>
      match Meaningful(body)
      case Ok(b) => if b then Found(body) else Empty
      case Err(e) => Raised(Message(e))
  }

  /** The verdicts of the three attempts the loop may make. */
  function Verdicts(net: Network, payload: JVal): (vs: seq<Verdict>)
    ensures |vs| == MaxRetries
    ensures forall k :: 0 <= k < |vs| ==> vs[k] == Judge(net(payload, k))
  {
    [Judge(net(payload, 0)), Judge(net(payload, 1)), Judge(net(payload, 2))]
  }

  /** The first attempt whose body was kept, or |vs| when none was. */
  function FirstFound(vs: seq<Verdict>): (k: nat)
    ensures k <= |vs|
    ensures forall j :: 0 <= j < k ==> !vs[j].Found?
    ensures k < |vs| ==> vs[k].Found?
  {
    if |vs| == 0 then 0
    else if vs[0].Found? then 0
    else 1 + FirstFound(vs[1..])
  }

  /** The error dict the last attempt leaves behind when nothing was found. */
  function FinalError(last: Verdict): JVal {
    match last
    case Raised(m) => ErrorDict(FailedPrefix + m)
    case _ => ErrorDict(EmptyMessage)
  }

  /** What `results["serper"]` ends up holding, and how many attempts were made. */
  datatype Serper = Serper(result: JVal, attempts: nat)

  /** The policy over the attempts' verdicts: stop at the first kept body, otherwise the
      error dict of the last attempt after all of them. */
  function Policy(vs: seq<Verdict>): (r: Serper)
    requires |vs| == MaxRetries
    ensures 1 <= r.attempts <= |vs|
    ensures forall j :: 0 <= j < r.attempts - 1 ==> !vs[j].Found?
    ensures vs[r.attempts - 1].Found? ==> r.result == vs[r.attempts - 1].result
    ensures !vs[r.attempts - 1].Found? ==> r.attempts == |vs| && r.result == FinalError(vs[|vs| - 1])
  {
    var k := FirstFound(vs);
    if k < |vs| then Serper(vs[k].result, k + 1) else Serper(FinalError(vs[|vs| - 1]), |vs|)
  }

  /** The `for attempt in range(max_retries)` loop. `delays` counts the `time.sleep` calls. */
  method SerperWithRetry(net: Network, payload: JVal) returns (serper: JVal, attempts: nat, delays: nat)
    ensures Serper(serper, attempts) == Policy(Verdicts(net, payload))
    ensures 1 <= attempts <= MaxRetries
    ensures delays == attempts - 1
  {
    ghost var vs := Verdicts(net, payload);
    var attempt: nat := 0;
    var stop := false;
    serper := JNull;
    delays := 0;
    while attempt < MaxRetries && !stop
      invariant attempt <= MaxRetries
      invariant stop ==> 1 <= attempt && vs[attempt - 1] == Found(serper)
      invariant stop ==> forall j :: 0 <= j < attempt - 1 ==> !vs[j].Found?
      invariant !stop ==> forall j :: 0 <= j < attempt ==> !vs[j].Found?
      invariant !stop && attempt == MaxRetries ==> serper == FinalError(vs[MaxRetries - 1])
      invariant delays == if stop || attempt == MaxRetries then attempt - 1 else attempt
      decreases MaxRetries - attempt
    {
      match Judge(net(payload, attempt)) {
        case Found(v) =>
          serper := v;
          stop := true;
        case Empty =>
          if attempt < MaxRetries - 1 {
            delays := delays + 1;
          } else {
            serper := ErrorDict(EmptyMessage);
          }
        case Raised(m) =>
          if attempt < MaxRetries - 1 {
            delays := delays + 1;
          } else {
            serper := ErrorDict(FailedPrefix + m);
          }
      }
      attempt := attempt + 1;
    }
    attempts := attempt;
    ghost var k := FirstFound(vs);
    if stop {
      assert k == attempt - 1;
    } else {
      assert k == |vs|;
    }
  }

  /** The value of `results["serper"]`. */
  function SerperResult(net: Network, payload: JVal): JVal {
    Policy(Verdicts(net, payload)).result
  }

  /** The loop stops at the first attempt with hits, and keeps that body. */
  lemma StopsAtFirstHit(net: Network, payload: JVal, k: nat)
    requires k < MaxRetries
    requires net(payload, k).Responded? && HasHits(net(payload, k).body)
    requires forall j :: 0 <= j < k ==> !(net(payload, j).Responded? && HasHits(net(payload, j).body))
    ensures Policy(Verdicts(net, payload)) == Serper(net(payload, k).body, k + 1)
  {
    var vs := Verdicts(net, payload);
    assert forall j :: 0 <= j < k ==> !vs[j].Found?;
    assert vs[k].Found?;
  }

  /** Without any hit, all three attempts are made and the error names what the last one
      did: nothing meaningful, or the exception it raised. */
  lemma ExhaustedError(net: Network, payload: JVal)
    requires forall j :: 0 <= j < MaxRetries ==> !(net(payload, j).Responded? && HasHits(net(payload, j).body))
    ensures Policy(Verdicts(net, payload)).attempts == MaxRetries
    ensures Policy(Verdicts(net, payload)).result ==
      match Judge(net(payload, 2))
      case Raised(m) => ErrorDict(FailedPrefix + m)
      case _ => ErrorDict(EmptyMessage)
  {
    var vs := Verdicts(net, payload);
    assert forall j :: 0 <= j < |vs| ==> !vs[j].Found?;
  }

  /** `results["serper"]` is either a body with hits or an error dict. */
  lemma SerperShape(net: Network, payload: JVal)
    ensures var r := SerperResult(net, payload);
      HasHits(r) || r == ErrorDict(EmptyMessage) ||
      (exists m :: r == ErrorDict(FailedPrefix + m))
  {
    var vs := Verdicts(net, payload);
    var k := FirstFound(vs);
    if k < |vs| {
      assert Judge(net(payload, k)).Found?;
    } else {
      match vs[2]
      case Raised(m) =>
        assert SerperResult(net, payload) == ErrorDict(FailedPrefix + m);
      case _ =>
    }
  }

  /** A single request without retry, as `movie_serper_search` and `travel_serper_search`
      make it: the body, or `{"error": str(e)}`. */
  function SingleSearch(net: Network, payload: JVal): (r: JVal)
    ensures net(payload, 0).Responded? ==> r == net(payload, 0).body
    ensures net(payload, 0).Failed? ==> r == ErrorDict(net(payload, 0).message)
  {
    match net(payload, 0)
    case Responded(body) => body
    case Failed(m) => ErrorDict(m)
  }

  /** The movie planner's `multi_search`: only a "serper" entry, for 15 results. */
  function MovieMultiSearch(net: Network, query: string): (r: JVal)
    ensures r.JObj? && |r.fields| == 1 && r.fields[0].key == "serper"
    ensures Lookup(r.fields, "serper") == Some(SerperResult(net, Payload(query, 15)))
  {
    JObj([Field("serper", SerperResult(net, Payload(query, 15)))])
  }

  /** A tool called from inside `multi_search`: what it returned, or `{"error": str(e)}`
      for what it raised. */
  function ToolValue(outcome: Attempt): JVal {
    match outcome
    case Responded(v) => v
    case Failed(m) => ErrorDict(m)
  }

  /** The itinerary planner's `multi_search`: Serper with retry for 10 results, then Tavily's
      answer, then DuckDuckGo's hit list wrapped as `{"results": hits}`. */
  function TravelMultiSearch(net: Network, tavily: Attempt, duckduckgo: Attempt, query: string): (r: JVal)
    ensures r.JObj? && |r.fields| == 3
    ensures r.fields[0].key == "serper" && r.fields[1].key == "tavily" && r.fields[2].key == "duckduckgo"
    ensures Lookup(r.fields, "serper") == Some(SerperResult(net, Payload(query, 10)))
    ensures tavily.Failed? ==> Lookup(r.fields, "tavily") == Some(ErrorDict(tavily.message))
    ensures duckduckgo.Failed? ==> Lookup(r.fields, "duckduckgo") == Some(ErrorDict(duckduckgo.message))
  {
    var ddg := match duckduckgo
      case Responded(hits) => Responded(JObj([Field("results", hits)]))
      case Failed(m) => Failed(m);
    JObj([
      Field("serper", SerperResult(net, Payload(query, 10))),
      Field("tavily", ToolValue(tavily)),
      Field("duckduckgo", ToolValue(ddg))
    ])
  }

  /** Whatever the three back ends do, the result has exactly the three keys. */
  lemma TravelKeysAlways(net: Network, tavily: Attempt, duckduckgo: Attempt, query: string)
    ensures var r := TravelMultiSearch(net, tavily, duckduckgo, query);
      HasKey(r.fields, "serper") && HasKey(r.fields, "tavily") && HasKey(r.fields, "duckduckgo") &&
      forall k :: HasKey(r.fields, k) ==> k in ["serper", "tavily", "duckduckgo"]
  {
    var r := TravelMultiSearch(net, tavily, duckduckgo, query);
    assert r.fields[0].key == "serper";
    assert r.fields[1].key == "tavily";
    assert r.fields[2].key == "duckduckgo";
  }
}

=== FILE: search.dfy ===
/** The movie planner's search tools: the query rewriting that steers Serper towards ticket
    booking sites, the two-pass filter over Serper's `organic` hits, and the filtered tools
    built from them. */
module Search {
  import opened Wrappers
  import opened Text
  import opened Json
  import opened Retry

  /** The platform names the rewriting looks for, in the order the `elif` chain tests them. */
  const SiteTokens: seq<string> := ["bookmyshow", "paytm", "pvr", "inox", "cinepolis"]

  /** The domain each token of `SiteTokens` restricts the search to. */
  const SiteDomains: seq<string> := [
    "bookmyshow.com", "paytm.com", "pvrcinemas.com", "inoxmovies.com", "cinepolisindia.com"
  ]

  const BookingSuffix := " movie tickets booking showtimes"
  const ExclusionSuffix :=
    " -site:timesofindia.com -site:123telugu.com -site:ndtv.com -site:imdb.com -site:wikipedia.org"

  /** What the `else` branch appends: `multi_search` also excludes the news and review sites. */
  function GenericSuffix(multi: bool): string {
    if multi then BookingSuffix + ExclusionSuffix else BookingSuffix
  }

  /** The first platform token at or after index k that the lowered query contains, or
      |SiteTokens| when there is none: the order the `elif` chain tests them in. */
  function FirstSite(lq: string, k: nat): (j: nat)
    requires k <= |SiteTokens|
    ensures k <= j <= |SiteTokens|
    ensures forall i :: k <= i < j ==> !Contains(lq, SiteTokens[i])
    ensures j < |SiteTokens| ==> Contains(lq, SiteTokens[j])
    decreases |SiteTokens| - k
  {
    if k == |SiteTokens| then k
    else if Contains(lq, SiteTokens[k]) then k
    else FirstSite(lq, k + 1)
  }

  /** The rewriting at the top of `movie_serper_search` (multi = false) and `multi_search`
      (multi = true): every branch of the chain also requires "site:" to be absent. */
  function RewriteQuery(query: string, multi: bool): (r: string)
    ensures |query| < |r| && r[..|query|] == query
  {
    var lq := Lower(query);
    var j := FirstSite(lq, 0);
    if j < |SiteTokens| && !Contains(lq, "site:") then query + " site:" + SiteDomains[j]
    else query + GenericSuffix(multi)
  }

  /** Without "site:" in the query, the first token in priority order that the lowered query
      contains picks the one domain appended. */
  lemma RewriteChoosesFirstToken(query: string, multi: bool, k: nat)
    requires k < |SiteTokens|
    requires !Contains(Lower(query), "site:")
    requires Contains(Lower(query), SiteTokens[k])
    requires forall j :: 0 <= j < k ==> !Contains(Lower(query), SiteTokens[j])
    ensures RewriteQuery(query, multi) == query + " site:" + SiteDomains[k]
  {
    var j := FirstSite(Lower(query), 0);
    assert !(j < k);
  }

  /** With "site:" already present, or no platform token at all, the booking keywords (and for
      `multi_search` the exclusions) are appended instead. */
  lemma RewriteFallsBack(query: string, multi: bool)
    requires Contains(Lower(query), "site:") ||
             forall j :: 0 <= j < |SiteTokens| ==> !Contains(Lower(query), SiteTokens[j])
    ensures RewriteQuery(query, multi) == query + GenericSuffix(multi)
  {
  }

  /** `ticket_booking_domains`: a hit must mention one of these to pass the strict filter. */
  const AllowTokens: seq<string> := [
    "bookmyshow.com", "paytm.com", "pvrcinemas.com", "inoxmovies.com", "cinepolisindia.com",
    "bookmyshow", "paytm", "pvr", "inox", "cinepolis",
    "ticketnew.com", "justickets.in", "moviemax.in", "easymovies.in", "ticketplease.com",
    "movietickets.com", "fandango.com", "marcustheatres.com", "amc", "regal", "cinemark",
    "ticket", "booking", "showtime", "show time", "movie ticket"
  ]

  /** `excluded_domains`: news and review sites. */
  const DenyDomains: seq<string> := [
    "timesofindia.com", "123telugu.com", "ndtv.com", "hindustantimes.com", "indiatoday.in",
    "thehindu.com", "indianexpress.com", "imdb.com", "rottentomatoes.com", "filmfare.com",
    "bollywoodhungama.com", "koimoi.com", "pinkvilla.com", "filmibeat.com", "bollywoodlife.com",
    "zeenews.com", "news18.com", "republic.in", "abplive.com", "aajtak.in"
  ]

  /** The words the relaxed pass looks for in a title or snippet. */
  const MovieKeywords: seq<string> := ["movie", "rating", "review"]

  /** The lowered link, title and snippet of one hit. */
  datatype Texts = Texts(link: string, title: string, snippet: string)

  /** `result.get(key, '').lower()` on a dict hit. */
  function LoweredField(fields: seq<Field>, key: string): (r: Result<string, Exc>)
    ensures !HasKey(fields, key) ==> r == Ok("")
    ensures r.Ok? <==> GetOr(fields, key, JStr("")).JStr?
    ensures r.Ok? ==> r.value == Lower(GetOr(fields, key, JStr("")).s)
  {
    match GetOr(fields, key, JStr(""))
    case JStr(s) => Ok(Lower(s))
    case v => Err(NoAttribute(TypeName(v), "lower"))
  }

  /** The three texts of a hit, read in the order link, title, snippet; a hit that is not a
      dict has no `.get`, and a field that is not a string has no `.lower`. */
  function TextsOf(hit: JVal): (r: Result<Texts, Exc>)
    ensures !hit.JObj? ==> r == Err(NoAttribute(TypeName(hit), "get"))
    ensures r.Ok? <==> (hit.JObj? && LoweredField(hit.fields, "link").Ok? &&
      LoweredField(hit.fields, "title").Ok? && LoweredField(hit.fields, "snippet").Ok?)
  {
    if !hit.JObj? then Err(NoAttribute(TypeName(hit), "get"))
    else
      match LoweredField(hit.fields, "link")
      case Err(e) => Err(e)
      case Ok(link) =>
        match LoweredField(hit.fields, "title")
        case Err(e) => Err(e)
        case Ok(title) =>
          match LoweredField(hit.fields, "snippet")
          case Err(e) => Err(e)
          case Ok(snippet) => Ok(Texts(link, title, snippet))
  }

  /** `any(d in link or d in title or d in snippet for d in tokens)`. */
  function MentionsAny(t: Texts, tokens: seq<string>): (b: bool)
    ensures b <==> exists k :: (0 <= k < |tokens| &&
      (Contains(t.link, tokens[k]) || Contains(t.title, tokens[k]) || Contains(t.snippet, tokens[k])))
  {
    AnyPhrase(t.link, tokens) || AnyPhrase(t.title, tokens) || AnyPhrase(t.snippet, tokens)
  }

  /** The two passes over the hits. */
  datatype Pass = Strict | Relaxed

  /** Whether a hit survives a pass: strict wants a booking token and no excluded domain in
      any of the three texts; relaxed wants no excluded domain in the link alone and a movie
      keyword in the title or snippet. */
  predicate Keeps(pass: Pass, hit: JVal) {
    match TextsOf(hit)
    case Err(_) => false
    case Ok(t) =>
      match pass
      case Strict => MentionsAny(t, AllowTokens) && !MentionsAny(t, DenyDomains)
      case Relaxed =>
        !AnyPhrase(t.link, DenyDomains) &&
        (AnyPhrase(t.title, MovieKeywords) || AnyPhrase(t.snippet, MovieKeywords))
  }

  /** The test a pass applies to each hit. */
  function Keeper(pass: Pass): JVal -> bool {
    hit => Keeps(pass, hit)
  }

  /** One pass of the `for result in search_results['organic']` loop: the hits the test
      accepts, in order. */
  function Select(hits: seq<JVal>, keep: JVal -> bool): (r: seq<JVal>)
    ensures |r| <= |hits|
    ensures forall i :: 0 <= i < |r| ==> keep(r[i])
    ensures forall i :: 0 <= i < |hits| && keep(hits[i]) ==> hits[i] in r
    ensures forall x :: x in r ==> x in hits
  {
    if |hits| == 0 then []
    else (if keep(hits[0]) then [hits[0]] else []) + Select(hits[1..], keep)
  }

  /** `a` is `b` with some elements left out, order kept. */
  predicate SubseqOf(a: seq<JVal>, b: seq<JVal>)
    decreases |b|
  {
    if |a| == 0 then true
    else if |b| == 0 then false
    else if a[0] == b[0] then SubseqOf(a[1..], b[1..])
    else SubseqOf(a, b[1..])
  }

  lemma {:induction false} SelectSubseq(hits: seq<JVal>, keep: JVal -> bool)
    ensures SubseqOf(Select(hits, keep), hits)
    decreases |hits|
  {
    if |hits| > 0 {
      SelectSubseq(hits[1..], keep);
      var rest := Select(hits[1..], keep);
      if keep(hits[0]) {
        assert ([hits[0]] + rest)[1..] == rest;
      } else {
        SubseqSkip(rest, hits[0], hits[1..]);
        assert [hits[0]] + hits[1..] == hits;
        assert Select(hits, keep) == rest;
      }
    }
  }

  lemma {:induction false} SubseqSkip(a: seq<JVal>, x: JVal, b: seq<JVal>)
    requires SubseqOf(a, b)
    ensures SubseqOf(a, [x] + b)
    decreases |b|, 1
  {
    if |a| > 0 && a[0] == x {
      assert ([x] + b)[1..] == b;
      SubseqDrop(a, b);
    } else if |a| > 0 {
      assert ([x] + b)[1..] == b;
    }
  }

  /** Dropping the head of a subsequence keeps it a subsequence. */
  lemma {:induction false} SubseqDrop(a: seq<JVal>, b: seq<JVal>)
    requires |a| > 0 && SubseqOf(a, b)
    ensures SubseqOf(a[1..], b)
    decreases |b|, 0
  {
    assert |b| > 0;
    if a[0] == b[0] {
      SubseqSkip(a[1..], b[0], b[1..]);
      assert [b[0]] + b[1..] == b;
    } else {
      SubseqDrop(a, b[1..]);
      SubseqSkip(a[1..], b[0], b[1..]);
      assert [b[0]] + b[1..] == b;
    }
  }

  /** The first hit whose texts cannot be read, or |hits| when all can. */
  function FirstBadHit(hits: seq<JVal>): (k: nat)
    ensures k <= |hits|
    ensures forall j :: 0 <= j < k ==> TextsOf(hits[j]).Ok?
    ensures k < |hits| ==> TextsOf(hits[k]).Err?
  {
    if |hits| == 0 then 0
    else if TextsOf(hits[0]).Err? then 0
    else 1 + FirstBadHit(hits[1..])
  }

  /** Which pass decides the kept hits: the relaxed one when the strict one kept fewer than
      two and there was at least one hit. */
  function PassFor(hits: seq<JVal>): Pass {
    if |Select(hits, Keeper(Strict))| < 2 && |hits| > 0 then Relaxed else Strict
  }

  /** The hits that survive the filter. */
  function Kept(hits: seq<JVal>): seq<JVal> {
    TwoPass(hits, Keeper(Strict), Keeper(Relaxed))
  }

  /** The two-pass shape for any pair of tests: fall back to the second test when the first
      keeps fewer than two of a non-empty list. */
  function TwoPass(hits: seq<JVal>, strict: JVal -> bool, relaxed: JVal -> bool): seq<JVal> {
    if |Select(hits, strict)| < 2 && |hits| > 0 then Select(hits, relaxed) else Select(hits, strict)
  }

  /** `filter_ticket_booking_results`. The hits are the elements `for` visits in the
      `'organic'` entry; the first exception raised while reading them escapes. */
  function Filter(v: JVal): (r: Result<JVal, Exc>)
    ensures !v.JObj? || !HasKey(v.fields, "organic") ==> r == Ok(v)
    ensures v.JObj? && HasKey(v.fields, "organic") ==>
      var organic := Lookup(v.fields, "organic").value;
      (Iterate(organic).Err? ==> r == Err(Iterate(organic).error)) &&
      (Iterate(organic).Ok? ==>
        var hits := Iterate(organic).value;
        (FirstBadHit(hits) < |hits| ==> r == Err(TextsOf(hits[FirstBadHit(hits)]).error)) &&
        (FirstBadHit(hits) == |hits| ==>
          r.Ok? && r.value.JObj? &&
          Lookup(r.value.fields, "organic") == Some(JArr(Kept(hits))) &&
          forall k :: k != "organic" ==> Lookup(r.value.fields, k) == Lookup(v.fields, k)))
  {
    if !v.JObj? || !HasKey(v.fields, "organic") then Ok(v)
    else
      match Iterate(Lookup(v.fields, "organic").value)
      case Err(e) => Err(e)
      case Ok(hits) =>
        var bad := FirstBadHit(hits);
        if bad < |hits| then Err(TextsOf(hits[bad]).error)
        else Ok(JObj(Store(v.fields, "organic", JArr(Kept(hits)))))
  }

  /** The kept hits are an order-preserving subsequence of the input hits, all passing the
      pass that was chosen, and every input hit passing it is kept. */
  lemma FilterKeepsSubsequence(v: JVal)
    requires v.JObj? && HasKey(v.fields, "organic")
    requires Iterate(Lookup(v.fields, "organic").value).Ok?
    requires Filter(v).Ok?
    ensures var hits := Iterate(Lookup(v.fields, "organic").value).value;
      var kept := Lookup(Filter(v).value.fields, "organic").value.items;
      SubseqOf(kept, hits) &&
      (forall i :: 0 <= i < |kept| ==> Keeps(PassFor(hits), kept[i])) &&
      (forall i :: 0 <= i < |hits| && Keeps(PassFor(hits), hits[i]) ==> hits[i] in kept)
  {
    var hits := Iterate(Lookup(v.fields, "organic").value).value;
    assert Kept(hits) == Select(hits, Keeper(PassFor(hits)));
    SelectSubseq(hits, Keeper(PassFor(hits)));
  }

  lemma {:induction false} SelectTwice(hits: seq<JVal>, keep: JVal -> bool)
    ensures Select(Select(hits, keep), keep) == Select(hits, keep)
    decreases |hits|
  {
    if |hits| > 0 {
      SelectTwice(hits[1..], keep);
      SelectCons(hits, keep);
      var rest := Select(hits[1..], keep);
      if keep(hits[0]) {
        SelectCons([hits[0]] + rest, keep);
        assert ([hits[0]] + rest)[1..] == rest;
      }
    }
  }

  /** One unfolding of `Select`, with the concatenation with an empty head done. */
  lemma SelectCons(hits: seq<JVal>, keep: JVal -> bool)
    requires |hits| > 0
    ensures Select(hits, keep) ==
      if keep(hits[0]) then [hits[0]] + Select(hits[1..], keep) else Select(hits[1..], keep)
  {
    assert [] + Select(hits[1..], keep) == Select(hits[1..], keep);
  }

  lemma {:induction false} SelectCommutes(hits: seq<JVal>, p: JVal -> bool, q: JVal -> bool)
    ensures Select(Select(hits, p), q) == Select(Select(hits, q), p)
    decreases |hits|
  {
    if |hits| > 0 {
      SelectCommutes(hits[1..], p, q);
      var x := hits[0];
      var rp := Select(hits[1..], p);
      var rq := Select(hits[1..], q);
      SelectCons(hits, p);
      SelectCons(hits, q);
      if p(x) {
        SelectCons([x] + rp, q);
        assert ([x] + rp)[1..] == rp;
      }
      if q(x) {
        SelectCons([x] + rq, p);
        assert ([x] + rq)[1..] == rq;
      }
    }
  }

  lemma {:induction false} StoreTwice(fields: seq<Field>, key: string, a: JVal)
    ensures Store(Store(fields, key, a), key, a) == Store(fields, key, a)
    decreases |fields|
  {
    if |fields| > 0 && fields[0].key != key {
      StoreTwice(fields[1..], key, a);
      assert ([fields[0]] + Store(fields[1..], key, a))[1..] == Store(fields[1..], key, a);
    } else if |fields| > 0 {
      assert ([Field(key, a)] + fields[1..])[1..] == fields[1..];
    }
  }

  /** The two-pass shape is idempotent, whatever the tests. */
  lemma TwoPassTwice(hits: seq<JVal>, strict: JVal -> bool, relaxed: JVal -> bool)
    ensures TwoPass(TwoPass(hits, strict, relaxed), strict, relaxed) == TwoPass(hits, strict, relaxed)
  {
    var kept := TwoPass(hits, strict, relaxed);
    var first := Select(hits, strict);
    if |first| < 2 && |hits| > 0 {
      SelectTwice(hits, relaxed);
      SelectCommutes(hits, relaxed, strict);
      assert |Select(kept, strict)| == |Select(first, relaxed)| <= |first| < 2;
    } else {
      SelectTwice(hits, strict);
    }
  }

  lemma KeeperReadable(pass: Pass, hit: JVal)
    requires Keeper(pass)(hit)
    ensures TextsOf(hit).Ok?
  {
    assert Keeps(pass, hit);
  }

  /** Every kept hit can be read again. */
  lemma KeptReadable(hits: seq<JVal>)
    ensures FirstBadHit(Kept(hits)) == |Kept(hits)|
  {
    var kept := Kept(hits);
    var p := if |Select(hits, Keeper(Strict))| < 2 && |hits| > 0 then Relaxed else Strict;
    assert kept == Select(hits, Keeper(p));
    forall i | 0 <= i < |kept|
      ensures TextsOf(kept[i]).Ok?
    {
      KeeperReadable(p, kept[i]);
    }
  }

  /** Filtering is idempotent: a second filtering of its own result changes nothing. */
  lemma FilterIdempotent(v: JVal)
    requires Filter(v).Ok?
    ensures Filter(Filter(v).value) == Filter(v)
  {
    if v.JObj? && HasKey(v.fields, "organic") {
      var hits := Iterate(Lookup(v.fields, "organic").value).value;
      var kept := Kept(hits);
      var fs := Store(v.fields, "organic", JArr(kept));
      assert FirstBadHit(hits) == |hits|;
      assert Filter(v) == Ok(JObj(fs));
      KeptReadable(hits);
      TwoPassTwice(hits, Keeper(Strict), Keeper(Relaxed));
      StoreTwice(v.fields, "organic", JArr(kept));
      assert Lookup(fs, "organic") == Some(JArr(kept));
      assert HasKey(fs, "organic");
      assert Iterate(JArr(kept)) == Ok(kept);
      assert Kept(kept) == kept;
      assert Filter(JObj(fs)) == Ok(JObj(Store(fs, "organic", JArr(kept))));
    }
  }

  /** `filtered_movie_search`: one rewritten Serper request for 15 results, filtered. A failed
      request's error dict passes the filter unchanged. */
  function FilteredMovieSearch(net: Network, query: string): (r: Result<JVal, Exc>)
    ensures var p := Payload(RewriteQuery(query, false), 15);
      net(p, 0).Responded? ==> r == Filter(net(p, 0).body)
    ensures var p := Payload(RewriteQuery(query, false), 15);
      net(p, 0).Failed? ==> r == Ok(ErrorDict(net(p, 0).message))
  {
    Filter(SingleSearch(net, Payload(RewriteQuery(query, false), 15)))
  }

  /** `filtered_multi_search`: the "serper" entry of `multi_search` on the rewritten query,
      filtered; `multi_search` always stores that entry, so the filter always runs. */
  function FilteredMultiSearch(net: Network, query: string): (r: Result<JVal, Exc>)
    ensures var serper := SerperResult(net, Payload(RewriteQuery(query, true), 15));
      (Filter(serper).Err? ==> r == Err(Filter(serper).error)) &&
      (Filter(serper).Ok? ==> r == Ok(JObj([Field("serper", Filter(serper).value)])))
  {
    var results := MovieMultiSearch(net, RewriteQuery(query, true));
    match Filter(Lookup(results.fields, "serper").value)
    case Err(e) => Err(e)
    case Ok(w) => Ok(JObj([Field("serper", w)]))
  }

  /** An exhausted retry leaves an error dict, which the filter passes through untouched. */
  lemma ErrorDictUnfiltered(message: string)
    ensures Filter(ErrorDict(message)) == Ok(ErrorDict(message))
  {
    assert !HasKey(ErrorDict(message).fields, "organic");
  }
}

=== FILE: synthetic.dfy ===
/** The record sets `get_movie_ratings` makes up when the agent's reply is not usable JSON:
    the all-random set (for a refusal, and as the last resort) and the heuristic set built
    from the platform names the reply mentions. Randomness is a parameter. */
module Synthetic {
  import opened Wrappers
  import opened Text
  import opened Decimal
  import opened Json
  import opened Normalize

  /** The five ticket platforms, in the order every synthetic set lists them. */
  const Platforms: seq<string> := ["BookMyShow", "Paytm", "PVR Cinemas", "INOX Movies", "Cinepolis"]

  type Variations = s: seq<Dec> | |s| == 5 witness [Dec(0, 0), Dec(0, 0), Dec(0, 0), Dec(0, 0), Dec(0, 0)]

  /** The values `random.uniform` hands one request: a base rating and one variation per platform
      slot, consumed in order. */
  datatype Draws = Draws(base: Dec, variations: Variations)

  /** What `random.uniform(7.5, 9.0)` and `random.uniform(-0.5, 0.5)` can return. */
  predicate ValidDraws(d: Draws) {
    AtLeastTenths(d.base, 75) && AtMostTenths(d.base, 90)
    && forall k :: 0 <= k < 5 ==> AtLeastTenths(d.variations[k], -5) && AtMostTenths(d.variations[k], 5)
  }

  /** Clamping and rounding keep a value inside any tenth-aligned sub-range of [1.0, 10.0]. */
  lemma ClampedWithin(x: Dec, lo: int, hi: int)
    requires 10 <= lo <= hi <= 100 && AtLeastTenths(x, lo) && AtMostTenths(x, hi)
    ensures lo <= Clamped(x) <= hi
  {
    MulLeq(10, lo, Pow10(x.e));
    MulLeq(hi, 100, Pow10(x.e));
    RatingInRange(x);
    RoundWithin(x, lo, hi);
  }

  /** A rating that is already a whole number of tenths in range is left as it is. */
  lemma ClampedExact(t: int)
    requires 10 <= t <= 100
    ensures Clamped(Dec(t, 1)) == t
  {
    assert Pow10(1) == 10;
    RatingInRange(Dec(t, 1));
    RoundExact(t);
  }

  /** The rating of slot `k` of the random set: the base rounded to a tenth, plus a variation,
      clamped and rounded again. */
  function RandomRating(draws: Draws, k: nat): int
    requires k < 5
  {
    Clamped(Add(Dec(RoundTenths(draws.base), 1), draws.variations[k]))
  }

  /** With the draws `random.uniform` can produce, every random rating lies in [7.0, 9.5]. */
  lemma RandomRatingBounds(draws: Draws, k: nat)
    requires ValidDraws(draws) && k < 5
    ensures 70 <= RandomRating(draws, k) <= 95
  {
    var b := RoundTenths(draws.base);
    RoundWithin(draws.base, 75, 90);
    AddTenthsWithin(b, draws.variations[k], -5, 5);
    ClampedWithin(Add(Dec(b, 1), draws.variations[k]), b - 5, b + 5);
  }

  /** `int(min(rating / 10 * 100, 100))` on a rating in tenths, in exact arithmetic. */
  function PositiveFromRating(t: int): int {
    if t < 100 then t else 100
  }

  /** One dict of the random set, as built before validation. */
  function RandomRow(name: string, draws: Draws, k: nat): JVal
    requires k < 5
  {
    var t := RandomRating(draws, k);
    Row(JStr(Platforms[k]), JStr(name), JFloat(Finite(Dec(t, 1))), JStr(DefaultGenre),
        JInt(PositiveFromRating(t)), JInt(100 - PositiveFromRating(t)))
  }

  function RandomRows(name: string, draws: Draws): (rows: seq<JVal>)
    ensures |rows| == 5
  {
    seq(5, k requires 0 <= k < 5 => RandomRow(name, draws, k))
  }

  /** What validation makes of slot `k` of the random set. */
  function RandomRec(name: string, draws: Draws, k: nat): Rec
    requires k < 5
  {
    var t := RandomRating(draws, k);
    Rec(JStr(Platforms[k]), JStr(name), t, DefaultGenre, t, 100 - t)
  }

  /** The five records of the random set. */
  function RandomRecs(name: string, draws: Draws): (recs: seq<Rec>)
    ensures |recs| == 5
    ensures forall k :: 0 <= k < 5 ==> recs[k] == RandomRec(name, draws, k)
  {
    seq(5, k requires 0 <= k < 5 => RandomRec(name, draws, k))
  }

  lemma RandomRowNormalizes(name: string, draws: Draws, k: nat)
    requires k < 5
    ensures NormalizeItem(RandomRow(name, draws, k).fields) == Ok(RandomRec(name, draws, k))
  {
    var t := RandomRating(draws, k);
    RandomRatingNormal(draws, k);
    RandomRowIs(name, draws, k);
    NormalizeRow(JStr(Platforms[k]), JStr(name), Dec(t, 1), DefaultGenre, t, 100 - t);
    ClampedExact(t);
  }

  /** A rating of at most 10.0 is its own positive share. */
  lemma RandomRowIs(name: string, draws: Draws, k: nat)
    requires k < 5 && RandomRating(draws, k) <= 100
    ensures var t := RandomRating(draws, k);
      RandomRow(name, draws, k) ==
      Row(JStr(Platforms[k]), JStr(name), JFloat(Finite(Dec(t, 1))), JStr(DefaultGenre), JInt(t), JInt(100 - t))
  {
  }

  /** The random set after `validate_platform_data`: all five platforms in order, the requested
      movie name as title, the default genre, and a positive share equal to the rating read as
      a percentage. Validation never fails on it. */
  lemma RandomSetShape(name: string, draws: Draws)
    ensures ValidateItems(RandomRows(name, draws)) == Ok(RandomRecs(name, draws))
    ensures forall k :: 0 <= k < 5 ==> RandomRecShape(name, draws, k)
  {
    RandomValidates(name, draws);
    RandomRecsShaped(name, draws);
  }

  lemma RandomRecsShaped(name: string, draws: Draws)
    ensures forall k :: 0 <= k < 5 ==> RandomRecShape(name, draws, k)
  {
    forall k | 0 <= k < 5 ensures RandomRecShape(name, draws, k) {
      RandomRatingNormal(draws, k);
    }
  }

  predicate RandomRecShape(name: string, draws: Draws, k: nat)
    requires k < 5
  {
    var r := RandomRec(name, draws, k);
    r.platform == JStr(Platforms[k]) && r.title == JStr(name) && r.genre == DefaultGenre
    && r.positive == r.rating && r.negative == 100 - r.rating && Normalized(r)
  }

  lemma RandomRatingNormal(draws: Draws, k: nat)
    requires k < 5
    ensures 10 <= RandomRating(draws, k) <= 100
  {
  }

  lemma RandomValidates(name: string, draws: Draws)
    ensures ValidateItems(RandomRows(name, draws)) == Ok(RandomRecs(name, draws))
  {
    var rows := RandomRows(name, draws);
    var recs := RandomRecs(name, draws);
    forall k | 0 <= k < 5 ensures NormalizeItem(rows[k].fields) == Ok(recs[k]) {
      RandomRowNormalizes(name, draws, k);
    }
    ValidateAll(rows, recs);
  }

  /** Lowering the reply once, the platforms whose lowered name occurs in it (`want`) or does
      not (`!want`), in canonical order. */
  function Keep(ps: seq<string>, lc: string, want: bool): (r: seq<string>)
    ensures |r| <= |ps|
    ensures forall p :: p in r <==> p in ps && Contains(lc, Lower(p)) == want
  {
    if |ps| == 0 then []
    else
      var rest := Keep(ps[1..], lc, want);
      assert forall p :: p in ps <==> p == ps[0] || p in ps[1..];
      if Contains(lc, Lower(ps[0])) == want then [ps[0]] + rest else rest
  }

  lemma {:induction false} KeepPartition(ps: seq<string>, lc: string)
    ensures multiset(Keep(ps, lc, true)) + multiset(Keep(ps, lc, false)) == multiset(ps)
  {
    if |ps| > 0 {
      KeepPartition(ps[1..], lc);
      assert ps == [ps[0]] + ps[1..];
    }
  }

  /** `[p for p in ps if p not in existing]`. */
  function Missing(ps: seq<string>, existing: seq<string>): (r: seq<string>)
    ensures |r| <= |ps|
    ensures forall p :: p in r <==> p in ps && p !in existing
  {
    if |ps| == 0 then []
    else
      var rest := Missing(ps[1..], existing);
      assert forall p :: p in ps <==> p == ps[0] || p in ps[1..];
      if ps[0] !in existing then [ps[0]] + rest else rest
  }

  /** Filling in what is not in the mentioned list is the same as keeping the unmentioned. */
  lemma {:induction false} MissingOfKept(ps: seq<string>, all: seq<string>, lc: string)
    requires forall i :: 0 <= i < |ps| ==> ps[i] in all
    ensures Missing(ps, Keep(all, lc, true)) == Keep(ps, lc, false)
  {
    if |ps| > 0 {
      MissingOfKept(ps[1..], all, lc);
    }
  }

  /** Platforms whose name occurs in the reply, compared after lowering both. */
  function Mentioned(content: string): seq<string> {
    Keep(Platforms, Lower(content), true)
  }

  /** Platforms the heuristic set adds because the reply does not mention them. */
  function Unmentioned(content: string): seq<string> {
    Missing(Platforms, Mentioned(content))
  }

  /** The heuristic set names every platform exactly once: the mentioned ones, then the rest. */
  lemma EveryPlatformOnce(content: string)
    ensures multiset(Mentioned(content) + Unmentioned(content)) == multiset(Platforms)
  {
    MissingOfKept(Platforms, Platforms, Lower(content));
    KeepPartition(Platforms, Lower(content));
  }

  lemma PlatformCount(content: string)
    ensures |Mentioned(content)| + |Unmentioned(content)| == 5
  {
    EveryPlatformOnce(content);
    assert |multiset(Mentioned(content) + Unmentioned(content))| == |multiset(Platforms)|;
  }

  /** The order the heuristic set lists the platforms in. */
  function HeuristicOrder(content: string): (r: seq<string>)
    ensures |r| == 5
  {
    PlatformCount(content);
    Mentioned(content) + Unmentioned(content)
  }

  /** The number captured by `{platform}.*?rating.*?(\d+(\.\d+)?)` under IGNORECASE and DOTALL:
      from the first occurrence of the platform, the first "rating" after it, then the first
      digit after that, its maximal digit run and an optional fraction. */
  function CapturedRating(content: string, platform: string): (r: Option<Dec>)
    ensures r.Some? ==> r.value.m >= 0 && Contains(Lower(content), Lower(platform))
  {
    var lc := Lower(content);
    var lp := Lower(platform);
    match IndexFrom(lc, lp, 0)
    case None => None
    case Some(i) =>
      match IndexFrom(lc, "rating", i + |lp|)
      case None => None
      case Some(j) =>
        match FirstDigitFrom(content, j + 6)
        case None => None
        case Some(k) => Some(NumberAt(content, k))
  }

  /** The heuristic rating for a mentioned platform: 8.5 when nothing is captured, and a
      captured rating of at most 5 read as out of 5 and doubled. */
  function HeuristicRating(content: string, platform: string): (r: Dec)
    ensures CapturedRating(content, platform).None? ==> r == Dec(85, 1)
    ensures forall d :: (CapturedRating(content, platform) == Some(d) && AtMostTenths(d, 50)
                         ==> r.e == d.e && r.m == 2 * d.m)
    ensures forall d :: CapturedRating(content, platform) == Some(d) && !AtMostTenths(d, 50) ==> r == d
  {
    match CapturedRating(content, platform)
    case None => Dec(85, 1)
    case Some(d) => if AtMostTenths(d, 50) then Dec(2 * d.m, d.e) else d
  }

  /** A heuristic entry: a platform and the raw rating its dict carries before validation. */
  datatype Entry = Entry(platform: string, rating: Dec)

  /** The entries of the heuristic set: one per mentioned platform, then one per unmentioned
      platform whose rating is the template's (the first entry's) plus a variation, clamped and
      rounded. Empty when no platform is mentioned. */
  function HeuristicEntries(content: string, draws: Draws): (es: seq<Entry>)
    ensures |Mentioned(content)| == 0 ==> es == []
    ensures |Mentioned(content)| > 0 ==> |es| == 5
    ensures |Mentioned(content)| > 0 ==> forall i :: 0 <= i < 5 ==> es[i].platform == HeuristicOrder(content)[i]
    ensures forall i :: 0 <= i < |Mentioned(content)| ==>
      es[i].rating == HeuristicRating(content, Mentioned(content)[i])
    ensures |Mentioned(content)| > 0 ==>
      |Unmentioned(content)| <= 5 && es[|Mentioned(content)|..] ==
        FilledEntries(HeuristicRating(content, Mentioned(content)[0]), Unmentioned(content), draws)
  {
    var ms := Mentioned(content);
    if |ms| == 0 then []
    else
      var head := MentionedEntries(content, ms);
      var tail := FilledEntries(HeuristicRating(content, ms[0]), Unmentioned(content), draws);
      PlatformCount(content);
      ConcatPlatforms(head, tail, ms, Unmentioned(content));
      head + tail
  }

  function MentionedEntries(content: string, ms: seq<string>): (es: seq<Entry>)
    ensures |es| == |ms|
    ensures forall i :: 0 <= i < |ms| ==> es[i] == Entry(ms[i], HeuristicRating(content, ms[i]))
  {
    seq(|ms|, i requires 0 <= i < |ms| => Entry(ms[i], HeuristicRating(content, ms[i])))
  }

  /** Entries for the unmentioned platforms: the `k`-th takes the template's rating plus the
      `k`-th variation, clamped into [1.0, 10.0] and rounded to one decimal. */
  function FilledEntries(template: Dec, missing: seq<string>, draws: Draws): (es: seq<Entry>)
    requires |missing| <= 5
    ensures |es| == |missing|
    ensures forall k :: 0 <= k < |missing| ==> es[k].platform == missing[k]
    ensures forall k :: 0 <= k < |missing| ==> es[k].rating.e == 1 && 10 <= es[k].rating.m <= 100
  {
    seq(|missing|, k requires 0 <= k < |missing| =>
      Entry(missing[k], Dec(Clamped(Add(template, draws.variations[k])), 1)))
  }

  /** With a variation from [-0.5, 0.5], a filled rating lies within half a point of the
      template, and is pinned to 10.0 or 1.0 when the template is that far out of range. */
  lemma FilledNearTemplate(template: Dec, missing: seq<string>, draws: Draws, k: nat, lo: int, hi: int)
    requires |missing| <= 5 && k < |missing|
    requires AtLeastTenths(draws.variations[k], -5) && AtMostTenths(draws.variations[k], 5)
    ensures var r := FilledEntries(template, missing, draws)[k].rating.m;
      (15 <= lo <= hi <= 95 && AtLeastTenths(template, lo) && AtMostTenths(template, hi) ==> lo - 5 <= r <= hi + 5)
      && (AtLeastTenths(template, 105) ==> r == 100)
      && (AtMostTenths(template, 5) ==> r == 10)
  {
    var x := Add(template, draws.variations[k]);
    assert FilledEntries(template, missing, draws)[k].rating.m == Clamped(x);
    if 15 <= lo <= hi <= 95 && AtLeastTenths(template, lo) && AtMostTenths(template, hi) {
      AddAtLeast(template, draws.variations[k], lo, -5);
      AddAtMost(template, draws.variations[k], hi, 5);
      ClampedWithin(x, lo - 5, hi + 5);
    }
    if AtLeastTenths(template, 105) {
      AddAtLeast(template, draws.variations[k], 105, -5);
      ClampedTop(x);
    }
    if AtMostTenths(template, 5) {
      AddAtMost(template, draws.variations[k], 5, 5);
      ClampedBottom(x);
    }
  }

  lemma ClampedTop(x: Dec)
    requires AtLeastTenths(x, 100)
    ensures Clamped(x) == 100
  {
    assert ClampRating(Finite(x)) == Dec(10, 0);
    assert Pow10(0) == 1;
  }

  lemma ClampedBottom(x: Dec)
    requires AtMostTenths(x, 10)
    ensures Clamped(x) == 10
  {
    assert ClampRating(Finite(x)) == Dec(1, 0);
    assert Pow10(0) == 1;
  }

  lemma ConcatPlatforms(head: seq<Entry>, tail: seq<Entry>, a: seq<string>, b: seq<string>)
    requires |head| == |a| && |tail| == |b|
    requires forall i :: 0 <= i < |a| ==> head[i].platform == a[i]
    requires forall i :: 0 <= i < |b| ==> tail[i].platform == b[i]
    ensures forall i :: 0 <= i < |a| + |b| ==> (head + tail)[i].platform == (a + b)[i]
    ensures forall i :: 0 <= i < |a| ==> (head + tail)[i] == head[i]
  {
  }

  /** The dict built for an entry: the requested name as title, default genre, 80/20. */
  function EntryRow(name: string, e: Entry): JVal {
    Row(JStr(e.platform), JStr(name), JFloat(Finite(e.rating)), JStr(DefaultGenre), JInt(80), JInt(20))
  }

  /** What validation makes of an entry's dict. */
  function EntryRec(name: string, e: Entry): Rec {
    Rec(JStr(e.platform), JStr(name), Clamped(e.rating), DefaultGenre, 80, 20)
  }

  lemma EntryRowNormalizes(name: string, e: Entry)
    ensures NormalizeItem(EntryRow(name, e).fields) == Ok(EntryRec(name, e))
  {
    NormalizeRow(JStr(e.platform), JStr(name), e.rating, DefaultGenre, 80, 20);
  }

  /** The dicts of the heuristic set. */
  function EntryRows(name: string, es: seq<Entry>): (rows: seq<JVal>)
    ensures |rows| == |es|
    ensures forall i :: 0 <= i < |es| ==> rows[i] == EntryRow(name, es[i])
  {
    seq(|es|, i requires 0 <= i < |es| => EntryRow(name, es[i]))
  }

  /** What validation makes of them; every rating is clamped into [1.0, 10.0]. */
  function EntryRecs(name: string, es: seq<Entry>): (recs: seq<Rec>)
    ensures |recs| == |es|
    ensures forall i :: 0 <= i < |es| ==> recs[i] == EntryRec(name, es[i])
    ensures forall i :: 0 <= i < |es| ==> 10 <= recs[i].rating <= 100
  {
    EntryRatingsBounded(es);
    seq(|es|, i requires 0 <= i < |es| => EntryRec(name, es[i]))
  }

  lemma EntryRatingsBounded(es: seq<Entry>)
    ensures forall i :: 0 <= i < |es| ==> 10 <= Clamped(es[i].rating) <= 100
  {
  }

  lemma EntriesValidate(name: string, es: seq<Entry>)
    ensures ValidateItems(EntryRows(name, es)) == Ok(EntryRecs(name, es))
  {
    var rows := EntryRows(name, es);
    var recs := EntryRecs(name, es);
    forall i | 0 <= i < |es| ensures NormalizeItem(rows[i].fields) == Ok(recs[i]) {
      EntryRowNormalizes(name, es[i]);
    }
    ValidateAll(rows, recs);
  }

  lemma MentionedRatings(content: string, name: string, draws: Draws)
    ensures var es := HeuristicEntries(content, draws);
      forall i :: 0 <= i < |Mentioned(content)| && i < |es| ==>
        EntryRecs(name, es)[i].rating == Clamped(HeuristicRating(content, Mentioned(content)[i]))
  {
  }

  /** The records the heuristic set adds for unmentioned platforms take the first mentioned
      platform's rating as template: with variations from [-0.5, 0.5], each lies within half a
      point of it, and is 10.0 or 1.0 when the template is that far beyond the range. */
  lemma HeuristicFillNear(content: string, name: string, draws: Draws, lo: int, hi: int)
    requires ValidDraws(draws) && |Mentioned(content)| > 0
    ensures var t := HeuristicRating(content, Mentioned(content)[0]);
      var recs := HeuristicData(content, name, draws).value;
      forall i :: |Mentioned(content)| <= i < 5 ==>
        (15 <= lo <= hi <= 95 && AtLeastTenths(t, lo) && AtMostTenths(t, hi) ==> lo - 5 <= recs[i].rating <= hi + 5)
        && (AtLeastTenths(t, 105) ==> recs[i].rating == 100)
        && (AtMostTenths(t, 5) ==> recs[i].rating == 10)
  {
    var ms := Mentioned(content);
    var t := HeuristicRating(content, ms[0]);
    var es := HeuristicEntries(content, draws);
    var fill := FilledEntries(t, Unmentioned(content), draws);
    var recs := HeuristicData(content, name, draws).value;
    assert recs == EntryRecs(name, es);
    forall i | |ms| <= i < 5
      ensures (15 <= lo <= hi <= 95 && AtLeastTenths(t, lo) && AtMostTenths(t, hi) ==> lo - 5 <= recs[i].rating <= hi + 5)
        && (AtLeastTenths(t, 105) ==> recs[i].rating == 100)
        && (AtMostTenths(t, 5) ==> recs[i].rating == 10)
    {
      var k := i - |ms|;
      assert es[i] == fill[k];
      assert recs[i].rating == Clamped(fill[k].rating);
      ClampedExact(fill[k].rating.m);
      assert fill[k].rating == Dec(fill[k].rating.m, 1);
      FilledNearTemplate(t, Unmentioned(content), draws, k, lo, hi);
    }
  }

  /** The heuristic set after `validate_platform_data`, or None when the reply mentions no
      platform (and the handler moves on to the last resort). */
  function HeuristicData(content: string, name: string, draws: Draws): (r: Option<seq<Rec>>)
    ensures r.Some? <==> |Mentioned(content)| > 0
    ensures r.Some? ==> |r.value| == 5
    ensures r.Some? ==> forall i :: 0 <= i < 5 ==>
      (r.value[i].platform == JStr(HeuristicOrder(content)[i])
       && r.value[i].title == JStr(name) && r.value[i].genre == DefaultGenre
       && r.value[i].positive == 80 && r.value[i].negative == 20
       && 10 <= r.value[i].rating <= 100)
    ensures r.Some? ==> forall i :: 0 <= i < |Mentioned(content)| ==>
      r.value[i].rating == Clamped(HeuristicRating(content, Mentioned(content)[i]))
  {
    var es := HeuristicEntries(content, draws);
    if |es| == 0 then None
    else
      EntriesValidate(name, es);
      MentionedRatings(content, name, draws);
      var recs := EntryRecs(name, es);
      // Validation cannot fail here, so the `except` around this step never runs.
      assert ValidateItems(EntryRows(name, es)).value == recs;
      Some(recs)
  }
}

=== FILE: text.dfy ===
/** Character and string helpers with the Python semantics the model needs:
    `str.isspace`, `str.strip`, ASCII case mapping, substring search. */
module Text {
  import opened Wrappers

  /** The characters for which Python's `str.isspace()` holds (and which `\s` matches). */
  predicate IsSpace(c: char) {
    c == ' ' || c == '\t' || c == '\n' || c == '\r' || c == '\U{000B}' || c == '\U{000C}'
    || ('\U{001C}' <= c <= '\U{001F}') || c == '\U{0085}' || c == '\U{00A0}'
    || c == '\U{1680}' || ('\U{2000}' <= c <= '\U{200A}') || c == '\U{2028}' || c == '\U{2029}'
    || c == '\U{202F}' || c == '\U{205F}' || c == '\U{3000}'
  }

  predicate IsDigit(c: char) { '0' <= c <= '9' }

  predicate IsAsciiLetter(c: char) { 'a' <= c <= 'z' || 'A' <= c <= 'Z' }

  /** The characters `\w` matches, restricted to ASCII. */
  predicate IsWordChar(c: char) { IsAsciiLetter(c) || IsDigit(c) || c == '_' }

  function DigitValue(c: char): (d: nat)
    requires IsDigit(c)
    ensures d < 10
  {
    (c as int) - ('0' as int)
  }

  function LowerChar(c: char): char {
    if 'A' <= c <= 'Z' then (c as int + 32) as char else c
  }

  function UpperChar(c: char): char {
    if 'a' <= c <= 'z' then (c as int - 32) as char else c
  }

  /** `str.lower()` on the ASCII range; every other character is kept. */
  function Lower(s: string): (r: string)
    ensures |r| == |s|
    ensures forall i :: 0 <= i < |s| ==> r[i] == LowerChar(s[i])
  {
    seq(|s|, i requires 0 <= i < |s| => LowerChar(s[i]))
  }

  /** `str.upper()` on the ASCII range. */
  function Upper(s: string): (r: string)
    ensures |r| == |s|
    ensures forall i :: 0 <= i < |s| ==> r[i] == UpperChar(s[i])
  {
    seq(|s|, i requires 0 <= i < |s| => UpperChar(s[i]))
  }

  /** A stretch `s[start..end]` picked out by a pattern. */
  datatype Span = Span(start: nat, end: nat)

  /** `needle` occurs in `s` starting at index `i`. */
  predicate OccursAt(s: string, i: int, needle: string) {
    0 <= i && i + |needle| <= |s| && s[i..i + |needle|] == needle
  }

  /** Index of the first occurrence of `needle` in `s` at or after `from`. */
  function IndexFrom(s: string, needle: string, from: nat): (r: Option<nat>)
    ensures r.Some? ==> from <= r.value && OccursAt(s, r.value, needle)
    ensures r.Some? ==> forall j :: from <= j < r.value ==> !OccursAt(s, j, needle)
    ensures r.None? ==> forall j :: from <= j ==> !OccursAt(s, j, needle)
    decreases |s| - from
  {
    if from + |needle| > |s| then None
    else if s[from..from + |needle|] == needle then Some(from)
    else IndexFrom(s, needle, from + 1)
  }

  /** Python's `needle in s` for strings. */
  predicate Contains(s: string, needle: string) {
    IndexFrom(s, needle, 0).Some?
  }

  /** `any(p in s for p in phrases)`. */
  function AnyPhrase(lc: string, phrases: seq<string>): (b: bool)
    ensures b <==> exists k :: 0 <= k < |phrases| && Contains(lc, phrases[k])
  {
    if |phrases| == 0 then false
    else if Contains(lc, phrases[0]) then true
    else
      var b := AnyPhrase(lc, phrases[1..]);
      assert forall k :: 1 <= k < |phrases| ==> phrases[k] == phrases[1..][k - 1];
      b
  }

  lemma ContainsIff(s: string, needle: string)
    ensures Contains(s, needle) <==> exists i :: OccursAt(s, i, needle)
  {
    if !Contains(s, needle) {
      assert forall j :: 0 <= j ==> !OccursAt(s, j, needle);
    }
  }

  /** Python's `s.find(c)` for a single character: the first index, or None for -1. */
  function Find(s: string, c: char): (r: Option<nat>)
    ensures r.Some? ==> r.value < |s| && s[r.value] == c && forall j :: 0 <= j < r.value ==> s[j] != c
    ensures r.None? ==> forall j :: 0 <= j < |s| ==> s[j] != c
  {
    if |s| == 0 then None
    else if s[0] == c then Some(0)
    else match Find(s[1..], c)
      case None => None
      case Some(k) => Some(k + 1)
  }

  /** Python's `s.rfind(c)`: the last index, or None for -1. */
  function RFind(s: string, c: char): (r: Option<nat>)
    ensures r.Some? ==> r.value < |s| && s[r.value] == c && forall j :: r.value < j < |s| ==> s[j] != c
    ensures r.None? ==> forall j :: 0 <= j < |s| ==> s[j] != c
  {
    if |s| == 0 then None
    else if s[|s| - 1] == c then Some(|s| - 1)
    else RFind(s[..|s| - 1], c)
  }

  /** Python's `s.replace(a, b)` for single characters. */
  function ReplaceChar(s: string, a: char, b: char): (r: string)
    ensures |r| == |s|
    ensures forall i :: 0 <= i < |s| ==> r[i] == (if s[i] == a then b else s[i])
  {
    seq(|s|, i requires 0 <= i < |s| => if s[i] == a then b else s[i])
  }

  /** `Find` finds nothing in a string without the character. */
  lemma {:induction false} FindAbsent(s: string, c: char)
    requires forall j :: 0 <= j < |s| ==> s[j] != c
    ensures Find(s, c).None?
  {
    if |s| > 0 {
      FindAbsent(s[1..], c);
    }
  }

  /** Python's `s.replace(a, b, 1)` for single characters: only the first `a` changes. */
  function ReplaceFirst(s: string, a: char, b: char): (r: string)
    ensures |r| == |s|
    ensures Find(s, a).None? ==> r == s
    ensures Find(s, a).Some? ==> r == s[..Find(s, a).value] + [b] + s[Find(s, a).value + 1..]
  {
    match Find(s, a)
    case None => s
    case Some(k) => s[..k] + [b] + s[k + 1..]
  }

  /** Python's `s.replace(c, '')`. */
  function RemoveChar(s: string, c: char): (r: string)
    ensures c !in r
    ensures |r| <= |s|
    ensures forall x :: x in r ==> x in s
  {
    if |s| == 0 then ""
    else if s[0] == c then RemoveChar(s[1..], c)
    else [s[0]] + RemoveChar(s[1..], c)
  }

  /** Removing a character that does not occur changes nothing. */
  lemma {:induction false} RemoveCharAbsent(s: string, c: char)
    requires c !in s
    ensures RemoveChar(s, c) == s
  {
    if |s| > 0 {
      RemoveCharAbsent(s[1..], c);
      assert [s[0]] + s[1..] == s;
    }
  }

  /** Removing a character from a concatenation removes it from each part. */
  lemma {:induction false} RemoveCharConcat(x: string, y: string, c: char)
    ensures RemoveChar(x + y, c) == RemoveChar(x, c) + RemoveChar(y, c)
    decreases |x|
  {
    if |x| == 0 {
      assert x + y == y;
    } else {
      RemoveCharConcat(x[1..], y, c);
      assert (x + y)[0] == x[0] && (x + y)[1..] == x[1..] + y;
      if x[0] != c {
        assert RemoveChar(x + y, c) == [x[0]] + (RemoveChar(x[1..], c) + RemoveChar(y, c));
        assert [x[0]] + (RemoveChar(x[1..], c) + RemoveChar(y, c)) == ([x[0]] + RemoveChar(x[1..], c)) + RemoveChar(y, c);
      }
    }
  }

  /** Number of leading whitespace characters. */
  function LeadingSpaces(s: string): (n: nat)
    ensures n <= |s|
    ensures forall i :: 0 <= i < n ==> IsSpace(s[i])
    ensures n < |s| ==> !IsSpace(s[n])
  {
    if |s| == 0 || !IsSpace(s[0]) then 0 else 1 + LeadingSpaces(s[1..])
  }

  /** Number of trailing whitespace characters. */
  function TrailingSpaces(s: string): (n: nat)
    ensures n <= |s|
    ensures forall i :: |s| - n <= i < |s| ==> IsSpace(s[i])
    ensures n < |s| ==> !IsSpace(s[|s| - n - 1])
  {
    if |s| == 0 || !IsSpace(s[|s| - 1]) then 0 else 1 + TrailingSpaces(s[..|s| - 1])
  }

  /** Python's `str.strip()`: drop leading and trailing whitespace. */
  function Strip(s: string): (r: string)
    ensures |r| <= |s|
    ensures |r| > 0 ==> !IsSpace(r[0]) && !IsSpace(r[|r| - 1])
    ensures LeadingSpaces(s) + |r| <= |s|
    ensures r == s[LeadingSpaces(s)..LeadingSpaces(s) + |r|]
    ensures forall i :: LeadingSpaces(s) + |r| <= i < |s| ==> IsSpace(s[i])
  {
    var a := LeadingSpaces(s);
    var rest := s[a..];
    var b := TrailingSpaces(rest);
    var r := rest[..|rest| - b];
    assert r == s[a..a + |r|];
    r
  }

  /** `strip` leaves alone a string whose ends are not whitespace. */
  lemma StripNoop(s: string)
    requires |s| > 0 && !IsSpace(s[0]) && !IsSpace(s[|s| - 1])
    ensures Strip(s) == s
  {
    var r := Strip(s);
    assert LeadingSpaces(s) == 0;
    assert !IsSpace(s[|s| - 1]);
  }

  /** Index of the first ASCII digit at or after `from`. */
  function FirstDigitFrom(s: string, from: nat): (r: Option<nat>)
    ensures r.Some? ==> from <= r.value < |s| && IsDigit(s[r.value])
    ensures r.Some? ==> forall j :: from <= j < r.value ==> !IsDigit(s[j])
    ensures r.None? ==> forall j :: from <= j < |s| ==> !IsDigit(s[j])
    decreases |s| - from
  {
    if from >= |s| then None
    else if IsDigit(s[from]) then Some(from)
    else FirstDigitFrom(s, from + 1)
  }

  /** Length of the run of ASCII digits starting at `from`. */
  function DigitRun(s: string, from: nat): (n: nat)
    ensures from + n <= |s| || n == 0
    ensures forall j :: from <= j < from + n ==> IsDigit(s[j])
    ensures from + n < |s| ==> !IsDigit(s[from + n])
    decreases |s| - from
  {
    if from >= |s| || !IsDigit(s[from]) then 0 else 1 + DigitRun(s, from + 1)
  }

  /** Over a tail of digits the run reaches the end. */
  lemma {:induction false} DigitRunAll(s: string, from: nat)
    requires from <= |s|
    requires forall j :: from <= j < |s| ==> IsDigit(s[j])
    ensures DigitRun(s, from) == |s| - from
    decreases |s| - from
  {
    if from < |s| {
      DigitRunAll(s, from + 1);
    }
  }

  /** A run of `n` digits followed by the end or a non-digit has length `n`. */
  lemma {:induction false} DigitRunStops(s: string, from: nat, n: nat)
    requires from + n <= |s|
    requires forall j :: from <= j < from + n ==> IsDigit(s[j])
    requires from + n == |s| || !IsDigit(s[from + n])
    ensures DigitRun(s, from) == n
    decreases n
  {
    if n > 0 {
      DigitRunStops(s, from + 1, n - 1);
    }
  }

  /** Value of a string of ASCII digits, most significant first. */
  function DigitsValue(s: string): (v: nat)
    requires forall i :: 0 <= i < |s| ==> IsDigit(s[i])
  {
    if |s| == 0 then 0 else DigitsValue(s[..|s| - 1]) * 10 + DigitValue(s[|s| - 1])
  }

  predicate AllDigits(s: string) {
    forall i :: 0 <= i < |s| ==> IsDigit(s[i])
  }

  /** Decimal rendering of a natural number, as Python's `str(n)`. */
  function NatToString(n: nat): (r: string)
    ensures |r| > 0 && AllDigits(r)
    ensures DigitsValue(r) == n
    ensures |r| > 1 ==> r[0] != '0'
  {
    if n < 10 then [('0' as int + n) as char]
    else
      var r := NatToString(n / 10) + [('0' as int + n % 10) as char];
      assert r[..|r| - 1] == NatToString(n / 10);
      r
  }

  /** Python's `str(i)` for an int. */
  function IntToString(i: int): string {
    if i < 0 then "-" + NatToString(-i) else NatToString(i)
  }

  /** `c` repeated `n` times, as Python's `c * n` (a non-positive count gives ""). */
  function Repeat(c: char, n: int): (r: string)
    ensures |r| == if n > 0 then n else 0
    ensures forall i :: 0 <= i < |r| ==> r[i] == c
  {
    if n <= 0 then "" else [c] + Repeat(c, n - 1)
  }

  /** Number of occurrences of `c` in `s`. */
  function CountChar(s: string, c: char): (n: nat)
    ensures n <= |s|
  {
    if |s| == 0 then 0 else (if s[0] == c then 1 else 0) + CountChar(s[1..], c)
  }

  lemma CountCharConcat(a: string, b: string, c: char)
    ensures CountChar(a + b, c) == CountChar(a, c) + CountChar(b, c)
  {
    if |a| > 0 {
      assert (a + b)[1..] == a[1..] + b;
      CountCharConcat(a[1..], b, c);
    } else {
      assert a + b == b;
    }
  }

  lemma CountCharAbsent(s: string, c: char)
    requires forall i :: 0 <= i < |s| ==> s[i] != c
    ensures CountChar(s, c) == 0
  {
    if |s| > 0 {
      CountCharAbsent(s[1..], c);
    }
  }

  /** The characters of an occurrence are the needle's. */
  lemma OccursAtChar(s: string, i: int, needle: string, k: nat)
    requires OccursAt(s, i, needle) && k < |needle|
    ensures s[i + k] == needle[k]
  {
    assert s[i..i + |needle|][k] == needle[k];
  }

  /** The search result is `e` when `e` is an occurrence and nothing earlier from `from` is. */
  lemma IndexFromIs(s: string, needle: string, from: nat, e: nat)
    requires from <= e && OccursAt(s, e, needle)
    requires forall j :: from <= j < e ==> !OccursAt(s, j, needle)
    ensures IndexFrom(s, needle, from) == Some(e)
  {
  }

  /** One mismatching character rules an occurrence out. */
  lemma NotOccursAt(s: string, i: int, needle: string, k: nat)
    requires k < |needle| && 0 <= i && i + k < |s| && s[i + k] != needle[k]
    ensures !OccursAt(s, i, needle)
  {
    if i + |needle| <= |s| {
      assert s[i..i + |needle|][k] == s[i + k];
    }
  }
}

=== FILE: utils.dfy ===
/** The front end's validators and parsers: price strings, clock times and the flight
    duration between two of them, trip date ranges, and location names. */
module Utils {
  import opened Wrappers
  import opened Text
  import opened Decimal
  import opened Json

  /** `0.0`. */
  const Zero: PyFloat := Finite(Dec(0, 0))

  /** The upper-cased strings that mean "no price". */
  const NullWords: seq<string> := ["NA", "N/A", "NONE", "NULL", "-"]

  /** Rupee, dollar, euro, pound and yen signs. */
  const CurrencySymbols: seq<char> := ['\U{20B9}', '$', '\U{20AC}', '\U{00A3}', '\U{00A5}']

  /** `s.replace(c, '')` for each listed character in turn. */
  function RemoveChars(s: string, cs: seq<char>): (r: string)
    ensures forall c :: c in cs ==> c !in r
    ensures forall x :: x in r ==> x in s
    decreases |cs|
  {
    if |cs| == 0 then s else RemoveChars(RemoveChar(s, cs[0]), cs[1..])
  }

  /** The string the price is searched in: currency signs, then commas, then spaces removed. */
  function CleanPrice(s: string): (r: string)
    ensures forall c :: c in CurrencySymbols ==> c !in r
    ensures ',' !in r && ' ' !in r
    ensures forall x :: x in r ==> x in s
  {
    RemoveChar(RemoveChar(RemoveChars(s, CurrencySymbols), ','), ' ')
  }

  /** What the `try` block makes of the cleaned string: `float()` of the first `\d+(\.\d+)?`
      when there is a digit, otherwise `float(cleaned)` for a non-empty string, with the
      ValueError caught. A match beyond the double range reads as infinity. */
  function PriceFromCleaned(c: string): (r: PyFloat)
    ensures FirstDigitFrom(c, 0).Some? ==> (r.Finite? && r.d.m >= 0) || r == Inf(false)
  {
    match FirstDigitFrom(c, 0)
    case Some(k) => ToDouble(NumberAt(c, k))
    case None =>
      if |c| == 0 then Zero
      else
        match ParseFloat(c)
        case Some(f) => f
        case None => Zero
  }

  /** `extract_price`. Its one uncaught failure is the OverflowError of `float()` on an int
      beyond the double range, which happens outside the `try`. */
  function ExtractPrice(v: JVal): (r: Result<PyFloat, Exc>)
    ensures r.Err? <==> Truthy(v) && v.JInt? && Overflows(Dec(v.i, 0))
    ensures r.Err? ==> r.error == IntTooLarge
    ensures !Truthy(v) ==> r == Ok(Zero)
    ensures Truthy(v) && v.JInt? && !Overflows(Dec(v.i, 0)) ==> r == Ok(Finite(Dec(v.i, 0)))
    ensures Truthy(v) && v.JBool? ==> r == Ok(Finite(Dec(1, 0)))
    ensures Truthy(v) && v.JFloat? ==> r == Ok(v.f)
    ensures v.JStr? && Upper(v.s) in NullWords ==> r == Ok(Zero)
    ensures v.JStr? && Upper(v.s) !in NullWords && FirstDigitFrom(CleanPrice(v.s), 0).Some? ==>
      r.Ok? && ((r.value.Finite? && r.value.d.m >= 0) || r.value == Inf(false))
  {
    if !Truthy(v) then Ok(Zero)
    else
      match v
      case JBool(_) => Ok(Finite(Dec(1, 0)))
      case JInt(i) => if Overflows(Dec(i, 0)) then Err(IntTooLarge) else Ok(Finite(Dec(i, 0)))
      case JFloat(f) => Ok(f)
      case JStr(s) => Ok(if Upper(s) in NullWords then Zero else PriceFromCleaned(CleanPrice(s)))
      case _ => Ok(PriceFromCleaned(CleanPrice(PyStr(v))))
  }

  /** `float(s)` only yields a finite number when `s` holds a digit. */
  lemma ParseFloatNeedsDigit(s: string)
    requires ParseFloat(s).Some? && ParseFloat(s).value.Finite?
    ensures exists i :: 0 <= i < |s| && IsDigit(s[i])
  {
    var t := Strip(s);
    var a := LeadingSpaces(s);
    var (neg, body) := SplitSign(t);
    var off := if |t| > 0 && (t[0] == '-' || t[0] == '+') then 1 else 0;
    assert body == t[off..];
    var d := UnsignedDecimal(body).value;
    var i := UnsignedHasDigit(body);
    assert s[a + off + i] == t[off + i] == body[i];
  }

  /** The position of a digit in an unsigned decimal literal. */
  lemma UnsignedHasDigit(body: string) returns (i: nat)
    requires UnsignedDecimal(body).Some?
    ensures i < |body| && IsDigit(body[i])
  {
    match Find(body, '.')
    case None =>
      i := 0;
    case Some(k) =>
      if k > 0 {
        i := 0;
      } else {
        i := k + 1;
        assert body[k + 1..][0] == body[k + 1];
      }
  }

  /** A string without digits gives 0.0, or an infinity or NaN when it spells one; never a
      finite non-zero price. */
  lemma DigitlessPrice(s: string)
    requires FirstDigitFrom(CleanPrice(s), 0).None?
    ensures var r := ExtractPrice(JStr(s)); r.Ok? && (r.value == Zero || r.value.Inf? || r.value.NaN?)
  {
    var c := CleanPrice(s);
    if Upper(s) !in NullWords && |c| > 0 && ParseFloat(c).Some? && ParseFloat(c).value.Finite? {
      ParseFloatNeedsDigit(c);
    }
  }

  /** A currency-free, comma-free, space-free string is left as it is by the cleaning. */
  lemma CleanNoop(s: string)
    requires forall c :: c in CurrencySymbols ==> c !in s
    requires ',' !in s && ' ' !in s
    ensures CleanPrice(s) == s
  {
    RemoveCharsAbsent(s, CurrencySymbols);
    RemoveCharAbsent(s, ',');
    RemoveCharAbsent(s, ' ');
  }

  /** A string that does not upper-case to an 'N' first, and is not "-", is none of the
      "no price" words. */
  lemma NotNullWord(s: string)
    requires |s| >= 1 && UpperChar(s[0]) != 'N' && s != "-"
    ensures Upper(s) !in NullWords
  {
    var u := Upper(s);
    assert u[0] != 'N' && (|u| >= 2 || u[0] != '-');
    forall k | 0 <= k < |NullWords|
      ensures u != NullWords[k]
    {
      if k < 4 {
        assert NullWords[k][0] == 'N';
      } else {
        assert NullWords[k] == "-";
      }
    }
  }

  /** The number the search finds at k when the rest of the string is all digits. */
  lemma NumberAtTail(s: string, k: nat)
    requires k < |s| && AllDigits(s[k..])
    ensures NumberAt(s, k) == Dec(DigitsValue(s[k..]), 0)
  {
    var t := s[k..];
    forall j | k <= j < |s|
      ensures IsDigit(s[j])
    {
      assert s[j] == t[j - k];
    }
    DigitRunAll(s, k);
    assert s[k..k + |t|] + "" == t;
  }

  /** Cleaning leaves a string of digits, possibly after a minus sign, alone. */
  lemma DigitsClean(s: string)
    requires forall i :: 0 <= i < |s| ==> IsDigit(s[i]) || s[i] == '-'
    ensures CleanPrice(s) == s
  {
    forall x | x in s
      ensures x !in CurrencySymbols && x != ',' && x != ' '
    {
      var i :| 0 <= i < |s| && s[i] == x;
    }
    CleanNoop(s);
  }

  /** An integer written out in digits is read back as that price. */
  lemma PriceOfDigits(n: nat)
    ensures ExtractPrice(JStr(NatToString(n))) == Ok(if n < DoubleOverflow then Finite(Dec(n, 0)) else Inf(false))
  {
    var s := NatToString(n);
    assert IsDigit(s[0]) && s[0] != '-';
    NotNullWord(s);
    DigitsClean(s);
    PriceOfDigitsCleaned(s);
  }

  /** A leading currency sign is dropped. */
  lemma PriceWithCurrency(c: char, n: nat)
    requires c in CurrencySymbols
    ensures ExtractPrice(JStr([c] + NatToString(n))) == Ok(if n < DoubleOverflow then Finite(Dec(n, 0)) else Inf(false))
  {
    var d := NatToString(n);
    var s := [c] + d;
    assert s[0] == c && UpperChar(c) == c;
    NotNullWord(s);
    CleanDropsSign(c, d);
    PriceOfDigitsCleaned(d);
  }

  /** A leading minus sign is dropped as well: the search skips to the first digit. */
  lemma {:induction false} PriceDropsMinus(n: nat)
    ensures ExtractPrice(JStr("-" + NatToString(n))) == Ok(if n < DoubleOverflow then Finite(Dec(n, 0)) else Inf(false))
  {
    var d := NatToString(n);
    var s := "-" + d;
    assert s[0] == '-';
    NotNullWord(s);
    assert forall i :: 1 <= i < |s| ==> s[i] == d[i - 1];
    DigitsClean(s);
    MinusCleaned(d);
    NatDouble(n);
  }

  /** After a minus sign, the digits are read as they are. */
  lemma MinusCleaned(d: string)
    requires |d| > 0 && AllDigits(d)
    ensures PriceFromCleaned("-" + d) == ToDouble(Dec(DigitsValue(d), 0))
  {
    var s := "-" + d;
    assert s[1..] == d;
    assert IsDigit(s[1]);
    assert FirstDigitFrom(s, 0) == Some(1);
    NumberAtTail(s, 1);
  }

  /** A whole number converts exactly below the overflow bound, and to infinity from it on. */
  lemma NatDouble(n: nat)
    ensures ToDouble(Dec(n, 0)) == if n < DoubleOverflow then Finite(Dec(n, 0)) else Inf(false)
  {
    assert Pow10(0) == 1;
  }

  /** A price with a fraction, after a currency sign: `$1299.50` is 1299.5, read exactly to
      as many places as it has. */
  lemma PriceWithFraction(c: char, a: string, b: string)
    requires c in CurrencySymbols
    requires |a| > 0 && AllDigits(a) && |b| > 0 && AllDigits(b)
    ensures ExtractPrice(JStr([c] + a + "." + b)) == Ok(ToDouble(Dec(DigitsValue(a + b), |b|)))
  {
    var t := a + "." + b;
    var s := [c] + t;
    assert [c] + a + "." + b == s;
    assert ExtractPrice(JStr(s)) == Ok(PriceFromCleaned(CleanPrice(s))) by {
      assert s[0] == c && UpperChar(c) == c;
      NotNullWord(s);
    }
    FractionCleaned(c, a, b);
    FractionSearched(a, b);
    NumberAtFraction(a, b);
  }

  /** The currency sign goes and the digits and point stay. */
  lemma FractionCleaned(c: char, a: string, b: string)
    requires c in CurrencySymbols
    requires AllDigits(a) && AllDigits(b)
    ensures CleanPrice([c] + (a + "." + b)) == a + "." + b
  {
    FractionCharacters(a, b);
    CleanDropsSign(c, a + "." + b);
  }

  /** The search starts at the first digit. */
  lemma FractionSearched(a: string, b: string)
    requires |a| > 0 && AllDigits(a)
    ensures PriceFromCleaned(a + "." + b) == ToDouble(NumberAt(a + "." + b, 0))
  {
    var t := a + "." + b;
    assert IsDigit(t[0]) && t[0] == a[0];
    assert FirstDigitFrom(t, 0) == Some(0);
  }

  /** Every character of `a.b` is a digit or the point. */
  lemma FractionCharacters(a: string, b: string)
    requires AllDigits(a) && AllDigits(b)
    ensures forall x :: x in a + "." + b ==> IsDigit(x) || x == '.'
  {
    var t := a + "." + b;
    forall x | x in t
      ensures IsDigit(x) || x == '.'
    {
      var i :| 0 <= i < |t| && t[i] == x;
      if i < |a| {
        assert t[i] == a[i];
      } else if i > |a| {
        assert t[i] == b[i - |a| - 1];
      }
    }
  }

  /** Cleaning a concatenation cleans each part. */
  lemma CleanConcat(x: string, y: string)
    ensures CleanPrice(x + y) == CleanPrice(x) + CleanPrice(y)
  {
    var x1, y1 := RemoveChars(x, CurrencySymbols), RemoveChars(y, CurrencySymbols);
    RemoveCharsConcat(x, y, CurrencySymbols);
    assert RemoveChars(x + y, CurrencySymbols) == x1 + y1;
    var x2, y2 := RemoveChar(x1, ','), RemoveChar(y1, ',');
    RemoveCharConcat(x1, y1, ',');
    assert RemoveChar(x1 + y1, ',') == x2 + y2;
    RemoveCharConcat(x2, y2, ' ');
    assert CleanPrice(x + y) == RemoveChar(x2 + y2, ' ');
    assert CleanPrice(x) == RemoveChar(x2, ' ') && CleanPrice(y) == RemoveChar(y2, ' ');
  }

  lemma {:induction false} RemoveCharsConcat(x: string, y: string, cs: seq<char>)
    ensures RemoveChars(x + y, cs) == RemoveChars(x, cs) + RemoveChars(y, cs)
    decreases |cs|
  {
    if |cs| > 0 {
      RemoveCharConcat(x, y, cs[0]);
      RemoveCharsConcat(RemoveChar(x, cs[0]), RemoveChar(y, cs[0]), cs[1..]);
    }
  }

  /** A thousands separator is ignored: commas are removed before the number is searched for,
      so `p + "," + q` is the price `p + q` is. When `p + q` is itself one of the "no price"
      words, the comma version is not, but its cleaned text fails `float()` and gives 0.0 too. */
  lemma PriceIgnoresComma(p: string, q: string)
    ensures ExtractPrice(JStr(p + "," + q)) == ExtractPrice(JStr(p + q))
  {
    CommaCleaned(p, q);
    CommaNotNull(p, q);
    if Upper(p + q) in NullWords {
      NullWordPrice(p + q);
    }
  }

  /** The cleaning removes the comma. */
  lemma CommaCleaned(p: string, q: string)
    ensures CleanPrice(p + "," + q) == CleanPrice(p + q)
  {
    assert CleanPrice(p + ",") == CleanPrice(p) by {
      CleanConcat(p, ",");
      CleanComma();
    }
    CleanConcat(p + ",", q);
    CleanConcat(p, q);
  }

  /** A lone comma cleans to nothing. */
  lemma CleanComma()
    ensures CleanPrice(",") == ""
  {
    RemoveCharsAbsent(",", CurrencySymbols);
    assert RemoveChar(",", ',') == "";
  }

  /** No "no price" word holds a comma. */
  lemma CommaNotNull(p: string, q: string)
    ensures Upper(p + "," + q) !in NullWords
  {
    var u := Upper(p + "," + q);
    assert u[|p|] == ',';
    assert u != "NA" && u != "N/A" && u != "NONE" && u != "NULL" && u != "-";
  }

  /** A "no price" word, in any case, cleans to itself and fails `float()`, giving 0.0. */
  lemma NullWordPrice(w: string)
    requires Upper(w) in NullWords
    ensures PriceFromCleaned(CleanPrice(w)) == Zero
  {
    NullWordShape(w);
    WordClean(w);
    assert FirstDigitFrom(w, 0).None?;
    WordFloat(w);
  }

  /** Letters, '/' and '-' survive the cleaning. */
  lemma WordClean(w: string)
    requires forall i :: 0 <= i < |w| ==> IsAsciiLetter(w[i]) || w[i] == '/' || w[i] == '-'
    ensures CleanPrice(w) == w
  {
    forall x | x in w
      ensures x !in CurrencySymbols && x != ',' && x != ' '
    {
      var i :| 0 <= i < |w| && w[i] == x;
    }
    CleanNoop(w);
  }

  /** `float()` refuses a short word of letters, '/' and '-' that is not "inf" or "nan". */
  lemma WordFloat(w: string)
    requires 0 < |w| <= 4
    requires forall i :: 0 <= i < |w| ==> IsAsciiLetter(w[i]) || w[i] == '/' || w[i] == '-'
    requires w[0] == '-' ==> w == "-"
    requires w[0] != '+' && !IsSpace(w[0]) && !IsSpace(w[|w| - 1])
    requires |w| == 3 ==> w[1] == '/'
    ensures ParseFloat(w).None?
  {
    StripNoop(w);
    var (neg, body) := SplitSign(w);
    assert body == w || body == "";
    assert Lower(body) != "inf" && Lower(body) != "infinity" && Lower(body) != "nan" by {
      if |body| == 3 {
        assert Lower(body)[1] == '/';
      }
    }
    DigitlessUnsigned(body);
  }

  /** An unsigned literal needs a digit. */
  lemma DigitlessUnsigned(body: string)
    requires forall i :: 0 <= i < |body| ==> !IsDigit(body[i])
    ensures UnsignedDecimal(body).None?
  {
    if UnsignedDecimal(body).Some? {
      var i := UnsignedHasDigit(body);
    }
  }

  /** What the letters of a "no price" word are, whatever their case. */
  lemma NullWordShape(w: string)
    requires Upper(w) in NullWords
    ensures 0 < |w| <= 4
    ensures forall i :: 0 <= i < |w| ==> IsAsciiLetter(w[i]) || w[i] == '/' || w[i] == '-'
    ensures w[0] == '-' ==> w == "-"
    ensures w[0] != '+' && !IsSpace(w[0]) && !IsSpace(w[|w| - 1])
    ensures |w| == 3 ==> w[1] == '/'
  {
    var u := Upper(w);
    assert u == "NA" || u == "N/A" || u == "NONE" || u == "NULL" || u == "-";
    forall i | 0 <= i < |w|
      ensures IsAsciiLetter(w[i]) || w[i] == '/' || w[i] == '-'
    {
      assert u[i] == UpperChar(w[i]);
      assert IsAsciiLetter(u[i]) || u[i] == '/' || u[i] == '-';
    }
    assert u[0] == UpperChar(w[0]);
  }

  /** `extract_price("$1,299.50")` is 1299.5. */
  lemma ThousandsWithCents()
    ensures ExtractPrice(JStr("$1,299.50")) == Ok(Finite(Dec(129950, 2)))
  {
    ThousandsDropped();
    CentsRead();
    SixDigits();
    assert !Overflows(Dec(129950, 2));
  }

  /** The thousands comma goes. */
  lemma ThousandsDropped()
    ensures ExtractPrice(JStr("$1,299.50")) == ExtractPrice(JStr("$1299.50"))
  {
    assert "$1,299.50" == "$1" + "," + "299.50";
    assert "$1299.50" == "$1" + "299.50";
    PriceIgnoresComma("$1", "299.50");
  }

  /** What is left reads as digits, a point and two places. */
  lemma CentsRead()
    ensures ExtractPrice(JStr("$1299.50")) == Ok(ToDouble(Dec(DigitsValue("129950"), 2)))
  {
    assert "$1299.50" == ['$'] + "1299" + "." + "50";
    assert "1299" + "50" == "129950";
    assert AllDigits("1299") && AllDigits("50");
    PriceWithFraction('$', "1299", "50");
  }

  /** The value of the six digits, one place at a time. */
  lemma SixDigits()
    ensures DigitsValue("129950") == 129950
  {
    assert "129950"[..5] == "12995" && "12995"[..4] == "1299" && "1299"[..3] == "129";
    assert "129"[..2] == "12" && "12"[..1] == "1" && "1"[..0] == "";
    assert DigitsValue("1") == 1;
    assert DigitsValue("12") == 12;
    assert DigitsValue("129") == 129;
    assert DigitsValue("1299") == 1299;
    assert DigitsValue("12995") == 12995;
  }

  /** Removing a currency sign in front of a digit string leaves the digits. */
  lemma CleanDropsSign(c: char, d: string)
    requires c in CurrencySymbols
    requires forall x :: x in d ==> IsDigit(x) || x == '.'
    ensures CleanPrice([c] + d) == d
  {
    RemoveCharsFront(c, d, CurrencySymbols);
    RemoveCharAbsent(d, ',');
    RemoveCharAbsent(d, ' ');
  }

  lemma {:induction false} RemoveCharsFront(c: char, d: string, cs: seq<char>)
    requires c in cs
    requires forall x :: x in cs ==> x !in d
    ensures RemoveChars([c] + d, cs) == d
    decreases |cs|
  {
    if cs[0] == c {
      assert ([c] + d)[1..] == d;
      RemoveCharAbsent(d, c);
      RemoveCharsAbsent(d, cs[1..]);
    } else {
      assert ([c] + d)[1..] == d;
      RemoveCharAbsent(d, cs[0]);
      assert RemoveChar([c] + d, cs[0]) == [c] + d;
      RemoveCharsFront(c, d, cs[1..]);
    }
  }

  lemma {:induction false} RemoveCharsAbsent(d: string, cs: seq<char>)
    requires forall x :: x in cs ==> x !in d
    ensures RemoveChars(d, cs) == d
    decreases |cs|
  {
    if |cs| > 0 {
      RemoveCharAbsent(d, cs[0]);
      RemoveCharsAbsent(d, cs[1..]);
    }
  }

  lemma PriceOfDigitsCleaned(d: string)
    requires |d| > 0 && AllDigits(d)
    ensures PriceFromCleaned(d) == ToDouble(Dec(DigitsValue(d), 0))
  {
    assert IsDigit(d[0]);
    NumberAtDigits(d);
  }

  // Clock times and durations

  /** Seconds in a day. */
  const Day: nat := 86400

  /** End of a match of `\d{1,2}:\d{2}(?::\d{2})?(?: ?[AP]M)?` starting at i. Two hour digits
      are tried before one; the optional seconds and meridiem are taken when present. */
  function ClockEndAt(s: string, i: nat): (r: Option<nat>)
    ensures r.Some? ==> i < r.value <= |s|
  {
    var h := if i + 2 < |s| && IsDigit(s[i]) && IsDigit(s[i + 1]) && s[i + 2] == ':' then 2
             else if i + 1 < |s| && IsDigit(s[i]) && s[i + 1] == ':' then 1
             else 0;
    var p := i + h;
    if h == 0 || !(p + 2 < |s| && IsDigit(s[p + 1]) && IsDigit(s[p + 2])) then None
    else
      var e0 := p + 3;
      var e1 := if e0 + 2 < |s| && s[e0] == ':' && IsDigit(s[e0 + 1]) && IsDigit(s[e0 + 2]) then e0 + 3 else e0;
      var e2 := if e1 + 2 < |s| && s[e1] == ' ' && (s[e1 + 1] == 'A' || s[e1 + 1] == 'P') && s[e1 + 2] == 'M' then e1 + 3
                else if e1 + 1 < |s| && (s[e1] == 'A' || s[e1] == 'P') && s[e1 + 1] == 'M' then e1 + 2
                else e1;
      Some(e2)
  }

  /** `re.search` of the clock pattern: the leftmost match at or after `from`. */
  function ClockSearch(s: string, from: nat): (r: Option<Span>)
    ensures r.Some? ==> from <= r.value.start < r.value.end <= |s|
    ensures r.Some? ==> ClockEndAt(s, r.value.start) == Some(r.value.end)
    ensures r.Some? ==> forall j :: from <= j < r.value.start ==> ClockEndAt(s, j).None?
    decreases |s| - from
  {
    if from >= |s| then None
    else
      match ClockEndAt(s, from)
      case Some(e) => Some(Span(from, e))
      case None => ClockSearch(s, from + 1)
  }

  /** The `strptime` directives the formats use: 24-hour hour, minute, second, 12-hour hour. */
  datatype Directive = Hour24 | Minute | Second | Hour12

  /** The two-digit values each directive's pattern accepts (`2[0-3]|[0-1]\d`, `[0-5]\d`,
      `6[0-1]|[0-5]\d`, `1[0-2]|0[1-9]`); its one-digit alternative accepts any digit but 0
      for the 12-hour hour. */
  predicate TwoDigitsFit(d: Directive, v: nat) {
    match d
    case Hour24 => v <= 23
    case Minute => v <= 59
    case Second => v <= 61
    case Hour12 => 1 <= v <= 12
  }

  /** One numeric directive read at i: (value, end), two digits preferred. */
  function ReadField(t: string, i: nat, d: Directive): (r: Option<(nat, nat)>)
    ensures r.Some? ==> i < r.value.1 <= |t| && r.value.1 <= i + 2
    ensures r.Some? && d == Hour24 ==> r.value.0 <= 23
    ensures r.Some? && d == Minute ==> r.value.0 <= 59
    ensures r.Some? && d == Second ==> r.value.0 <= 61
    ensures r.Some? && d == Hour12 ==> 1 <= r.value.0 <= 12
  {
    if i + 1 < |t| && IsDigit(t[i]) && IsDigit(t[i + 1]) &&
       TwoDigitsFit(d, 10 * DigitValue(t[i]) + DigitValue(t[i + 1]))
    then Some((10 * DigitValue(t[i]) + DigitValue(t[i + 1]), i + 2))
    else if i < |t| && IsDigit(t[i]) && (d != Hour12 || DigitValue(t[i]) > 0)
    then Some((DigitValue(t[i]), i + 1))
    else None
  }

  /** A literal ':' at i. */
  function Colon(t: string, i: nat): Option<nat> {
    if i < |t| && t[i] == ':' then Some(i + 1) else None
  }

  /** The `\s+` a space in the format stands for. */
  function Blanks(t: string, i: nat): (r: Option<nat>)
    ensures r.Some? ==> i < r.value <= |t|
  {
    if i < |t| then
      var n := LeadingSpaces(t[i..]);
      if n > 0 then Some(i + n) else None
    else None
  }

  /** `%p`, case-insensitively: (is it PM?, end). */
  function Meridiem(t: string, i: nat): (r: Option<(bool, nat)>)
    ensures r.Some? ==> r.value.1 == i + 2 <= |t|
  {
    if i + 1 < |t| && LowerChar(t[i + 1]) == 'm' && (LowerChar(t[i]) == 'a' || LowerChar(t[i]) == 'p')
    then Some((LowerChar(t[i]) == 'p', i + 2))
    else None
  }

  /** The 24-hour hour of a 12-hour hour and meridiem. */
  function Hour12To24(h: nat, pm: bool): (r: nat)
    requires 1 <= h <= 12
    ensures r <= 23
    ensures pm <==> r >= 12
  {
    if pm then (if h == 12 then 12 else h + 12) else (if h == 12 then 0 else h)
  }

  /** The formats tried in turn. */
  datatype Format = HourMinute | Hour12Minute | HourMinuteSecond | Hour12MinuteSecond

  /** The minute and optional seconds after "H:": (seconds past the hour, end). A second of
      60 or 61 passes the pattern but `datetime` refuses it. */
  function MinutesPart(t: string, i: nat, withSeconds: bool): (r: Option<(nat, nat)>)
    ensures r.Some? ==> r.value.0 < 3600 && r.value.1 <= |t|
  {
    match ReadField(t, i, Minute)
    case None => None
    case Some((m, j)) =>
      if !withSeconds then Some((60 * m, j))
      else
        match Colon(t, j)
        case None => None
        case Some(k) =>
          match ReadField(t, k, Second)
          case None => None
          case Some((sec, e)) => if sec <= 59 then Some((60 * m + sec, e)) else None
  }

  /** `datetime.strptime(t, fmt)` reduced to seconds since midnight: the whole string must be
      consumed. */
  function ParseFormat(t: string, f: Format): (r: Option<nat>)
    ensures r.Some? ==> r.value < Day
  {
    var twelve := f == Hour12Minute || f == Hour12MinuteSecond;
    var seconds := f == HourMinuteSecond || f == Hour12MinuteSecond;
    match ReadField(t, 0, if twelve then Hour12 else Hour24)
    case None => None
    case Some((h, i)) =>
      match Colon(t, i)
      case None => None
      case Some(j) =>
        match MinutesPart(t, j, seconds)
        case None => None
        case Some((ms, k)) =>
          if !twelve then (if k == |t| then Some(3600 * h + ms) else None)
          else
            match Blanks(t, k)
            case None => None
            case Some(b) =>
              match Meridiem(t, b)
              case None => None
              case Some((pm, e)) => if e == |t| then Some(3600 * Hour12To24(h, pm) + ms) else None
  }

  /** The formats in the order the loop tries them: '%H:%M', '%I:%M %p', '%H:%M:%S',
      '%I:%M:%S %p'. */
  const Formats: seq<Format> := [HourMinute, Hour12Minute, HourMinuteSecond, Hour12MinuteSecond]

  /** The first format that parses the whole string. */
  function ParseClock(t: string, k: nat): (r: Option<nat>)
    requires k <= |Formats|
    ensures r.Some? ==> r.value < Day
    decreases |Formats| - k
  {
    if k == |Formats| then None
    else
      match ParseFormat(t, Formats[k])
      case Some(secs) => Some(secs)
      case None => ParseClock(t, k + 1)
  }

  /** A time string as the duration estimate reads it: the clock-like part the search finds,
      or the whole string, then the first format that parses it. */
  function TimeOfDay(raw: string): (r: Option<nat>)
    ensures r.Some? ==> r.value < Day
  {
    var t := match ClockSearch(raw, 0)
      case Some(sp) => raw[sp.start..sp.end]
      case None => raw;
    ParseClock(t, 0)
  }

  /** Arrival minus departure, a day later when the arrival is earlier. */
  function DurationSeconds(dep: nat, arr: nat): (r: nat)
    requires dep < Day && arr < Day
    ensures r < Day
    ensures (dep + r) % Day == arr
    ensures dep <= arr ==> dep + r == arr
  {
    if arr < dep then arr + Day - dep else arr - dep
  }

  /** "Xh Ym", "Xh" or "Ym" for whole hours and the minutes left over. */
  function FormatDuration(secs: nat): string {
    HoursMinutes(secs / 3600, secs % 3600 / 60)
  }

  /** The f-strings of the three branches. */
  function HoursMinutes(hours: nat, minutes: nat): string {
    if hours > 0 && minutes > 0 then NatToString(hours) + "h " + NatToString(minutes) + "m"
    else if hours > 0 then NatToString(hours) + "h"
    else NatToString(minutes) + "m"
  }

  const Unavailable := "Duration information not available"

  /** `calculate_duration_estimate`. */
  function DurationEstimate(departure: string, arrival: string): (r: string)
    ensures TimeOfDay(departure).None? || TimeOfDay(arrival).None? ==> r == Unavailable
  {
    match (TimeOfDay(departure), TimeOfDay(arrival))
    case (Some(dep), Some(arr)) => FormatDuration(DurationSeconds(dep, arr))
    case _ => Unavailable
  }

  /** Arriving at the departure time reads as no time at all. */
  lemma SameTimeZero(t: string)
    requires TimeOfDay(t).Some?
    ensures DurationEstimate(t, t) == "0m"
  {
    assert DurationSeconds(TimeOfDay(t).value, TimeOfDay(t).value) == 0;
    assert FormatDuration(0) == HoursMinutes(0, 0);
    assert NatToString(0) == "0";
  }

  /** The hours and minutes shown are those of the duration, with the leftover seconds
      dropped. */
  lemma {:induction false} FormatParts(h: nat, m: nat, sec: nat)
    requires m < 60 && sec < 60
    ensures var text := FormatDuration(3600 * h + 60 * m + sec);
      if h > 0 && m > 0 then text == NatToString(h) + "h " + NatToString(m) + "m"
      else if h > 0 then text == NatToString(h) + "h"
      else text == NatToString(m) + "m"
  {
    var secs := 3600 * h + 60 * m + sec;
    assert 60 * m + sec < 3600;
    assert secs / 3600 == h;
    assert secs % 3600 == 60 * m + sec;
    assert (60 * m + sec) / 60 == m;
    assert FormatDuration(secs) == HoursMinutes(h, m);
  }

  /** When both times parse, the estimate is the formatted time from departure forward to
      the next moment the clock shows the arrival time. */
  lemma EstimateMeaning(departure: string, arrival: string)
    requires TimeOfDay(departure).Some? && TimeOfDay(arrival).Some?
    ensures exists secs: nat ::
      (secs < Day && (TimeOfDay(departure).value + secs) % Day == TimeOfDay(arrival).value &&
       DurationEstimate(departure, arrival) == FormatDuration(secs))
  {
    var secs := DurationSeconds(TimeOfDay(departure).value, TimeOfDay(arrival).value);
    assert DurationEstimate(departure, arrival) == FormatDuration(secs);
    assert secs < Day && (TimeOfDay(departure).value + secs) % Day == TimeOfDay(arrival).value;
  }

  /** An overnight flight: an arrival clock time earlier than the departure's is on the next
      day, so the estimate counts up to midnight and on from there. */
  lemma OvernightDuration(departure: string, arrival: string, dep: nat, arr: nat)
    requires TimeOfDay(departure) == Some(dep) && TimeOfDay(arrival) == Some(arr)
    requires arr < dep
    ensures DurationEstimate(departure, arrival) == FormatDuration((Day - dep) + arr)
  {
    EstimateOf(departure, arrival, dep, arr);
  }

  lemma EstimateOf(departure: string, arrival: string, dep: nat, arr: nat)
    requires TimeOfDay(departure) == Some(dep) && TimeOfDay(arrival) == Some(arr)
    ensures dep < Day && arr < Day
    ensures DurationEstimate(departure, arrival) == FormatDuration(DurationSeconds(dep, arr))
  {
  }

  /** "HH:MM". */
  function Clock(h: nat, m: nat): string
    requires h < 100 && m < 100
  {
    TwoDigits(h) + ":" + TwoDigits(m)
  }

  /** Two digits of a number below 100. */
  function TwoDigits(n: nat): (r: string)
    requires n < 100
    ensures |r| == 2 && IsDigit(r[0]) && IsDigit(r[1])
    ensures 10 * DigitValue(r[0]) + DigitValue(r[1]) == n
  {
    [('0' as int + n / 10) as char, ('0' as int + n % 10) as char]
  }

  /** "HH:MM" reads back as the time it writes. */
  lemma ClockRoundTrip(h: nat, m: nat)
    requires h < 24 && m < 60
    ensures TimeOfDay(Clock(h, m)) == Some(3600 * h + 60 * m)
  {
    var s := Clock(h, m);
    assert s[2] == ':' && IsDigit(s[0]) && IsDigit(s[1]) && IsDigit(s[3]) && IsDigit(s[4]);
    assert ClockEndAt(s, 0) == Some(5);
    assert s[0..5] == s;
    assert ReadField(s, 0, Hour24) == Some((h, 2));
    assert ReadField(s, 3, Minute) == Some((m, 5));
    assert ParseFormat(s, HourMinute) == Some(3600 * h + 60 * m);
  }

  /** "HH:MM PM" reads back as the afternoon time. */
  lemma {:induction false} AfternoonRoundTrip(h: nat, m: nat)
    requires 1 <= h <= 11 && m < 60
    ensures TimeOfDay(Clock(h, m) + " PM") == Some(3600 * (h + 12) + 60 * m)
  {
    var s := Clock(h, m) + " PM";
    AfternoonWhole(h, m);
    AfternoonFormats(h, m);
    assert ParseClock(s, 0) == ParseClock(s, 1);
  }

  /** The search finds the whole afternoon string, so it is parsed as it stands. */
  lemma AfternoonWhole(h: nat, m: nat)
    requires 1 <= h <= 11 && m < 60
    ensures TimeOfDay(Clock(h, m) + " PM") == ParseClock(Clock(h, m) + " PM", 0)
  {
    var s := Clock(h, m) + " PM";
    assert s[2] == ':' && IsDigit(s[0]) && IsDigit(s[1]) && IsDigit(s[3]) && IsDigit(s[4]);
    assert s[5] == ' ' && s[6] == 'P' && s[7] == 'M' && |s| == 8;
    assert ClockEndAt(s, 0) == Some(8);
    assert s[0..8] == s;
  }

  /** '%H:%M' rejects the trailing " PM" and '%I:%M %p' reads it. */
  lemma AfternoonFormats(h: nat, m: nat)
    requires 1 <= h <= 11 && m < 60
    ensures ParseFormat(Clock(h, m) + " PM", HourMinute).None?
    ensures ParseFormat(Clock(h, m) + " PM", Hour12Minute) == Some(3600 * (h + 12) + 60 * m)
  {
    var s := Clock(h, m) + " PM";
    AfternoonFields(h, m);
    assert ParseFormat(s, HourMinute).None?;
    assert s[5..][0] == ' ' && s[5..][1] == 'P';
    assert LeadingSpaces(s[5..]) == 1;
    assert Blanks(s, 5) == Some(6);
  }

  /** The fields of an afternoon clock string, read as 24-hour and as 12-hour time. */
  lemma AfternoonFields(h: nat, m: nat)
    requires 1 <= h <= 11 && m < 60
    ensures var s := Clock(h, m) + " PM";
      |s| == 8 && s[5] == ' ' && s[6] == 'P' && s[7] == 'M' &&
      ReadField(s, 0, Hour24) == Some((h, 2)) && ReadField(s, 0, Hour12) == Some((h, 2)) &&
      Colon(s, 2) == Some(3) && ReadField(s, 3, Minute) == Some((m, 5))
  {
    var s := Clock(h, m) + " PM";
    assert s[2] == ':' && IsDigit(s[0]) && IsDigit(s[1]) && IsDigit(s[3]) && IsDigit(s[4]);
    assert s[5] == ' ' && s[6] == 'P' && s[7] == 'M' && |s| == 8;
  }



  // Date ranges

  /** The calendar days of a trip, first to last, as day ordinals; none when it ends before
      it starts. */
  function TripDays(start: int, end: int): (days: seq<int>)
    ensures |days| == if end >= start then end - start + 1 else 0
    ensures forall i :: 0 <= i < |days| ==> days[i] == start + i
  {
    if end < start then [] else seq(end - start + 1, i => start + i)
  }

  /** `is_valid_date_range` on day ordinals: the trip has between one and 31 days, and every
      one of them lies between today and a year from today. */
  function IsValidDateRange(start: int, end: int, today: int): (b: bool)
    ensures b <==>
      1 <= |TripDays(start, end)| <= 31
      && forall i :: 0 <= i < |TripDays(start, end)| ==> today <= TripDays(start, end)[i] <= today + 365
  {
    var days := TripDays(start, end);
    assert |days| > 0 ==> days[0] == start && days[|days| - 1] == end;
    start >= today && end >= start && end <= today + 365 && end - start <= 30
  }

  /** A valid trip is a start in the year ahead plus a length of 0 to 30 days that still ends
      within that year. */
  lemma ValidRangeShape(start: int, end: int, today: int)
    ensures IsValidDateRange(start, end, today) <==>
      today <= start <= today + 365 && start <= end <= Min(start + 30, today + 365)
  {
  }

  function Min(a: int, b: int): int {
    if a <= b then a else b
  }

  /** Shortening a valid trip from either end keeps it valid. */
  lemma ValidRangeShrinks(start: int, end: int, start2: int, end2: int, today: int)
    requires IsValidDateRange(start, end, today)
    requires start <= start2 <= end2 <= end
    ensures IsValidDateRange(start2, end2, today)
  {
  }

  // Locations

  /** The characters `[^a-zA-Z0-9\s\-\',.]` does not find. */
  predicate LocationChar(c: char) {
    IsAsciiLetter(c) || IsDigit(c) || IsSpace(c) || c == '-' || c == '\'' || c == ',' || c == '.'
  }

  /** `re.findall` of the forbidden characters found nothing. */
  function AllLocationChars(s: string): (b: bool)
    ensures b <==> forall i :: 0 <= i < |s| ==> LocationChar(s[i])
  {
    if |s| == 0 then true
    else if !LocationChar(s[0]) then false
    else
      var b := AllLocationChars(s[1..]);
      assert forall i :: 1 <= i < |s| ==> s[i] == s[1..][i - 1];
      b
  }

  /** `is_valid_location`. */
  function IsValidLocation(location: string): (b: bool)
    ensures b <==> |Strip(location)| >= 2 && forall i :: 0 <= i < |location| ==> LocationChar(location[i])
  {
    if |location| == 0 || |Strip(location)| < 2 then false
    else AllLocationChars(location)
  }

  /** The stripped string has at least two characters exactly when the string holds two
      non-whitespace characters. */
  lemma StripAtLeastTwo(s: string)
    ensures |Strip(s)| >= 2 <==> exists i, j :: 0 <= i < j < |s| && !IsSpace(s[i]) && !IsSpace(s[j])
  {
    var a := LeadingSpaces(s);
    var r := Strip(s);
    if |r| >= 2 {
      assert s[a] == r[0] && s[a + |r| - 1] == r[|r| - 1];
      assert !IsSpace(s[a]) && !IsSpace(s[a + |r| - 1]);
    }
    if exists i, j :: 0 <= i < j < |s| && !IsSpace(s[i]) && !IsSpace(s[j]) {
      var i, j :| 0 <= i < j < |s| && !IsSpace(s[i]) && !IsSpace(s[j]);
      assert a <= i;
      assert j < a + |r|;
    }
  }

  /** A valid location has two non-whitespace characters and no forbidden one. */
  lemma ValidLocationIff(location: string)
    ensures IsValidLocation(location) <==>
      (exists i, j :: 0 <= i < j < |location| && !IsSpace(location[i]) && !IsSpace(location[j])) &&
      forall i :: 0 <= i < |location| ==> LocationChar(location[i])
  {
    StripAtLeastTwo(location);
  }
}

=== FILE: wrappers.dfy ===
/** Failure-carrying wrappers shared by every module of the model. */
module Wrappers {

  /** An optional value: `None` stands for Python's `None` or a failed lookup. */
  datatype Option<+T> = None | Some(value: T)

  /** A value or the exception a Python expression would have raised instead. */
  datatype Result<+T, +E> = Ok(value: T) | Err(error: E)
}
